=== FILE: README.md ===
# In-memory Unix-like file system, modelled in Dafny

This project models a small Java program that simulates a Unix-like file
system in memory:

- a tree of file and directory nodes, each with an owner, a group, three
  `rwx` permission triplets, a "being edited" flag and the text content of
  a file;
- a registry of users with plain-text passwords, a group and a home
  directory;
- a flat text snapshot of the tree and of the registry, one line per node
  or user;
- a line-oriented shell (`login`, `chmod`, `getperm`, `pwd`, `cd`, `ls`,
  `touch`, `rm`, `mkdir`, `rmdir`, `cat`, `vim`, `adduser`, `su`,
  `passwd`).

The Java objects are mutable and linked both ways (children and parent).
The model replaces them with immutable values:

- a `Node` owns a `map` from child name to child;
- a path is the sequence of child names followed from the root;
- an update rebuilds the spine of the tree down to the changed node
  (`Tree.ReplaceAt`).

The session (`Session.State`) holds:

- the tree;
- the registry;
- the current directory, as the key path from the root;
- a copy of the logged-in user.

Every Java method that prints an error and returns becomes a function that
returns the unchanged state together with a `Status.Outcome` naming the
error. `getperm` on a missing path, which prints an error and then an empty
line, is reported as `NotFound`. Two failures of `vim` do leave a change
behind, as the Java code does:

- a path that did not resolve keeps the file `vim` created for it, even
  when the command then fails;
- a failure of the save after the edit flag is raised leaves the flag
  raised.

Modules, in dependency order:

| file | module | what it holds |
|---|---|---|
| common.dfy | `Optional`, `Status`, `Sets` | `Option`; outcomes and error kinds; a ghost enumeration of a set in unspecified order |
| text.dfy | `Text` | `StringTokenizer` (`Split`), Java's `String.split` (`JavaSplit`), `lastIndexOf` |
| codec.dfy | `Codec` | the content escaping of the snapshot file |
| node.dfy | `FsNode` | the node record and its permission accessors |
| tree.dfy | `Tree` | path resolution, `create`, `remove` |
| accounts.dfy | `Accounts` | users, login check, password change, registry load and save |
| access.dfy | `Access` | the owner/group/other permission check |
| snapshot.dfy | `Snapshot` | snapshot records, the pre-order save, the merging load, line parsing |
| reload.dfy | `Reload` | loading the same snapshot lines a second time |
| session.dfy | `Session` | the session state and the `FileSystem` operations that use it |
| shell.dfy | `Shell` | numeric modes, the editor, command dispatch |

Where the program's behaviour departs from what one would expect, the model
follows the code:

- **Snapshot paths of top-level nodes.** The root is saved with an empty
  prefix, and its name is `/`. Its children are therefore saved as
  `//name`, not as a bare name, and every deeper line starts with `//` as
  well (`Snapshot.SaveTopLevel`). Resolution ignores empty segments, so
  these paths still resolve (`Snapshot.SaveSound`).
- **Content escaping.** The content codec does not round-trip every
  string. Decoding turns backslash-`n` into a newline before it collapses
  doubled backslashes, so a content holding a backslash followed by the
  letter `n` comes back changed. `Codec.RoundTripIff` states exactly which
  contents survive.
- **Loading a snapshot.** A load is a merge. It is not idempotent for
  lines out of parent-first order: a line whose parent is not there yet is
  dropped, so the same lines loaded twice can give a different tree
  (`Snapshot.LoadTwiceDiffers`). For lines in the order the save writes
  them, the second load changes nothing (`Reload.LoadOrderedTwice`,
  `Reload.SaveLoadTwice`). One line applied twice equals that line applied
  once (`Snapshot.ApplyRecordTwice`), and loading a tree's own snapshot
  into it changes nothing (`Snapshot.SaveLoad`).
- **Content with a space.** A line is split on single spaces and only the
  seventh field is read as the content. Content holding a space therefore
  comes back cut at its first space (`Snapshot.ContentSpaceTruncated`).
  Empty content leaves a line with six fields, which cannot be read back
  at all (`Snapshot.EmptyContentUnreadable`).
- **Saving a tree with directories.** A node starts without content
  (FileSystemNode.java:22-35), and a snapshot line typed `d` never sets
  one (FileSystem.java:112,121). Saving encodes every node's content, so
  saving any tree whose root never got content from a file-typed `/` line
  dereferences a missing content. The initial tree is such a tree
  (`Session.InitialTreeNotSavable`). The save after every command and at
  `exit` (SimpleShell.java:205,215) therefore ends the Java shell with a
  null dereference, and `vim` succeeds only on a root with content
  (`Shell.Edit`).
- **Bad permission strings.** A permission string whose length is not nine
  is silently ignored. It is not rejected.
- **The working directory at the root.** It prints as `//`.

## Model

| member | source | states |
|---|---|---|
| Session.Init | src/main/java/net/fangyi/FileSystem.java:16-23 | the initial session: root `/` owned by root:root with `rwxr-xr-x` and a single empty directory `root` with the same owner and permissions; only the user `root` with home `/root`; nobody logged in; the session invariant holds |
| Session.InitialTreeNotSavable | src/main/java/net/fangyi/FileSystem.java:63-65 | the initial root has no content, so the initial tree cannot be written without dereferencing a missing content |
| Accounts.InitialUsers | src/main/java/net/fangyi/FileSystem.java:21-22 | the initial registry holds exactly `root`, with password `password`, in group `root` with home `/root`, keyed by user name |
| FsNode.NewNode | src/main/java/net/fangyi/FileSystemNode.java:22-35 | a new node carries the given name, kind, owner, group and triplets, is not being edited, has no children and no content |
| Tree.Segments | src/main/java/net/fangyi/FileSystem.java:33-39 | the segments a path is followed by are non-empty and free of slashes |
| Tree.WalkAppend | src/main/java/net/fangyi/FileSystem.java:34-41 | following two lists of names one after the other reaches the node that following their concatenation does, and nothing if the first fails |
| Tree.WalkMissing | src/main/java/net/fangyi/FileSystem.java:34-41 | a walk reaches nothing once a name is missing from the node reached so far |
| Tree.WalkNamed | src/main/java/net/fangyi/FileSystem.java:25-42 | in a well-formed tree, the node reached by following a non-empty list of names carries the last name |
| Tree.Resolve | src/main/java/net/fangyi/FileSystem.java:25-42 | only an absolute path resolves; an absolute path resolves to exactly the node reached by following its non-empty segments from the root, and to nothing once a segment names no child |
| Tree.ResolveDoubledSlash | src/main/java/net/fangyi/FileSystem.java:33-39 | a doubled slash inside an absolute path resolves like a single one |
| Tree.ResolveTrailingSlash | src/main/java/net/fangyi/FileSystem.java:33-39 | a trailing slash does not change what an absolute path resolves to |
| Text.Split | src/main/java/net/fangyi/SimpleShell.java:13-20 | the tokens are non-empty, hold no delimiter, and together spell the input with the delimiters removed |
| Text.SplitJoin | src/main/java/net/fangyi/SimpleShell.java:13-20 | tokenizing tokens joined by the delimiter gives the tokens back |
| Shell.StepWords | src/main/java/net/fangyi/SimpleShell.java:13-20 | runs of spaces and leading spaces never produce empty words: a space splits a line into the words of each side |
| Text.JavaSplitJoin | src/main/java/net/fangyi/FileSystem.java:97 | `String.split` on fields joined by the delimiter gives the fields back when the last one is non-empty |
| Text.JavaSplitJoinEmptyLast | src/main/java/net/fangyi/FileSystem.java:97 | `String.split` drops a trailing empty field |
| Text.JavaSplit | src/main/java/net/fangyi/FileSystem.java:97 | a line without the delimiter is one field; no field holds the delimiter; otherwise the fields are the delimiter-separated pieces with the trailing empty ones dropped, and the last field kept is non-empty |
| Text.LastIndexOf | src/main/java/net/fangyi/FileSystem.java:229 | the result is -1 exactly when the character is absent, and otherwise the position of its last occurrence |
| Tree.ParentAndName | src/main/java/net/fangyi/FileSystem.java:229-241 | no slash: parent `/`, name the whole path; last slash first: parent `/`; otherwise the path is parent, slash, name; the name never holds a slash |
| Tree.ParentSegments | src/main/java/net/fangyi/FileSystem.java:229-243 | for an absolute path the parent path is absolute, and its segments followed by the name's segment are the path's segments |
| Codec.Encode | src/main/java/net/fangyi/FileSystem.java:44-46 | an encoded content never holds a newline, so each saved node stays on one line |
| Codec.RoundTripIff | src/main/java/net/fangyi/FileSystem.java:44-50 | decoding an encoded content gives it back if and only if it holds no backslash directly followed by `n` |
| Codec.RoundTrip | src/main/java/net/fangyi/FileSystem.java:44-50 | a content without backslash-`n` survives encoding then decoding |
| Codec.RoundTripFails | src/main/java/net/fangyi/FileSystem.java:44-50 | a content with backslash-`n` is changed by encoding then decoding |
| Codec.BackslashNCounterexample | src/main/java/net/fangyi/FileSystem.java:48-50 | the two characters backslash, `n` come back as backslash, newline |
| Codec.Decode | src/main/java/net/fangyi/FileSystem.java:48-50 | decoding never lengthens a content, and a content without a backslash is left as it is |
| FsNode.GetPermissions | src/main/java/net/fangyi/FileSystemNode.java:45-47 | the permission string is the owner, group and other triplets in that order |
| FsNode.SetPermissions | src/main/java/net/fangyi/FileSystemNode.java:37-43 | a nine-character string becomes the three triplets and reads back unchanged; any other length leaves the node as it was; nothing but the triplets changes |
| FsNode.SetOwnPermissions | src/main/java/net/fangyi/FileSystemNode.java:37-47 | writing back a node's own permission string changes nothing |
| FsNode.SetPermissionsIdempotent | src/main/java/net/fangyi/FileSystemNode.java:37-43 | setting the same permissions twice is the same as once |
| FsNode.FormatPermissions | src/main/java/net/fangyi/FileSystemNode.java:49-51 | `d` exactly for directories, then the nine permission characters, then space, owner, space, group |
| Access.ClassOf | src/main/java/net/fangyi/FileSystem.java:212-217 | owner exactly when the names match; group exactly when they do not but the groups do |
| Access.CheckPermissions | src/main/java/net/fangyi/FileSystem.java:208-220 | allowed exactly when the triplet of the user's class has no `-` at the operation's position |
| Access.OwnerTakesPrecedence | src/main/java/net/fangyi/FileSystem.java:212-213 | for the owner only the owner triplet counts, whatever group and other allow |
| Access.OtherOpsAreExecute | src/main/java/net/fangyi/FileSystem.java:213-217 | any operation other than `r` and `w` is checked as `x` |
| Access.NonOwnerIgnoresOwnerTriplet | src/main/java/net/fangyi/FileSystem.java:214-217 | changing the owner triplet never changes a non-owner's access |
| Tree.Create | src/main/java/net/fangyi/FileSystem.java:222-251 | `AlreadyExists` exactly when the path resolves; success exactly when it does not and its parent path resolves to a directory; `InvalidPath` otherwise; a failure changes nothing |
| Tree.CreateAbsolute | src/main/java/net/fangyi/FileSystem.java:243-250 | after a successful absolute create the parent has exactly one more child, under the last name, and the path resolves to a fresh node with `rwx`, `r-x`, `r-x` |
| Tree.CreateKeepsRest | src/main/java/net/fangyi/FileSystem.java:249-250 | every path not leading through the new name resolves as before |
| Tree.CreateKeepsSpine | src/main/java/net/fangyi/FileSystem.java:243-250 | a successful absolute create keeps every node above the new one, with all its fields but its children |
| Tree.CreateKeepsApart | src/main/java/net/fangyi/FileSystem.java:222-251 | whatever the path and the outcome, every key path that neither leads to nor lies below the path is walked to the same node as before |
| Tree.ReplaceAtAbove | src/main/java/net/fangyi/FileSystem.java:249-250 | putting a node in place keeps every node above it, with all its fields but its children |
| Tree.CreateAbsoluteExtends | src/main/java/net/fangyi/FileSystem.java:222-251 | an absolute create only adds: every node still exists with its kind, and its descendants too |
| Tree.CreateRelative | src/main/java/net/fangyi/FileSystem.java:238-250 | a slash-free relative name is put under the root, replacing any child of that name, and still does not resolve afterwards |
| Tree.CreateValid | src/main/java/net/fangyi/FileSystem.java:249-250 | create keeps the tree well formed: every triplet has three characters and every child is stored under its own name |
| Tree.Remove | src/main/java/net/fangyi/FileSystem.java:253-275 | `NotAbsolute` exactly for a relative path; success exactly when the parent path resolves to a directory holding the name; `NotFound` otherwise; a failure changes nothing |
| Tree.RemoveDetaches | src/main/java/net/fangyi/FileSystem.java:274 | after removal neither the path nor anything below it resolves |
| Tree.RemoveKeepsRest | src/main/java/net/fangyi/FileSystem.java:269-274 | the parent loses exactly the removed name, and every path not through it resolves as before |
| Tree.RemoveSlash | src/main/java/net/fangyi/FileSystem.java:259-274 | removing `/` removes the root's child with the empty name, and the root still resolves |
| Tree.RemoveValid | src/main/java/net/fangyi/FileSystem.java:274 | remove keeps the tree well formed |
| Session.ChangeDirectory | src/main/java/net/fangyi/FileSystem.java:277-295 | `NotAbsolute`, `NotFound` (missing or a file), `PermissionDenied` (no read bit for the user's class) each exactly in its case; success exactly when the path is absolute and resolves to a directory the user may read; on success only the current directory changes, to the path's node |
| Session.CurrentDirectoryPath | src/main/java/net/fangyi/FileSystem.java:330-339 | the printed path starts and ends with a slash |
| Session.CurrentDirectoryAtRoot | src/main/java/net/fangyi/FileSystem.java:330-339 | at the root the printed path is `//` |
| Session.CurrentDirectoryResolves | src/main/java/net/fangyi/FileSystem.java:330-339 | the printed path is absolute and resolves to the current directory |
| Session.ChangeDirectoryThenPath | src/main/java/net/fangyi/FileSystem.java:277-339 | after a successful `cd` the printed path resolves to the node the argument resolved to |
| Accounts.Authenticate | src/main/java/net/fangyi/FileSystem.java:197-202 | a user is found exactly when the name is registered with that password |
| Session.Login | src/main/java/net/fangyi/FileSystem.java:197-206 | success exactly for a registered name with its password, then that user is current; the directory becomes the home exactly when `cd` to the home would succeed for that user, and otherwise stays; failure changes nothing |
| Session.InitialLogin | src/main/java/net/fangyi/FileSystem.java:197-206 | on a fresh file system `root` logs in with `password`, becomes the current user and lands in `/root` |
| Session.AddUser | src/main/java/net/fangyi/FileSystem.java:175-185 | `UserExists` exactly for a registered name, changing nothing; otherwise the user is registered with home `/name`, whose directory is created for the user only when nothing resolves there |
| Session.AddUserHome | src/main/java/net/fangyi/FileSystem.java:181-184 | a new user's missing home becomes a directory owned by the user and the user's group |
| Session.AddUserInv | src/main/java/net/fangyi/FileSystem.java:175-185 | adding a user keeps the session invariant |
| Session.AddUserThenLogin | src/main/java/net/fangyi/FileSystem.java:175-206 | a freshly added user can log in with the password and lands in the new home |
| Accounts.ChangePassword | src/main/java/net/fangyi/FileSystem.java:187-195 | `NoSuchUser` exactly for an unknown name, changing nothing; otherwise only that user's password changes |
| Accounts.ChangePasswordThenLogin | src/main/java/net/fangyi/FileSystem.java:187-202 | after a password change exactly the new password authenticates |
| Accounts.LoadUsers | src/main/java/net/fangyi/FileSystem.java:144-151 | loading keeps every registered name and registers every loaded name |
| Accounts.LoadUsersUpsert | src/main/java/net/fangyi/FileSystem.java:144-151 | the names afterwards are the old ones plus the loaded ones; untouched users stay; the last line for a name wins |
| Accounts.LoadUsersTwice | src/main/java/net/fangyi/FileSystem.java:144-151 | loading the same user lines twice is the same as once |
| Accounts.SaveUsers | src/main/java/net/fangyi/FileSystem.java:72-80 | one saved line per registered name, each a registered user |
| Accounts.SaveUsersNames | src/main/java/net/fangyi/FileSystem.java:72-80 | the saved lines name every registered user exactly once, in some order |
| Accounts.SaveLoadUsers | src/main/java/net/fangyi/FileSystem.java:72-80 | loading the registry's own saved lines into it changes nothing, whatever order they were saved in |
| Accounts.ParseUser | src/main/java/net/fangyi/FileSystem.java:145-150 | a user line is read exactly when it has at least four space-separated fields |
| Accounts.ParseUserLine | src/main/java/net/fangyi/FileSystem.java:75 | a saved user line reads back as the same user when no field holds a space |
| Session.SetPermissionsAt | src/main/java/net/fangyi/FileSystem.java:157-164 | succeeds exactly when the path resolves, and the node there then has the new permissions; otherwise `NotFound` and nothing changes |
| Session.SetPermissionsAtKeepsRest | src/main/java/net/fangyi/FileSystem.java:157-164 | every node not on or below the path is unaffected |
| Session.GetPermissionsAt | src/main/java/net/fangyi/FileSystem.java:166-173 | empty for a missing path; for a resolved path, the permission string of the node there, nine characters when the node is well formed |
| Session.SetThenGetPermissions | src/main/java/net/fangyi/FileSystem.java:157-173 | permissions set at a path read back unchanged; a string of another length changes nothing |
| Session.ReadFile | src/main/java/net/fangyi/FileSystem.java:309-328 | `InvalidPath` exactly for a missing path or a directory, `PermissionDenied` exactly without the read bit, `BeingEdited` exactly for a readable file open in the editor; otherwise the file's content |
| Snapshot.SaveNode | src/main/java/net/fangyi/FileSystem.java:60-70 | a node's lines start with its own line, under the given prefix |
| Snapshot.Save | src/main/java/net/fangyi/FileSystem.java:52-58 | a snapshot starts with the root's own line, under the empty prefix |
| Snapshot.SaveSound | src/main/java/net/fangyi/FileSystem.java:60-70 | every saved line's path resolves, in the saved tree, to a node the line describes |
| Snapshot.SaveNodePrefixed | src/main/java/net/fangyi/FileSystem.java:60-70 | every line a node writes has a path that starts with the prefix it was written under |
| Snapshot.SaveTopLevel | src/main/java/net/fangyi/FileSystem.java:52-70 | the root's line has path `/`, every other line's path starts with `//`, and each child of the root is saved under `//` followed by its name |
| Snapshot.SaveComplete | src/main/java/net/fangyi/FileSystem.java:60-70 | every node of the tree has a saved line |
| Snapshot.SaveParentsFirst | src/main/java/net/fangyi/FileSystem.java:60-70 | the first line is the root's, `/`, and every other line comes after its parent's line |
| Snapshot.RecordLineSingle | src/main/java/net/fangyi/FileSystem.java:63-65 | a saved node is one line: it holds no newline when its names do not |
| Snapshot.Refresh | src/main/java/net/fangyi/FileSystem.java:108-123 | a line sets the flag, sets nine-character permissions only, decodes the content of a file and keeps a directory's; name, kind and children stay |
| Snapshot.ApplyRecord | src/main/java/net/fangyi/FileSystem.java:106-125 | a line whose path resolves leaves the overwritten node at that path; a line whose node is missing and whose parent is not a directory changes nothing |
| Snapshot.ApplyExisting | src/main/java/net/fangyi/FileSystem.java:106-114 | a line for an existing node overwrites it in place, keeping its kind and children and taking owner and group from the line |
| Snapshot.ApplyMissing | src/main/java/net/fangyi/FileSystem.java:115-124 | a line for a missing node whose create succeeds leaves a fresh node there with the line's fields |
| Snapshot.ApplyAbsoluteExtends | src/main/java/net/fangyi/FileSystem.java:106-125 | a line with an absolute path never drops a node |
| Snapshot.ApplyRelative | src/main/java/net/fangyi/FileSystem.java:115-116 | a line with a slash-free relative path replaces the root's child of that name by a fresh node, losing its subtree |
| Tree.CreateRelativeDone | src/main/java/net/fangyi/FileSystem.java:222-251 | a create with a relative path succeeds exactly when it holds no slash and the root is a directory |
| Snapshot.ApplyOrphan | src/main/java/net/fangyi/FileSystem.java:115-118 | a line whose node and parent are both missing changes nothing |
| Snapshot.ApplyRecordTwice | src/main/java/net/fangyi/FileSystem.java:106-125 | applying one line twice is the same as applying it once |
| Snapshot.ApplyDescribed | src/main/java/net/fangyi/FileSystem.java:106-114 | a line describing its node exactly, with content that survives the codec, changes nothing |
| Snapshot.LoadExtends | src/main/java/net/fangyi/FileSystem.java:96-126 | loading lines with absolute paths never drops a node nor changes a node's kind |
| Snapshot.LoadFixed | src/main/java/net/fangyi/FileSystem.java:96-126 | lines that each change nothing change nothing together |
| Snapshot.SaveLoad | src/main/java/net/fangyi/FileSystem.java:82-130 | loading a well-formed tree's own snapshot into it gives the same tree, when every child name is a non-empty slash-free segment and every node has content that survives the codec |
| Snapshot.LoadTwiceDiffers | src/main/java/net/fangyi/FileSystem.java:106-125 | a child's line before its new parent's is dropped on the first load and applied on the second, so loading the same lines twice differs from once |
| Snapshot.ParseBoolean | src/main/java/net/fangyi/FileSystem.java:103 | true exactly for `true` in any ASCII letter case |
| Snapshot.ParseRecord | src/main/java/net/fangyi/FileSystem.java:97-104 | a line is read exactly when it has at least seven space-separated fields |
| Snapshot.ParseRecordLine | src/main/java/net/fangyi/FileSystem.java:97-104 | a saved line reads back as the same record when no field holds a space and the content is non-empty |
| Snapshot.EmptyContentUnreadable | src/main/java/net/fangyi/FileSystem.java:97-104 | a saved line with empty content has only six fields and cannot be read back |
| Snapshot.ContentSpaceTruncated | src/main/java/net/fangyi/FileSystem.java:97-104 | a saved line whose content holds a space reads back with the content cut at its first space |
| Reload.SettledFixed | src/main/java/net/fangyi/FileSystem.java:106-125 | a line already settled in a tree (its node is what the line would make it, or it cannot be placed) changes nothing |
| Reload.ApplySettles | src/main/java/net/fangyi/FileSystem.java:106-125 | applying a line with an absolute path settles it |
| Reload.ApplyElsewhere | src/main/java/net/fangyi/FileSystem.java:106-125 | applying a line keeps, at every other key path, whether a node is there and every field of that node but its children |
| Reload.KeepSettled | src/main/java/net/fangyi/FileSystem.java:106-125 | applying a line for another path keeps a settled line settled |
| Reload.LoadSettles | src/main/java/net/fangyi/FileSystem.java:96-126 | after a load of absolute lines, every line is settled when no line is followed by one for its own path or for its parent's path |
| Reload.LoadTwice | src/main/java/net/fangyi/FileSystem.java:82-130 | under that condition, loading the same lines twice is the same as once |
| Reload.ParentsFirstAvoid | src/main/java/net/fangyi/FileSystem.java:60-70 | lines with one line per path, each after its parent's, meet that condition |
| Reload.LoadOrderedTwice | src/main/java/net/fangyi/FileSystem.java:82-130 | absolute lines with one line per path, each after its parent's, load twice the same as once |
| Reload.SaveDistinct | src/main/java/net/fangyi/FileSystem.java:60-70 | a snapshot holds one line per path |
| Reload.SaveLoadTwice | src/main/java/net/fangyi/FileSystem.java:52-130 | loading the snapshot of a well-formed tree, with a content on every node and slash-free non-empty child names, twice into any tree is the same as loading it once |
| Shell.Triplets | src/main/java/net/fangyi/SimpleShell.java:89-92 | defined exactly for octal digits, giving each digit's triplet from the table in order |
| Shell.Symbolic | src/main/java/net/fangyi/SimpleShell.java:83-95 | non-empty exactly for three octal digits, and then each digit's triplet in order; otherwise empty |
| Shell.SymbolicBits | src/main/java/net/fangyi/SimpleShell.java:87-91 | each permission character is the letter of its bit when the digit has that bit set, `-` otherwise |
| Shell.SymbolicNumeric | src/main/java/net/fangyi/SimpleShell.java:83-95 | every well-formed nine-character permission string is the conversion of some three-digit mode |
| Shell.NumericSymbolic | src/main/java/net/fangyi/SimpleShell.java:83-95 | distinct valid modes convert to distinct permission strings: the mode is recovered from its conversion |
| Shell.SymbolicExamples | src/main/java/net/fangyi/SimpleShell.java:83-95 | `750` gives `rwxr-x---`, `644` gives `rw-r--r--`; `75`, `7500` and `758` give the empty string |
| Shell.FirstQuit | src/main/java/net/fangyi/SimpleShell.java:70-75 | the position of the first `:wq` line, or the number of lines when there is none |
| Shell.EditedContent | src/main/java/net/fangyi/SimpleShell.java:68-79 | the editor saves exactly when a `:wq` line arrives, and the saved text extends the old content |
| Shell.EditBuffer | src/main/java/net/fangyi/SimpleShell.java:68-79 | the loop saves exactly when a `:wq` arrives, then with the old content followed by each earlier line and a newline; otherwise the content stays |
| Shell.EditNode | src/main/java/net/fangyi/SimpleShell.java:58-80 | a file open in the editor is refused and unchanged; otherwise only its content may change, to what the editor saves |
| Shell.EditAppends | src/main/java/net/fangyi/SimpleShell.java:68-79 | editing only ever appends to a file's content |
| Shell.Opened | src/main/java/net/fangyi/SimpleShell.java:43-47 | a path that resolves leaves the tree alone; creating a missing one touches no key path apart from it |
| Shell.OpenedFile | src/main/java/net/fangyi/SimpleShell.java:43-47 | the node looked up again after the implicit create: present exactly when the path resolves in the opened tree, and then well formed |
| Shell.Edit | src/main/java/net/fangyi/SimpleShell.java:42-81 | after the implicit create, a path that still does not resolve is a null dereference; then `IsDirectory` exactly for a directory, `PermissionDenied` exactly for a file the user's class may not write, `BeingEdited` exactly for a writable file already flagged, and success exactly for a writable unflagged file when the tree with its flag raised has content on every node; success leaves, at the path, the node the editor loop makes of the file, not being edited; a refusal on a path that resolved changes nothing; key paths apart from the path keep their nodes; the tree stays well formed |
| Shell.Chmod | src/main/java/net/fangyi/SimpleShell.java:104-114 | an invalid mode is refused exactly when the conversion is empty, changing nothing; a valid one is set at the path |
| Shell.PathCommand | src/main/java/net/fangyi/SimpleShell.java:115-168 | `getperm` and `cat` leave the state alone, `getperm` succeeding exactly when the path resolves and `cat` exactly when the read succeeds, else with the read's error; `cd`, `vim` are the directory change and the editor; `touch` and `mkdir` create as the current user, a file and a directory respectively; `rm` and `rmdir` remove |
| Shell.AccountCommand | src/main/java/net/fangyi/SimpleShell.java:169-190 | `adduser` adds into group `users`, `su` logs in, `passwd` changes the password of the named user and reports its outcome |
| Shell.Execute | src/main/java/net/fangyi/SimpleShell.java:97-195 | nothing but `login` runs without a user; an unknown command is reported exactly for names outside the fifteen; refusals change nothing; a path command with other than one argument is a usage error that changes nothing; `chmod`, `touch`, `mkdir`, `cd`, `rm`, `rmdir`, `vim`, `adduser`, `login`, `su` and `passwd` each have the effect of the operation they dispatch to |
| Shell.ExecuteInv | src/main/java/net/fangyi/SimpleShell.java:97-195 | every command keeps the session invariant |
| Shell.Step | src/main/java/net/fangyi/SimpleShell.java:203-214 | the line `exit` and a blank line leave the state alone; otherwise the first word is the command and the rest its arguments |

## Left out

- Files and streams are not modelled: `FileWriter`, `FileReader`, `createNewFile`, the `IOException` paths and the file names. A snapshot is a sequence of `Snapshot.Record`s or lines; a registry file is a sequence of `Accounts.User`s.
- The loop of `run` (SimpleShell.java:197-218) is not modelled as a loop. That covers the reload and save of both files around each command, the prompt, and the saves on `exit`. Only the handling of one line is modelled, as `Shell.Step`.
- Session.ReadFile: the reload of the snapshot between the permission check and the flag check (FileSystem.java:321) is not modelled; the flag is read from the current tree.
- Shell.Edit: the reload of the snapshot before the flag check (SimpleShell.java:57) is not modelled. The save after raising the flag (line 63) is modelled only through its failure: it dereferences the content of every node, so any node without content ends the command with a null dereference, with the flag left raised.
- Output is not modelled: printed messages, `pwd`, `getperm` and `cat` output, and `ls`/`listDirectory` (FileSystem.java:297-307). `ls` leaves the state alone in the model.
- The editor's `Scanner` on standard input is the `input` parameter, a sequence of lines.
- `HashMap` iteration order is unspecified. Saving the tree and the registry enumerates map keys in an arbitrary order (`Sets.Enumerate`), so `Snapshot.Save` and `Accounts.SaveUsers` are ghost, and their properties hold for every order.
- Java exceptions do not end the model's shell. A null dereference is reported as the outcome `NullDereference`. An out-of-range field index on a short snapshot or registry line is reported as the parse returning `None`.
- Snapshot.Load: takes parsed records. A line with fewer than seven fields makes Java throw an index exception, which the `IOException` handler (FileSystem.java:127) does not catch, so it leaves `loadFromFile` and ends `run`; the model only reports such a line as unreadable (`Snapshot.ParseRecord` returns `None`).
- Parent back-references are not stored. A node's path is the key path leading to it.
- Session.State: the current directory is kept as a key path, not as a reference to a node. A directory that is removed or replaced while current is therefore not tracked the way the Java reference would be.
- Session.State: the logged-in user is kept as a copy. A `passwd` on the current user does not update the copy. Nothing reads the password from it afterwards.
- `User.java` has no behaviour of its own. It is the `Accounts.User` datatype.
- FsNode.SetPermissions: the length of nine is counted in characters, whereas Java's `length()` counts UTF-16 code units. A string holding characters outside the Basic Multilingual Plane is therefore accepted or ignored differently (nine characters but more code units is applied here and ignored by Java; nine code units with a surrogate pair is ignored here and split by Java). The same holds for `Snapshot.Refresh`, `Session.SetPermissionsAt` and `Session.SetThenGetPermissions`. `chmod` is unaffected: only the digits `0` to `7` pass the mode conversion.
- Snapshot.ParseBoolean: folds ASCII letters only, whereas `Boolean.parseBoolean` compares with Java's full case-insensitive character comparison.
- Concurrency and the races between sessions sharing the snapshot files are not modelled.

=== FILE: access.dfy ===
/**
 * The Unix-style permission check: the user falls into exactly one class
 * of the node (owner, else group, else other), and the class's triplet
 * decides the operation.
 */
module Access {
  import opened FsNode
  import opened Accounts

  /** The three classes a user can fall into for a node. */
  datatype Class = Owner | Group | Other

  /** Owner if the names match, else group if the groups match, else other. */
  function ClassOf(user: User, n: Node): (c: Class)
    ensures c == Owner <==> n.owner == user.username
    ensures c == Group <==> n.owner != user.username && n.group == user.group
  {
    if n.owner == user.username then Owner
    else if n.group == user.group then Group
    else Other
  }

  /** The triplet that governs a class. */
  function TripletOf(n: Node, c: Class): string
  {
    match c
    case Owner => n.userPerms
    case Group => n.groupPerms
    case Other => n.otherPerms
  }

  /** Position of an operation inside a triplet: `r`, `w`, and anything else as `x`. */
  function OpOffset(op: char): (i: nat)
    ensures i < 3
    ensures i == 0 <==> op == 'r'
    ensures i == 1 <==> op == 'w'
  {
    if op == 'r' then 0 else if op == 'w' then 1 else 2
  }

  /** Position of a class's triplet inside the nine-character permission string. */
  function ClassOffset(c: Class): nat
  {
    match c
    case Owner => 0
    case Group => 3
    case Other => 6
  }

  /**
   * `checkPermissions`: the character at class offset plus operation offset
   * of the nine-character permission string is not `-`. The caller must have
   * a user (the Java code dereferences the current user), which is why the
   * user is a plain parameter here.
   */
  function CheckPermissions(user: User, n: Node, op: char): (ok: bool)
    requires TripletsOk(n)
    ensures ok <==> TripletOf(n, ClassOf(user, n))[OpOffset(op)] != '-'
  {
    GetPermissions(n)[ClassOffset(ClassOf(user, n)) + OpOffset(op)] != '-'
  }

  /**
   * The owner's own triplet decides for the owner, even when it denies what
   * the group or other triplet would allow.
   */
  lemma OwnerTakesPrecedence(user: User, n: Node, op: char)
    requires TripletsOk(n) && n.owner == user.username
    ensures CheckPermissions(user, n, op) <==> n.userPerms[OpOffset(op)] != '-'
  {
  }

  /** Any operation character other than `r` and `w` is checked against the `x` position. */
  lemma OtherOpsAreExecute(user: User, n: Node, op: char)
    requires TripletsOk(n) && op != 'r' && op != 'w'
    ensures CheckPermissions(user, n, op) == CheckPermissions(user, n, 'x')
  {
  }

  /** Changing only the permissions of the owner's triplet never affects a non-owner. */
  lemma NonOwnerIgnoresOwnerTriplet(user: User, n: Node, perms: string, op: char)
    requires TripletsOk(n) && |perms| == 3 && n.owner != user.username
    ensures CheckPermissions(user, n.(userPerms := perms), op) == CheckPermissions(user, n, op)
  {
  }
}

=== FILE: accounts.dfy ===
/**
 * The user registry: a map from user name to user record, its upsert-style
 * reload from saved records, its writer, and the password change.
 */
module Accounts {
  import opened Optional
  import opened Status
  import opened Text
  import opened Sets

  /** A registered user; `home` is the absolute path of the home directory. */
  datatype User = User(username: string, password: string, group: string, home: string)

  type Registry = map<string, User>

  /** Every entry is filed under its own user name. */
  predicate Keyed(users: Registry)
  {
    forall name :: name in users ==> users[name].username == name
  }

  /** The registry a fresh file system starts with: `root`, password `password`, home `/root`. */
  function InitialUsers(): (r: Registry)
    ensures Keyed(r) && r.Keys == {"root"}
    ensures r["root"].group == "root" && r["root"].home == "/root"
    ensures r["root"].password == "password"
  {
    map["root" := User("root", "password", "root", "/root")]
  }

  /** The user whose name and password both match, if any. */
  function Authenticate(users: Registry, name: string, password: string): (r: Option<User>)
    ensures r.Some? <==> name in users && users[name].password == password
    ensures r.Some? ==> r.value == users[name]
  {
    if name in users && users[name].password == password then Some(users[name]) else None
  }

  /**
   * `changeUserPassword`: an unknown name changes nothing; otherwise only
   * that user's password changes.
   */
  function ChangePassword(users: Registry, name: string, password: string): (r: (Registry, Outcome))
    ensures name !in users <==> r.1 == Failed(NoSuchUser)
    ensures name !in users ==> r.0 == users
    ensures r.1 == Done || r.1 == Failed(NoSuchUser)
    ensures r.0.Keys == users.Keys
    ensures forall k :: k in users && k != name ==> r.0[k] == users[k]
    ensures name in users ==> r.0[name] == users[name].(password := password)
  {
    if name !in users then (users, Failed(NoSuchUser))
    else (users[name := users[name].(password := password)], Done)
  }

  /** After a password change the new password, and only it, authenticates. */
  lemma ChangePasswordThenLogin(users: Registry, name: string, password: string, attempt: string)
    requires name in users
    ensures Authenticate(ChangePassword(users, name, password).0, name, attempt).Some? <==> attempt == password
  {
  }

  /**
   * `loadUsersFromFile` over already parsed records: each record is put
   * under its user name, replacing any entry of that name.
   */
  function LoadUsers(users: Registry, records: seq<User>): (r: Registry)
    ensures users.Keys <= r.Keys
    ensures forall i :: 0 <= i < |records| ==> records[i].username in r
    decreases |records|
  {
    if records == [] then users
    else LoadUsers(users[records[0].username := records[0]], records[1..])
  }

  /** The names a list of records mentions. */
  function Names(records: seq<User>): set<string>
  {
    set i | 0 <= i < |records| :: records[i].username
  }

  /**
   * Loading is an upsert: the result keeps every entry whose name no record
   * mentions, and otherwise holds the LAST record with that name.
   */
  lemma LoadUsersUpsert(users: Registry, records: seq<User>)
    ensures LoadUsers(users, records).Keys == users.Keys + Names(records)
    ensures forall k :: k in users && k !in Names(records) ==> LoadUsers(users, records)[k] == users[k]
    ensures forall i :: 0 <= i < |records| && (forall j :: i < j < |records| ==> records[j].username != records[i].username)
              ==> LoadUsers(users, records)[records[i].username] == records[i]
  {
    LoadUsersKeys(users, records);
    forall k | k in users && k !in Names(records) ensures LoadUsers(users, records)[k] == users[k] {
      LoadUsersKeeps(users, records, k);
    }
    forall i | 0 <= i < |records| && (forall j :: i < j < |records| ==> records[j].username != records[i].username)
      ensures LoadUsers(users, records)[records[i].username] == records[i]
    {
      LastRecordWins(users, records, i);
    }
  }

  /** The names of a non-empty list: the first one and those of the rest. */
  lemma NamesCons(records: seq<User>)
    requires records != []
    ensures Names(records) == {records[0].username} + Names(records[1..])
  {
    var rest := records[1..];
    forall k | k in Names(records) ensures k in {records[0].username} + Names(rest) {
      var i :| 0 <= i < |records| && records[i].username == k;
      if i > 0 { assert rest[i - 1] == records[i]; }
    }
    forall k | k in Names(rest) ensures k in Names(records) {
      var i :| 0 <= i < |rest| && rest[i].username == k;
      assert records[i + 1] == rest[i];
    }
  }

  /** The keys after a load: the old ones and the loaded names. */
  lemma {:induction false} LoadUsersKeys(users: Registry, records: seq<User>)
    ensures LoadUsers(users, records).Keys == users.Keys + Names(records)
    decreases |records|
  {
    if records != [] {
      LoadUsersKeys(users[records[0].username := records[0]], records[1..]);
      NamesCons(records);
    }
  }

  /** An entry whose name no record mentions survives a load. */
  lemma {:induction false} LoadUsersKeeps(users: Registry, records: seq<User>, k: string)
    requires k in users && k !in Names(records)
    ensures LoadUsers(users, records)[k] == users[k]
    decreases |records|
  {
    if records != [] {
      NamesCons(records);
      LoadUsersKeeps(users[records[0].username := records[0]], records[1..], k);
    }
  }

  /** A record with no later namesake is what the load leaves under its name. */
  lemma {:induction false} LastRecordWins(users: Registry, records: seq<User>, i: nat)
    requires i < |records|
    requires forall j :: i < j < |records| ==> records[j].username != records[i].username
    ensures LoadUsers(users, records)[records[i].username] == records[i]
    decreases |records|
  {
    var u, rest := records[0], records[1..];
    var next := users[u.username := u];
    if i == 0 {
      assert u.username !in Names(rest) by {
        forall j | 0 <= j < |rest| ensures rest[j].username != u.username {
          assert rest[j] == records[j + 1];
        }
      }
      LoadUsersKeeps(next, rest, u.username);
    } else {
      assert records[i] == rest[i - 1];
      forall j | i - 1 < j < |rest| ensures rest[j].username != rest[i - 1].username {
        assert rest[j] == records[j + 1];
      }
      LastRecordWins(next, rest, i - 1);
    }
  }

  /** Loading the same records twice equals loading them once. */
  lemma {:induction false} LoadUsersTwice(users: Registry, records: seq<User>)
    ensures LoadUsers(LoadUsers(users, records), records) == LoadUsers(users, records)
  {
    var once := LoadUsers(users, records);
    LoadUsersUpsert(users, records);
    LoadUsersUpsert(once, records);
    var twice := LoadUsers(once, records);
    forall k | k in twice.Keys ensures twice[k] == once[k] {
      if k in Names(records) {
        var i := LastWith(records, k);
        assert twice[records[i].username] == records[i];
      }
    }
  }

  /** The position of the last record named `k`. */
  function LastWith(records: seq<User>, k: string): (i: nat)
    requires k in Names(records)
    ensures i < |records| && records[i].username == k
    ensures forall j :: i < j < |records| ==> records[j].username != k
    decreases |records|
  {
    if records[|records| - 1].username == k then |records| - 1
    else
      var init := records[..|records| - 1];
      assert k in Names(init) by {
        var i :| 0 <= i < |records| && records[i].username == k;
        assert init[i] == records[i];
      }
      LastWith(init, k)
  }

  /** The entries filed under `keys`, in that order. */
  function EntriesAt(users: Registry, keys: seq<string>): (r: seq<User>)
    requires forall i :: 0 <= i < |keys| ==> keys[i] in users
    ensures |r| == |keys|
    ensures forall i :: 0 <= i < |keys| ==> r[i] == users[keys[i]]
  {
    if keys == [] then [] else [users[keys[0]]] + EntriesAt(users, keys[1..])
  }

  /**
   * `saveUsersToFile`: the registry's entries, each once, in the registry's
   * (unspecified) iteration order.
   */
  ghost function SaveUsers(users: Registry): (r: seq<User>)
    ensures |r| == |users.Keys|
    ensures forall i :: 0 <= i < |r| ==> r[i] in users.Values
  {
    EntriesAt(users, Enumerate(users.Keys))
  }

  /**
   * For a keyed registry, the saved records name every key, and no name
   * twice.
   */
  lemma SaveUsersNames(users: Registry)
    requires Keyed(users)
    ensures Names(SaveUsers(users)) == users.Keys
    ensures forall i, j :: 0 <= i < j < |SaveUsers(users)| ==> SaveUsers(users)[i].username != SaveUsers(users)[j].username
  {
    EntriesNames(users, Enumerate(users.Keys), SaveUsers(users));
  }

  /** Reloading what was saved, into the same registry, changes nothing. */
  lemma SaveLoadUsers(users: Registry)
    requires Keyed(users)
    ensures LoadUsers(users, SaveUsers(users)) == users
  {
    var ks, r := Enumerate(users.Keys), SaveUsers(users);
    EntriesNames(users, ks, r);
    LoadEntries(users, r);
  }

  /** The entries of a keyed registry listed once each, by key, are named by their keys. */
  lemma EntriesNames(users: Registry, ks: seq<string>, r: seq<User>)
    requires Keyed(users) && |r| == |ks|
    requires forall i :: 0 <= i < |ks| ==> ks[i] in users && r[i] == users[ks[i]]
    requires forall k :: k in users ==> k in ks
    requires forall i, j :: 0 <= i < j < |ks| ==> ks[i] != ks[j]
    ensures Names(r) == users.Keys
    ensures forall i, j :: 0 <= i < j < |r| ==> r[i].username != r[j].username
    ensures forall i :: 0 <= i < |r| ==> r[i].username in users && r[i] == users[r[i].username]
  {
    assert forall i :: 0 <= i < |r| ==> r[i].username == ks[i];
    assert forall i :: 0 <= i < |r| ==> r[i] == users[r[i].username];
    assert Names(r) <= users.Keys by {
      forall k | k in Names(r) ensures k in users {
        var i :| 0 <= i < |r| && r[i].username == k;
      }
    }
    assert users.Keys <= Names(r) by {
      forall k | k in users ensures k in Names(r) {
        var i :| 0 <= i < |ks| && ks[i] == k;
        assert r[i].username == k;
      }
    }
  }

  /** Loading the entries of a registry, listed once each, gives the registry back. */
  lemma LoadEntries(users: Registry, r: seq<User>)
    requires Keyed(users)
    requires forall i :: 0 <= i < |r| ==> r[i].username in users && r[i] == users[r[i].username]
    requires Names(r) == users.Keys
    requires forall i, j :: 0 <= i < j < |r| ==> r[i].username != r[j].username
    ensures LoadUsers(users, r) == users
  {
    LoadUsersKeys(users, r);
    var l := LoadUsers(users, r);
    forall k | k in users ensures k in l && l[k] == users[k] {
      assert k in Names(r);
      var i :| 0 <= i < |r| && r[i].username == k;
      LastRecordWins(users, r, i);
    }
  }

  /** One line of the users file: name, password, group and home, space-separated. */
  function UserLine(u: User): string
  {
    Join([u.username, u.password, u.group, u.home], ' ')
  }

  /** Reading a users-file line back; fewer than four fields make Java throw. */
  function ParseUser(line: string): (r: Option<User>)
    ensures r.Some? <==> |JavaSplit(line, ' ')| >= 4
  {
    var parts := JavaSplit(line, ' ');
    if |parts| < 4 then None else Some(User(parts[0], parts[1], parts[2], parts[3]))
  }

  /** A user whose fields are space-free (and whose home is non-empty) survives its line. */
  lemma ParseUserLine(u: User)
    requires ' ' !in u.username && ' ' !in u.password && ' ' !in u.group && ' ' !in u.home
    requires u.home != ""
    ensures ParseUser(UserLine(u)) == Some(u)
  {
    var fs := [u.username, u.password, u.group, u.home];
    JavaSplitJoin(fs, ' ');
  }
}

=== FILE: codec.dfy ===
/**
 * Content escaping used by the snapshot file (FileSystem.encodeContent and
 * FileSystem.decodeContent). Encoding doubles every backslash and then
 * writes every newline as backslash + 'n'. Decoding first turns every
 * backslash + 'n' into a newline and only then collapses doubled
 * backslashes, which is the wrong order: a backslash that was followed by
 * the letter 'n' comes back followed by a newline.
 */
module Codec {
  import opened Text

  const Backslash: char := '\\'

  /** What `Encode` writes for one character. */
  function Escape(c: char): string
  {
    if c == Backslash then [Backslash, Backslash]
    else if c == '\n' then [Backslash, 'n']
    else [c]
  }

  /** First pass of `encodeContent`: every backslash becomes two. */
  function DoubleBackslashes(s: string): string
  {
    if s == [] then [] else Doubled(s[0]) + DoubleBackslashes(s[1..])
  }

  /** What `DoubleBackslashes` writes for one character. */
  function Doubled(c: char): string
  {
    if c == Backslash then [Backslash, Backslash] else [c]
  }

  /** Second pass of `encodeContent`: every newline becomes backslash + 'n'. */
  function EscapeNewlines(s: string): (r: string)
    ensures '\n' !in r
  {
    if s == [] then [] else (if s[0] == '\n' then [Backslash, 'n'] else [s[0]]) + EscapeNewlines(s[1..])
  }

  /** `encodeContent`: the encoding never contains a newline, so it fits on one line. */
  function Encode(s: string): (r: string)
    ensures '\n' !in r
  {
    EscapeNewlines(DoubleBackslashes(s))
  }

  /** First pass of `decodeContent`: a left-to-right scan replacing backslash + 'n' by a newline. */
  function UnescapeNewlines(e: string): string
  {
    if |e| >= 2 && e[0] == Backslash && e[1] == 'n' then ['\n'] + UnescapeNewlines(e[2..])
    else if e == [] then []
    else [e[0]] + UnescapeNewlines(e[1..])
  }

  /** Second pass of `decodeContent`: a left-to-right scan replacing two backslashes by one. */
  function CollapseBackslashes(e: string): string
  {
    if |e| >= 2 && e[0] == Backslash && e[1] == Backslash then [Backslash] + CollapseBackslashes(e[2..])
    else if e == [] then []
    else [e[0]] + CollapseBackslashes(e[1..])
  }

  /** `decodeContent`: it never lengthens the text, and text without a backslash is left as it is. */
  function Decode(e: string): (r: string)
    ensures |r| <= |e|
    ensures Backslash !in e ==> r == e
  {
    UnescapeNewlinesShrinks(e);
    CollapseBackslashesShrinks(UnescapeNewlines(e));
    CollapseBackslashes(UnescapeNewlines(e))
  }

  /** The first decoding pass never lengthens, and keeps text without a backslash. */
  lemma {:induction false} UnescapeNewlinesShrinks(e: string)
    ensures |UnescapeNewlines(e)| <= |e|
    ensures Backslash !in e ==> UnescapeNewlines(e) == e
    decreases |e|
  {
    if |e| >= 2 && e[0] == Backslash && e[1] == 'n' {
      UnescapeNewlinesShrinks(e[2..]);
    } else if e != [] {
      UnescapeNewlinesShrinks(e[1..]);
      assert e == [e[0]] + e[1..];
    }
  }

  /** The second decoding pass never lengthens, and keeps text without a backslash. */
  lemma {:induction false} CollapseBackslashesShrinks(e: string)
    ensures |CollapseBackslashes(e)| <= |e|
    ensures Backslash !in e ==> CollapseBackslashes(e) == e
    decreases |e|
  {
    if |e| >= 2 && e[0] == Backslash && e[1] == Backslash {
      CollapseBackslashesShrinks(e[2..]);
    } else if e != [] {
      CollapseBackslashesShrinks(e[1..]);
      assert e == [e[0]] + e[1..];
    }
  }

  /** `s` holds a backslash immediately followed by the letter 'n'. */
  predicate HasBackslashN(s: string)
  {
    exists i :: 0 <= i < |s| - 1 && s[i] == Backslash && s[i + 1] == 'n'
  }

  lemma {:induction false} EscapeNewlinesAppend(a: string, b: string)
    ensures EscapeNewlines(a + b) == EscapeNewlines(a) + EscapeNewlines(b)
    decreases |a|
  {
    if a == [] {
      assert a + b == b;
    } else {
      assert (a + b)[0] == a[0];
      assert (a + b)[1..] == a[1..] + b;
      EscapeNewlinesAppend(a[1..], b);
    }
  }

  lemma {:induction false} DoubleBackslashesAppend(a: string, b: string)
    ensures DoubleBackslashes(a + b) == DoubleBackslashes(a) + DoubleBackslashes(b)
    decreases |a|
  {
    if a == [] {
      assert a + b == b;
    } else {
      assert (a + b)[0] == a[0];
      assert (a + b)[1..] == a[1..] + b;
      DoubleBackslashesAppend(a[1..], b);
    }
  }

  /** The encoding is character by character. */
  lemma EncodeCons(s: string)
    requires s != []
    ensures Encode(s) == Escape(s[0]) + Encode(s[1..])
  {
    EscapeNewlinesAppend(Doubled(s[0]), DoubleBackslashes(s[1..]));
    assert EscapeNewlines(Doubled(s[0])) == Escape(s[0]) by {
      if s[0] == Backslash {
        assert [Backslash, Backslash][1..] == [Backslash];
      }
    }
  }

  lemma {:induction false} EncodeAppend(a: string, b: string)
    ensures Encode(a + b) == Encode(a) + Encode(b)
  {
    DoubleBackslashesAppend(a, b);
    EscapeNewlinesAppend(DoubleBackslashes(a), DoubleBackslashes(b));
  }

  /** An encoding starts with 'n' exactly when the content does. */
  lemma EncodeStartsWithN(s: string)
    requires s != []
    ensures Encode(s) != [] && (Encode(s)[0] == 'n' <==> s[0] == 'n')
  {
    EncodeCons(s);
  }

  lemma UnescapeStepNewline(rest: string)
    ensures UnescapeNewlines([Backslash, 'n'] + rest) == ['\n'] + UnescapeNewlines(rest)
  {
    assert ([Backslash, 'n'] + rest)[2..] == rest;
  }

  lemma UnescapeStepOther(c: char, rest: string)
    requires c != Backslash || rest == [] || rest[0] != 'n'
    ensures UnescapeNewlines([c] + rest) == [c] + UnescapeNewlines(rest)
  {
    assert ([c] + rest)[1..] == rest;
  }

  lemma CollapseStepPair(rest: string)
    ensures CollapseBackslashes([Backslash, Backslash] + rest) == [Backslash] + CollapseBackslashes(rest)
  {
    assert ([Backslash, Backslash] + rest)[2..] == rest;
  }

  lemma CollapseStepOther(c: char, rest: string)
    requires c != Backslash || rest == [] || rest[0] != Backslash
    ensures CollapseBackslashes([c] + rest) == [c] + CollapseBackslashes(rest)
  {
    assert ([c] + rest)[1..] == rest;
  }

  /** Dropping the first character keeps a string free of backslash + 'n'. */
  lemma NoBackslashNTail(p: string)
    requires p != [] && !HasBackslashN(p)
    ensures !HasBackslashN(p[1..])
    ensures p[0] == Backslash && |p| > 1 ==> p[1] != 'n'
  {
    var t := p[1..];
    forall i | 0 <= i < |t| - 1
      ensures !(t[i] == Backslash && t[i + 1] == 'n')
    {
      assert t[i] == p[i + 1] && t[i + 1] == p[i + 2];
    }
  }

  /** Unescaping newlines undoes `Escape` of one character, except for its doubled backslash. */
  lemma UnescapeEscaped(c: char, rest: string)
    requires c == Backslash ==> rest == [] || rest[0] != 'n'
    ensures UnescapeNewlines(Escape(c) + rest) == Doubled(c) + UnescapeNewlines(rest)
  {
    if c == Backslash {
      UnescapeBackslashPair(rest);
    } else if c == '\n' {
      UnescapeStepNewline(rest);
    } else {
      UnescapeStepOther(c, rest);
    }
  }

  lemma UnescapeBackslashPair(rest: string)
    requires rest == [] || rest[0] != 'n'
    ensures UnescapeNewlines([Backslash, Backslash] + rest) == [Backslash, Backslash] + UnescapeNewlines(rest)
  {
    var e := [Backslash, Backslash] + rest;
    UnescapeAt(e);
    assert e[1..] == [Backslash] + rest;
    UnescapeAt(e[1..]);
    assert e[1..][1..] == rest;
    var u := UnescapeNewlines(rest);
    assert [Backslash] + ([Backslash] + u) == [Backslash, Backslash] + u;
  }

  /** One step of the scan at a character that does not start backslash + 'n'. */
  lemma UnescapeAt(e: string)
    requires e != [] && !(|e| >= 2 && e[0] == Backslash && e[1] == 'n')
    ensures UnescapeNewlines(e) == [e[0]] + UnescapeNewlines(e[1..])
  {
  }

  /**
   * Unescaping newlines in `Encode(p) + x` leaves the encoding of `p` with its
   * backslashes still doubled, provided `p` never pairs a backslash with an
   * 'n' (inside `p` or across the seam to `x`).
   */
  lemma {:induction false} UnescapeEncodeAppend(p: string, x: string)
    requires !HasBackslashN(p)
    requires p != [] && p[|p| - 1] == Backslash && x != [] ==> x[0] != 'n'
    ensures UnescapeNewlines(Encode(p) + x) == DoubleBackslashes(p) + UnescapeNewlines(x)
    decreases |p|
  {
    if p == [] {
      assert Encode(p) + x == x;
    } else {
      var t := p[1..];
      UnescapeTailPre(p, x);
      UnescapeEncodeAppend(t, x);
      UnescapeEncodeHead(p, x);
      DoubleCons(p);
      AppendAssoc(Doubled(p[0]), DoubleBackslashes(t), UnescapeNewlines(x));
    }
  }

  /** The conditions of `UnescapeEncodeAppend` pass from `p` to its tail. */
  lemma UnescapeTailPre(p: string, x: string)
    requires p != [] && !HasBackslashN(p)
    requires p[|p| - 1] == Backslash && x != [] ==> x[0] != 'n'
    ensures !HasBackslashN(p[1..])
    ensures p[1..] != [] && p[1..][|p[1..]| - 1] == Backslash && x != [] ==> x[0] != 'n'
  {
    NoBackslashNTail(p);
    var t := p[1..];
    if t != [] { assert t[|t| - 1] == p[|p| - 1]; }
  }

  /** One step of `UnescapeEncodeAppend`: the first character's escape unescapes to its doubling. */
  lemma UnescapeEncodeHead(p: string, x: string)
    requires p != [] && !HasBackslashN(p)
    requires p[|p| - 1] == Backslash && x != [] ==> x[0] != 'n'
    ensures UnescapeNewlines(Encode(p) + x) == Doubled(p[0]) + UnescapeNewlines(Encode(p[1..]) + x)
  {
    EncodeConsAppend(p, x);
    EncodeSeam(p, x);
    UnescapeEscaped(p[0], Encode(p[1..]) + x);
  }

  /** `Encode(p) + x` is the first character's escape followed by the rest. */
  lemma EncodeConsAppend(p: string, x: string)
    requires p != []
    ensures Encode(p) + x == Escape(p[0]) + (Encode(p[1..]) + x)
  {
    EncodeCons(p);
    AppendAssoc(Escape(p[0]), Encode(p[1..]), x);
  }


  lemma DoubleCons(p: string)
    requires p != []
    ensures DoubleBackslashes(p) == Doubled(p[0]) + DoubleBackslashes(p[1..])
  {
  }

  /** After a leading backslash of `p`, what follows its escape does not start with 'n'. */
  lemma EncodeSeam(p: string, x: string)
    requires p != [] && !HasBackslashN(p)
    requires p[|p| - 1] == Backslash && x != [] ==> x[0] != 'n'
    ensures var rest := Encode(p[1..]) + x;
      p[0] == Backslash ==> rest == [] || rest[0] != 'n'
  {
    var t := p[1..];
    NoBackslashNTail(p);
    if t != [] {
      EncodeStartsWithN(t);
      assert (Encode(t) + x)[0] == Encode(t)[0];
    } else {
      assert Encode(t) + x == x;
    }
  }

  /** Collapsing the doubled backslashes of `DoubleBackslashes(p)` gives `p` back. */
  lemma {:induction false} CollapseDoubledAppend(p: string, y: string)
    ensures CollapseBackslashes(DoubleBackslashes(p) + y) == p + CollapseBackslashes(y)
    decreases |p|
  {
    if p == [] {
      assert DoubleBackslashes(p) + y == y;
    } else {
      var c, t := p[0], p[1..];
      CollapseDoubledAppend(t, y);
      CollapseDoubledHead(p, y);
      AppendAssoc([c], t, CollapseBackslashes(y));
      assert [c] + t == p;
    }
  }

  /** One step of `CollapseDoubledAppend`: the first character's doubling collapses to it. */
  lemma CollapseDoubledHead(p: string, y: string)
    requires p != []
    ensures CollapseBackslashes(DoubleBackslashes(p) + y) == [p[0]] + CollapseBackslashes(DoubleBackslashes(p[1..]) + y)
  {
    var c := p[0];
    var rest := DoubleBackslashes(p[1..]) + y;
    DoubleCons(p);
    AppendAssoc(Doubled(c), DoubleBackslashes(p[1..]), y);
    if c == Backslash { CollapseStepPair(rest); } else { CollapseStepOther(c, rest); }
  }

  /** Content without a backslash followed by 'n' survives a write and a read. */
  lemma RoundTrip(s: string)
    requires !HasBackslashN(s)
    ensures Decode(Encode(s)) == s
  {
    UnescapeEncodeAppend(s, []);
    assert Encode(s) + [] == Encode(s);
    CollapseDoubledAppend(s, []);
    assert DoubleBackslashes(s) + [] == DoubleBackslashes(s);
    assert s + [] == s;
  }

  /** Content with a backslash followed by 'n' does not: the 'n' comes back as a newline. */
  lemma RoundTripFails(s: string)
    requires HasBackslashN(s)
    ensures Decode(Encode(s)) != s
  {
    var i := FirstBackslashN(s);
    var p, q := s[..i], s[i + 2..];
    SplitAtBackslashN(s, i);
    DecodeAtBackslashN(p, q);
    var w := CollapseBackslashes(UnescapeNewlines(Encode(q)));
    SecondAfter(p, Backslash, '\n', w);
  }

  lemma SecondAfter(p: string, a: char, b: char, w: string)
    ensures (p + ([a] + ([b] + w)))[|p| + 1] == b
  {
  }

  /** Cutting `s` around its first backslash + 'n'. */
  lemma SplitAtBackslashN(s: string, i: nat)
    requires HasBackslashN(s) && i == FirstBackslashN(s)
    ensures s == s[..i] + ([Backslash, 'n'] + s[i + 2..])
    ensures !HasBackslashN(s[..i]) && |s[..i]| == i && s[i + 1] == 'n'
  {
    var p := s[..i];
    forall j | 0 <= j < |p| - 1
      ensures !(p[j] == Backslash && p[j + 1] == 'n')
    {
      assert p[j] == s[j] && p[j + 1] == s[j + 1];
    }
  }

  /** What decoding makes of the encoding of `p`, a backslash, an 'n' and `q`. */
  lemma DecodeAtBackslashN(p: string, q: string)
    requires !HasBackslashN(p)
    ensures Decode(Encode(p + ([Backslash, 'n'] + q)))
            == p + ([Backslash] + (['\n'] + CollapseBackslashes(UnescapeNewlines(Encode(q)))))
  {
    var z := UnescapeNewlines(Encode(q));
    var x := [Backslash, Backslash, 'n'] + Encode(q);
    EncodeBackslashN(q);
    EncodeAppend(p, [Backslash, 'n'] + q);
    UnescapeEncodeAppend(p, x);
    UnescapeBackslashN(q);
    CollapseDoubledAppend(p, [Backslash, '\n'] + z);
    CollapseBackslashNewline(z);
  }

  /** The encoding of a backslash, 'n' and then `q`. */
  lemma EncodeBackslashN(q: string)
    ensures Encode([Backslash, 'n'] + q) == [Backslash, Backslash, 'n'] + Encode(q)
  {
    var e := ['n'] + q;
    assert [Backslash, 'n'] + q == [Backslash] + e;
    EncodeChar(Backslash, e);
    EncodeChar('n', q);
  }

  /** The encoding of one character followed by `q`. */
  lemma EncodeChar(c: char, q: string)
    ensures Encode([c] + q) == Escape(c) + Encode(q)
  {
    EncodeCons([c] + q);
    assert ([c] + q)[1..] == q;
  }

  lemma CollapseBackslashNewline(z: string)
    ensures CollapseBackslashes([Backslash, '\n'] + z) == [Backslash] + (['\n'] + CollapseBackslashes(z))
  {
    assert [Backslash, '\n'] + z == [Backslash] + (['\n'] + z);
    CollapseStepOther(Backslash, ['\n'] + z);
    CollapseStepOther('\n', z);
  }

  lemma UnescapeBackslashN(q: string)
    ensures UnescapeNewlines([Backslash, Backslash, 'n'] + Encode(q)) == [Backslash, '\n'] + UnescapeNewlines(Encode(q))
  {
    var e := Encode(q);
    assert [Backslash, Backslash, 'n'] + e == [Backslash] + ([Backslash, 'n'] + e);
    UnescapeStepOther(Backslash, [Backslash, 'n'] + e);
    UnescapeStepNewline(e);
  }

  /** Position of the first backslash followed by 'n'. */
  function FirstBackslashN(s: string): (i: nat)
    requires HasBackslashN(s)
    ensures i < |s| - 1 && s[i] == Backslash && s[i + 1] == 'n'
    ensures forall j :: 0 <= j < i ==> !(s[j] == Backslash && s[j + 1] == 'n')
  {
    if s[0] == Backslash && s[1] == 'n' then 0
    else
      assert HasBackslashN(s[1..]) by {
        var k :| 0 <= k < |s| - 1 && s[k] == Backslash && s[k + 1] == 'n';
        assert k > 0;
        assert s[1..][k - 1] == Backslash && s[1..][k] == 'n';
      }
      1 + FirstBackslashN(s[1..])
  }

  /** Exactly the contents without a backslash followed by 'n' survive a round trip. */
  lemma RoundTripIff(s: string)
    ensures Decode(Encode(s)) == s <==> !HasBackslashN(s)
  {
    if HasBackslashN(s) { RoundTripFails(s); } else { RoundTrip(s); }
  }

  /** The two-character content backslash, 'n' decodes to backslash, newline. */
  lemma BackslashNCounterexample()
    ensures Decode(Encode([Backslash, 'n'])) == [Backslash, '\n']
  {
    EncodeBackslashN([]);
    assert [Backslash, 'n'] + [] == [Backslash, 'n'];
    UnescapeBackslashN([]);
    assert Encode([]) == [];
    assert [Backslash, Backslash, 'n'] + [] == [Backslash, Backslash, 'n'];
    CollapseStepOther(Backslash, ['\n']);
    CollapseStepOther('\n', []);
    assert [Backslash, '\n'] == [Backslash] + ['\n'];
  }
}

=== FILE: common.dfy ===
/**
 * Small shared vocabulary: Java's nullable references become `Option`, and
 * the messages the file system prints on its error branches become `Error`
 * values carried by an `Outcome`.
 */
module Optional {

  /** A value that may be absent (a Java `null`). */
  datatype Option<+T> = None | Some(value: T)
}

module Status {

  /** One constructor per distinct error branch of the shell and file system. */
  datatype Error =
    | NotAbsolute        // "Only absolute paths are supported"
    | AlreadyExists      // create: the path already resolves
    | InvalidPath        // create: parent missing or not a directory; cat: not a file
    | NotFound           // remove, cd, chmod, getperm: nothing at the path
    | PermissionDenied   // a permission check failed
    | UserExists         // adduser: name already registered
    | NoSuchUser         // passwd: name not registered
    | InvalidCredentials // login/su: unknown user or wrong password
    | BeingEdited        // vim/cat: the file's advisory flag is set
    | IsDirectory        // vim: the path names a directory
    | NotLoggedIn        // any command but login with no current user
    | Usage              // wrong number of arguments
    | InvalidMode        // chmod: the numeric mode is not three octal digits
    | UnknownCommand     // command word not recognised
    | NullDereference    // the Java code dereferences null here and throws

  /** Result of a state-changing operation. */
  datatype Outcome = Done | Failed(error: Error)

  /** Result of an operation that hands back a value. */
  datatype Result<+T> = Ok(value: T) | Err(error: Error)
}

module Sets {

  /**
   * The elements of `s`, each once, in an order nobody specifies: the model
   * of iterating over a Java `HashMap`'s keys or values.
   */
  ghost function Enumerate<T>(s: set<T>): (r: seq<T>)
    ensures |r| == |s|
    ensures forall i :: 0 <= i < |r| ==> r[i] in s
    ensures forall x :: x in s ==> x in r
    ensures forall i, j :: 0 <= i < j < |r| ==> r[i] != r[j]
    decreases |s|
  {
    if s == {} then []
    else
      var x :| x in s;
      [x] + Enumerate(s - {x})
  }
}

=== FILE: node.dfy ===
/**
 * The node record of the in-memory tree (FileSystemNode.java). The Java
 * parent back-reference is not stored: a node is addressed by the path of
 * child names that leads to it from the root.
 */
module FsNode {
  import opened Optional

  /**
   * A file or directory. `content` is `None` until something assigns it: the
   * Java constructor never initialises it. `children` maps each child's name
   * to the child.
   */
  datatype Node = Node(
    name: string,
    isDir: bool,
    owner: string,
    group: string,
    userPerms: string,
    groupPerms: string,
    otherPerms: string,
    beingEdited: bool,
    content: Option<string>,
    children: map<string, Node>)

  /** The constructor: not being edited, no children, no content yet. */
  function NewNode(name: string, isDir: bool, owner: string, group: string,
                   userPerms: string, groupPerms: string, otherPerms: string): (n: Node)
    ensures n.name == name && n.isDir == isDir && n.owner == owner && n.group == group
    ensures n.userPerms == userPerms && n.groupPerms == groupPerms && n.otherPerms == otherPerms
    ensures !n.beingEdited && n.children == map[] && n.content == None
  {
    Node(name, isDir, owner, group, userPerms, groupPerms, otherPerms, false, None, map[])
  }

  /** Every triplet has the three characters a permission check indexes. */
  predicate TripletsOk(n: Node)
  {
    |n.userPerms| == 3 && |n.groupPerms| == 3 && |n.otherPerms| == 3
  }

  /** `getPermissions`: owner, group and other triplets in that order. */
  function GetPermissions(n: Node): (r: string)
    ensures |r| == |n.userPerms| + |n.groupPerms| + |n.otherPerms|
    ensures TripletsOk(n) ==> r[..3] == n.userPerms && r[3..6] == n.groupPerms && r[6..] == n.otherPerms
  {
    n.userPerms + n.groupPerms + n.otherPerms
  }

  /** `a` and `b` agree on everything but their permission triplets. */
  predicate SameButPermissions(a: Node, b: Node)
  {
    a.(userPerms := b.userPerms, groupPerms := b.groupPerms, otherPerms := b.otherPerms) == b
  }

  /**
   * `setPermissions`: a nine-character string is cut into the three triplets
   * (no check of its characters); any other length is ignored.
   */
  function SetPermissions(n: Node, s: string): (r: Node)
    ensures SameButPermissions(n, r)
    ensures |s| == 9 ==> GetPermissions(r) == s && TripletsOk(r)
    ensures |s| != 9 ==> r == n
  {
    if |s| == 9 then
      assert s[..3] + s[3..6] + s[6..9] == s;
      n.(userPerms := s[..3], groupPerms := s[3..6], otherPerms := s[6..9])
    else n
  }

  /** Writing back a node's own permission string changes nothing. */
  lemma SetOwnPermissions(n: Node)
    requires TripletsOk(n)
    ensures SetPermissions(n, GetPermissions(n)) == n
  {
    var s := GetPermissions(n);
    assert s[..3] == n.userPerms && s[3..6] == n.groupPerms && s[6..9] == n.otherPerms;
  }

  /** Setting the same permissions twice is setting them once. */
  lemma SetPermissionsIdempotent(n: Node, s: string)
    ensures SetPermissions(SetPermissions(n, s), s) == SetPermissions(n, s)
  {
  }

  /** `formatPermissions`, as `ls -l` shows it: type, nine bits, owner, group. */
  function FormatPermissions(n: Node): (r: string)
    requires TripletsOk(n)
    ensures |r| == 12 + |n.owner| + |n.group|
    ensures r[0] == 'd' <==> n.isDir
    ensures r[1..10] == GetPermissions(n)
    ensures r[10..] == " " + n.owner + " " + n.group
  {
    var kind, tail := [if n.isDir then 'd' else '-'], " " + n.owner + " " + n.group;
    ThreeParts(kind, GetPermissions(n), tail);
    kind + GetPermissions(n) + tail
  }

  /** The middle and last parts of a three-part concatenation can be cut back out. */
  lemma ThreeParts<T>(a: seq<T>, b: seq<T>, c: seq<T>)
    ensures (a + b + c)[..|a|] == a
    ensures (a + b + c)[|a|..|a| + |b|] == b
    ensures (a + b + c)[|a| + |b|..] == c
  {
  }

  /**
   * The tree invariant every operation keeps: each node's triplets have
   * length three and each child is stored under its own name.
   */
  ghost predicate Valid(n: Node)
  {
    && TripletsOk(n)
    && forall k :: k in n.children ==> n.children[k].name == k && Valid(n.children[k])
  }
}

=== FILE: reload.dfy ===
/**
 * Loading the same snapshot lines a second time. A load is a merge, so a
 * second pass over the same lines can build what the first could not
 * (`Snapshot.LoadTwiceDiffers`: a child's line before its parent's). When
 * every path is absolute, no key path has two lines, and each parent's line
 * comes before its children's, as `saveNode` writes them, the second pass
 * changes nothing.
 */
module Reload {
  import opened Optional
  import opened Status
  import opened FsNode
  import opened Tree
  import opened Snapshot
  import opened Sets

  /** The key path of the parent `create` would look up for a line. */
  function ParentKeyPath(r: Record): seq<string>
  {
    Segments(ParentAndName(r.path).0)
  }

  /**
   * Line `r` has nothing left to do in `t`: either its node is there and
   * already carries the line's fields, or the node is missing and cannot be
   * created, its parent being missing or a file.
   */
  predicate Settled(t: Node, r: Record)
  {
    match Walk(t, KeyPath(r))
    case Some(n) => Overwrite(n, r) == n
    case None => !(Walk(t, ParentKeyPath(r)).Some? && Walk(t, ParentKeyPath(r)).value.isDir)
  }

  predicate AllAbsolute(rs: seq<Record>)
  {
    forall j :: 0 <= j < |rs| ==> IsAbsolute(rs[j].path)
  }

  /** No line lands on the node, or on the parent, of an earlier line. */
  predicate LaterLinesAvoid(rs: seq<Record>)
  {
    forall i, j :: 0 <= i < j < |rs| ==> KeyPath(rs[j]) != KeyPath(rs[i]) && KeyPath(rs[j]) != ParentKeyPath(rs[i])
  }

  /** No two lines share a key path. */
  predicate DistinctKeys(rs: seq<Record>)
  {
    forall i, j :: 0 <= i < j < |rs| ==> KeyPath(rs[i]) != KeyPath(rs[j])
  }

  /** Every line not for the root comes after the line for its parent. */
  predicate ParentsFirst(rs: seq<Record>)
  {
    forall j :: 0 <= j < |rs| ==> KeyPath(rs[j]) == [] || ParentEarlier(rs, j)
  }

  // ---------------------------------------------------------------------
  // One line.
  // ---------------------------------------------------------------------

  /** A node that already got a line's own fields, owner and group included, is left alone by it. */
  lemma RefreshSettles(n: Node, r: Record)
    requires n.owner == r.owner && n.group == r.group
    ensures Overwrite(Refresh(n, r), r) == Refresh(n, r)
  {
    assert Refresh(n, r).(owner := r.owner, group := r.group) == Refresh(n, r);
    SetPermissionsIdempotent(n, r.perms);
  }

  /** Whether a line is settled depends on no field of its node but the ones it writes. */
  lemma OverwriteSameFields(a: Node, b: Node, r: Record)
    requires SameFields(a, b) && Overwrite(a, r) == a
    ensures Overwrite(b, r) == b
  {
    assert b == a.(children := b.children);
  }

  /** A settled line changes nothing. */
  lemma SettledFixed(t: Node, r: Record)
    requires IsAbsolute(r.path) && Settled(t, r)
    ensures ApplyRecord(t, r) == t
  {
    ParentSegments(r.path);
    if Walk(t, KeyPath(r)).Some? {
      ReplaceAtSame(t, KeyPath(r));
    }
  }

  /** After a line with an absolute path is applied, it is settled. */
  lemma ApplySettles(t: Node, r: Record)
    requires IsAbsolute(r.path)
    ensures Settled(ApplyRecord(t, r), r)
  {
    ParentSegments(r.path);
    if Resolve(t, r.path).Some? {
      var n := Resolve(t, r.path).value;
      RefreshSettles(n.(owner := r.owner, group := r.group), r);
    } else if Create(t, r.path, r.isDir, r.owner, r.group).1 == Done {
      ApplyMissing(t, r);
      RefreshSettles(Created(ParentAndName(r.path).1, r.isDir, r.owner, r.group), r);
    }
  }

  /**
   * A line with an absolute path changes no other key path's node but in
   * its children: what was there is there with the same fields, what was
   * missing is missing.
   */
  lemma ApplyElsewhere(t: Node, r: Record, q: seq<string>)
    requires IsAbsolute(r.path) && q != KeyPath(r)
    ensures Walk(ApplyRecord(t, r), q).Some? == Walk(t, q).Some?
    ensures Walk(t, q).Some? ==> SameFields(Walk(t, q).value, Walk(ApplyRecord(t, r), q).value)
  {
    var k := KeyPath(r);
    if Resolve(t, r.path).Some? {
      var m := Overwrite(Resolve(t, r.path).value, r);
      if Apart(k, q) {
        ReplaceAtApart(t, k, m, q);
      } else if q < k {
        ReplaceAtAbove(t, k, m, q);
      } else {
        ReplaceAtBelowKept(t, k, m, q);
      }
    } else if Create(t, r.path, r.isDir, r.owner, r.group).1 == Done {
      CreatedElsewhere(t, r, q);
    }
  }

  /** What a line whose node `create` makes leaves: the created tree with the line's fields at the new node. */
  lemma CreatedShape(t: Node, r: Record)
    requires IsAbsolute(r.path) && Resolve(t, r.path).None? && Create(t, r.path, r.isDir, r.owner, r.group).1 == Done
    ensures var t1 := Create(t, r.path, r.isDir, r.owner, r.group).0;
      && Walk(t1, KeyPath(r)).Some? && Walk(t1, KeyPath(r)).value.children == map[]
      && ApplyRecord(t, r) == ReplaceAt(t1, KeyPath(r), Refresh(Walk(t1, KeyPath(r)).value, r))
  {
    CreateAbsolute(t, r.path, r.isDir, r.owner, r.group);
  }

  /** `ApplyElsewhere` for a line whose node `create` makes. */
  lemma CreatedElsewhere(t: Node, r: Record, q: seq<string>)
    requires IsAbsolute(r.path) && q != KeyPath(r)
    requires Resolve(t, r.path).None? && Create(t, r.path, r.isDir, r.owner, r.group).1 == Done
    ensures Walk(ApplyRecord(t, r), q).Some? == Walk(t, q).Some?
    ensures Walk(t, q).Some? ==> SameFields(Walk(t, q).value, Walk(ApplyRecord(t, r), q).value)
  {
    var k := KeyPath(r);
    var t1 := Create(t, r.path, r.isDir, r.owner, r.group).0;
    CreatedShape(t, r);
    var m := Refresh(Walk(t1, k).value, r);
    if Apart(k, q) {
      ReplaceAtApart(t1, k, m, q);
      CreateKeepsRest(t, r.path, r.isDir, r.owner, r.group);
    } else if q < k {
      ReplaceAtAbove(t1, k, m, q);
      CreateKeepsSpine(t, r.path, r.isDir, r.owner, r.group);
    } else {
      var rest := q[|k|..];
      assert q == k + rest && rest != [];
      ReplaceAtBelow(t1, k, m, rest);
      WalkAppend(t, k, rest);
    }
  }

  /** A settled line stays settled under a line for neither its node nor its parent. */
  lemma KeepSettled(t: Node, r: Record, other: Record)
    requires IsAbsolute(r.path) && IsAbsolute(other.path) && Settled(t, r)
    requires KeyPath(other) != KeyPath(r) && KeyPath(other) != ParentKeyPath(r)
    ensures Settled(ApplyRecord(t, other), r)
  {
    var u := ApplyRecord(t, other);
    ApplyElsewhere(t, other, KeyPath(r));
    ApplyElsewhere(t, other, ParentKeyPath(r));
    if Walk(t, KeyPath(r)).Some? {
      OverwriteSameFields(Walk(t, KeyPath(r)).value, Walk(u, KeyPath(r)).value, r);
    }
  }

  // ---------------------------------------------------------------------
  // A whole load.
  // ---------------------------------------------------------------------

  lemma {:induction false} LoadKeepsSettled(t: Node, rs: seq<Record>, r: Record)
    requires IsAbsolute(r.path) && Settled(t, r) && AllAbsolute(rs)
    requires forall j :: 0 <= j < |rs| ==> KeyPath(rs[j]) != KeyPath(r) && KeyPath(rs[j]) != ParentKeyPath(r)
    ensures Settled(Load(t, rs), r)
    decreases |rs|
  {
    if rs != [] {
      KeepSettled(t, r, rs[0]);
      LoadKeepsSettled(ApplyRecord(t, rs[0]), rs[1..], r);
    }
  }

  /** After a load of lines that avoid earlier ones, every line is settled. */
  lemma {:induction false} LoadSettles(t: Node, rs: seq<Record>)
    requires AllAbsolute(rs) && LaterLinesAvoid(rs)
    ensures forall j :: 0 <= j < |rs| ==> Settled(Load(t, rs), rs[j])
    decreases |rs|
  {
    if rs != [] {
      var t1 := ApplyRecord(t, rs[0]);
      var tail := rs[1..];
      assert forall j :: 0 <= j < |tail| ==> tail[j] == rs[j + 1];
      LoadSettles(t1, tail);
      ApplySettles(t, rs[0]);
      LoadKeepsSettled(t1, tail, rs[0]);
      assert Load(t, rs) == Load(t1, tail);
    }
  }

  /** Lines with absolute paths, each avoiding the nodes and parents of earlier ones, load idempotently. */
  lemma LoadTwice(t: Node, rs: seq<Record>)
    requires AllAbsolute(rs) && LaterLinesAvoid(rs)
    ensures Load(Load(t, rs), rs) == Load(t, rs)
  {
    var once := Load(t, rs);
    LoadSettles(t, rs);
    forall r | r in rs ensures ApplyRecord(once, r) == once {
      var j :| 0 <= j < |rs| && rs[j] == r;
      SettledFixed(once, r);
    }
    LoadFixed(once, rs);
  }

  /**
   * Parents first, one line per key path: then no line lands on an earlier
   * line's node or parent, because the parent's own line came earlier still.
   */
  lemma ParentsFirstAvoid(rs: seq<Record>)
    requires AllAbsolute(rs) && DistinctKeys(rs) && ParentsFirst(rs)
    ensures LaterLinesAvoid(rs)
  {
    forall i, j | 0 <= i < j < |rs|
      ensures KeyPath(rs[j]) != KeyPath(rs[i]) && KeyPath(rs[j]) != ParentKeyPath(rs[i])
    {
      var kp := KeyPath(rs[i]);
      ParentSegments(rs[i].path);
      if ParentAndName(rs[i].path).1 != "" {
        assert kp == ParentKeyPath(rs[i]) + [ParentAndName(rs[i].path).1];
        assert kp[..|kp| - 1] == ParentKeyPath(rs[i]);
        var h :| 0 <= h < i && KeyPath(rs[h]) == kp[..|kp| - 1];
        assert KeyPath(rs[h]) != KeyPath(rs[j]);
      } else {
        assert kp == ParentKeyPath(rs[i]) + [];
      }
    }
  }

  /**
   * Lines in the order `saveNode` writes them, with absolute paths and one
   * line per key path, load idempotently.
   */
  lemma LoadOrderedTwice(t: Node, rs: seq<Record>)
    requires AllAbsolute(rs) && DistinctKeys(rs) && ParentsFirst(rs)
    ensures Load(Load(t, rs), rs) == Load(t, rs)
  {
    ParentsFirstAvoid(rs);
    LoadTwice(t, rs);
  }

  // ---------------------------------------------------------------------
  // A saved tree's lines qualify.
  // ---------------------------------------------------------------------

  /** Every line lies strictly below `ps`, through a child named in `names`. */
  predicate Within(s: seq<Record>, ps: seq<string>, names: seq<string>)
  {
    forall j :: 0 <= j < |s| ==> ps < KeyPath(s[j]) && KeyPath(s[j])[|ps|] in names
  }

  /** The lines of one child's subtree all go through that child. */
  lemma WithinChild(a: seq<Record>, ps: seq<string>, k: string)
    requires a != [] && KeyPath(a[0]) == ps + [k]
    requires forall j :: 0 < j < |a| ==> ps + [k] < KeyPath(a[j])
    ensures Within(a, ps, [k])
  {
    forall j | 0 <= j < |a| ensures ps < KeyPath(a[j]) && KeyPath(a[j])[|ps|] in [k] {
      assert ps + [k] <= KeyPath(a[j]);
      assert (ps + [k])[|ps|] == k;
    }
  }

  /** Subtrees through different children share no key path. */
  lemma DistinctConcat(a: seq<Record>, b: seq<Record>, ps: seq<string>, k: string, rest: seq<string>)
    requires DistinctKeys(a) && DistinctKeys(b)
    requires Within(a, ps, [k]) && Within(b, ps, rest) && k !in rest
    ensures DistinctKeys(a + b) && Within(a + b, ps, [k] + rest)
  {
    var s := a + b;
    forall i, j | 0 <= i < j < |s| ensures KeyPath(s[i]) != KeyPath(s[j]) {
      if j < |a| {
        assert s[i] == a[i] && s[j] == a[j];
      } else if i >= |a| {
        assert s[i] == b[i - |a|] && s[j] == b[j - |a|];
      } else {
        assert s[i] == a[i] && s[j] == b[j - |a|];
        assert KeyPath(s[i])[|ps|] == k;
      }
    }
    forall j | 0 <= j < |s| ensures ps < KeyPath(s[j]) && KeyPath(s[j])[|ps|] in [k] + rest {
      if j < |a| { assert s[j] == a[j]; } else { assert s[j] == b[j - |a|]; }
    }
  }

  lemma DistinctCons(x: Record, cs: seq<Record>, ps: seq<string>)
    requires KeyPath(x) == ps && Below(cs, ps) && DistinctKeys(cs)
    ensures DistinctKeys([x] + cs)
  {
    var s := [x] + cs;
    forall i, j | 0 <= i < j < |s| ensures KeyPath(s[i]) != KeyPath(s[j]) {
      assert s[j] == cs[j - 1];
      if i > 0 { assert s[i] == cs[i - 1]; }
    }
  }

  lemma {:induction false} SaveNodeDistinct(n: Node, prefix: string, ps: seq<string>)
    requires Valid(n) && Addressable(n) && AllContentSet(n)
    requires IsAbsolute(prefix + n.name) && Segments(prefix + n.name) == ps
    ensures DistinctKeys(SaveNode(n, prefix))
    decreases n, 1
  {
    var keys := Enumerate(n.children.Keys);
    var cs := SaveChildren(n, keys, prefix + n.name + "/");
    SaveChildrenDistinct(n, keys, prefix + n.name, ps);
    SaveChildrenBelow(n, keys, prefix + n.name, ps);
    assert SaveNode(n, prefix) == [RecordOf(n, prefix)] + cs;
    DistinctCons(RecordOf(n, prefix), cs, ps);
  }

  lemma {:induction false} SaveChildrenDistinct(n: Node, keys: seq<string>, base: string, ps: seq<string>)
    requires Valid(n) && Addressable(n) && AllContentSet(n)
    requires forall i :: 0 <= i < |keys| ==> keys[i] in n.children
    requires forall i, j :: 0 <= i < j < |keys| ==> keys[i] != keys[j]
    requires IsAbsolute(base) && Segments(base) == ps
    ensures DistinctKeys(SaveChildren(n, keys, base + "/"))
    ensures Within(SaveChildren(n, keys, base + "/"), ps, keys)
    decreases n, 0, |keys|
  {
    if keys != [] {
      var k := keys[0];
      var c := n.children[k];
      var a := SaveNode(c, base + "/");
      var b := SaveChildren(n, keys[1..], base + "/");
      ChildPath(base, ps, k);
      SaveNodeBelow(c, base + "/", ps + [k]);
      SaveNodeDistinct(c, base + "/", ps + [k]);
      SaveChildrenDistinct(n, keys[1..], base, ps);
      WithinChild(a, ps, k);
      assert SaveChildren(n, keys, base + "/") == a + b;
      assert k !in keys[1..];
      DistinctConcat(a, b, ps, k, keys[1..]);
      assert [k] + keys[1..] == keys;
    }
  }

  /** A saved tree has one line per key path. */
  lemma SaveDistinct(root: Node)
    requires Valid(root) && Addressable(root) && AllContentSet(root) && root.name == "/"
    ensures DistinctKeys(Save(root))
  {
    SegmentsOfSlash();
    assert "" + root.name == "/";
    SaveNodeDistinct(root, "", []);
  }

  /**
   * Loading a well-formed tree's snapshot into any tree, a second time,
   * changes nothing: the snapshot is written parents first, one line per
   * node, all paths absolute.
   */
  lemma SaveLoadTwice(t: Node, saved: Node)
    requires Valid(saved) && Addressable(saved) && AllContentSet(saved) && saved.name == "/"
    ensures Load(Load(t, Save(saved)), Save(saved)) == Load(t, Save(saved))
  {
    var rs := Save(saved);
    SaveSound(saved);
    assert AllAbsolute(rs) by {
      forall j | 0 <= j < |rs| ensures IsAbsolute(rs[j].path) {
        assert rs[j] in rs;
      }
    }
    SaveDistinct(saved);
    SaveParentsFirst(saved);
    LoadOrderedTwice(t, rs);
  }
}

=== FILE: session.dfy ===
/**
 * The state of one shell session: the tree, the user registry, the current
 * directory and the logged-in user, with the operations of `FileSystem`
 * that read or change them (apart from `create`, `remove` and the snapshot,
 * which live in their own modules).
 *
 * The current directory is kept as the key path from the root to it; the
 * Java code keeps a node reference and walks parent links back to the root,
 * which in a valid tree (every child filed under its own name) spells the
 * same names.
 */
module Session {
  import opened Optional
  import opened Status
  import opened Text
  import opened FsNode
  import opened Tree
  import opened Accounts
  import opened Access
  import Snapshot

  datatype State = State(root: Node, users: Registry, cwd: seq<string>, currentUser: Option<User>)

  /** What every reachable state keeps. */
  ghost predicate Inv(s: State)
  {
    && Valid(s.root) && s.root.name == "/" && s.root.isDir
    && Keyed(s.users)
    && AllTokens(s.cwd, Slash)
  }

  /**
   * The `FileSystem` constructor: a root directory owned by `root` holding
   * the directory `root`, both `rwx r-x r-x`; only the `root` user; nobody
   * logged in; the current directory is the root.
   */
  function Init(): (s: State)
    ensures Inv(s)
    ensures s.users == InitialUsers() && s.currentUser == None && s.cwd == []
    ensures s.root.owner == "root" && s.root.group == "root" && GetPermissions(s.root) == "rwxr-xr-x"
    ensures s.root.children.Keys == {"root"}
    ensures var home := s.root.children["root"];
      home.isDir && home.owner == "root" && home.group == "root" && home.children == map[]
      && GetPermissions(home) == "rwxr-xr-x"
  {
    var home := NewNode("root", true, "root", "root", "rwx", "r-x", "r-x");
    var root := NewNode("/", true, "root", "root", "rwx", "r-x", "r-x");
    State(root.(children := map["root" := home]), InitialUsers(), [], None)
  }

  /**
   * A fresh file system cannot be written out: its directories carry no
   * content, and `saveNode` encodes every node's content.
   */
  lemma InitialTreeNotSavable()
    ensures !Snapshot.AllContentSet(Init().root)
  {
  }

  /** On a fresh file system `root` logs in with `password` and lands in `/root`. */
  lemma InitialLogin()
    ensures Login(Init(), "root", "password").1 == Done
    ensures Login(Init(), "root", "password").0.currentUser == Some(InitialUsers()["root"])
    ensures Login(Init(), "root", "password").0.cwd == ["root"]
  {
    var s := Init();
    var u := s.users["root"];
    assert u.home == [] + [Slash] + "root";
    SplitAround([], Slash, "root");
    SplitPlain([], Slash);
    SplitPlain("root", Slash);
    assert Segments(u.home) == ["root"];
    assert Resolve(s.root, u.home) == Some(s.root.children["root"]);
    assert MayEnter(s.root, u, u.home);
  }

  /** `getCurrentDirectoryPath`: the names from the root down, each followed by a slash, after a leading slash. */
  function CurrentDirectoryPath(s: State): (r: string)
    ensures |r| >= 2 && r[0] == Slash && r[|r| - 1] == Slash
  {
    "/" + Join(s.cwd, Slash) + "/"
  }

  /** At the root the printed path is `//`, not `/`. */
  lemma CurrentDirectoryAtRoot(s: State)
    requires s.cwd == []
    ensures CurrentDirectoryPath(s) == "//"
  {
  }

  /** The printed path resolves back to the current directory. */
  lemma CurrentDirectoryResolves(s: State)
    requires AllTokens(s.cwd, Slash)
    ensures IsAbsolute(CurrentDirectoryPath(s))
    ensures Segments(CurrentDirectoryPath(s)) == s.cwd
    ensures Resolve(s.root, CurrentDirectoryPath(s)) == Walk(s.root, s.cwd)
  {
    var j := Join(s.cwd, Slash);
    assert CurrentDirectoryPath(s) == [] + [Slash] + (j + [Slash] + []);
    SplitAround([], Slash, j + [Slash] + []);
    SplitAround(j, Slash, []);
    SplitJoin(s.cwd, Slash);
    assert Split([], Slash) == [];
  }

  /**
   * `user` may enter the directory at `path`: the path is absolute and
   * resolves to a directory, and the triplet of the user's class holds `r`.
   */
  predicate MayEnter(root: Node, user: User, path: string)
  {
    && IsAbsolute(path) && Resolve(root, path).Some? && Resolve(root, path).value.isDir
    && var n := Resolve(root, path).value;
       TripletsOk(n) ==> TripletOf(n, ClassOf(user, n))[0] != '-'
  }

  /**
   * `changeDirectory`: refused for a path that is not absolute, that does
   * not resolve to a directory, or that the user may not read; otherwise
   * the directory becomes current.
   */
  function ChangeDirectory(s: State, path: string): (r: (State, Outcome))
    requires Valid(s.root) && s.currentUser.Some?
    ensures r.1 == Done <==> MayEnter(s.root, s.currentUser.value, path)
    ensures r.1 == Done || r.1 == Failed(NotAbsolute) || r.1 == Failed(NotFound) || r.1 == Failed(PermissionDenied)
    ensures r.1 == Failed(NotAbsolute) <==> !IsAbsolute(path)
    ensures r.1 == Failed(NotFound) <==> IsAbsolute(path) && (Resolve(s.root, path).None? || !Resolve(s.root, path).value.isDir)
    ensures r.1 == Failed(PermissionDenied) <==>
              && Resolve(s.root, path).Some? && Resolve(s.root, path).value.isDir
              && var n := Resolve(s.root, path).value;
                 TripletsOk(n) && TripletOf(n, ClassOf(s.currentUser.value, n))[0] == '-'
    ensures r.1 != Done ==> r.0 == s
    ensures r.1 == Done ==> r.0 == s.(cwd := Segments(path))
    ensures r.1 == Done ==> Walk(s.root, r.0.cwd) == Resolve(s.root, path)
    ensures Inv(s) ==> Inv(r.0)
  {
    if !IsAbsolute(path) then (s, Failed(NotAbsolute))
    else match Resolve(s.root, path)
      case None => (s, Failed(NotFound))
      case Some(n) =>
        if !n.isDir then (s, Failed(NotFound))
        else
          ValidWalk(s.root, Segments(path));
          if !CheckPermissions(s.currentUser.value, n, 'r') then (s, Failed(PermissionDenied))
          else (s.(cwd := Segments(path)), Done)
  }

  /** After a successful `cd`, `pwd` prints a path that resolves to the same directory. */
  lemma ChangeDirectoryThenPath(s: State, path: string)
    requires Valid(s.root) && s.currentUser.Some? && ChangeDirectory(s, path).1 == Done
    ensures Resolve(s.root, CurrentDirectoryPath(ChangeDirectory(s, path).0)) == Resolve(s.root, path)
  {
    CurrentDirectoryResolves(ChangeDirectory(s, path).0);
  }

  /**
   * `login`: wrong credentials change nothing; right ones make the user
   * current and then try to enter the home directory, and succeed even if
   * that fails.
   */
  function Login(s: State, name: string, password: string): (r: (State, Outcome))
    requires Valid(s.root)
    ensures r.1 == Done || r.1 == Failed(InvalidCredentials)
    ensures r.1 == Done <==> name in s.users && s.users[name].password == password
    ensures r.1 != Done ==> r.0 == s
    ensures r.1 == Done ==> r.0.currentUser == Some(s.users[name])
    ensures r.0.root == s.root && r.0.users == s.users
    ensures r.1 == Done ==> r.0.cwd == (if MayEnter(s.root, s.users[name], s.users[name].home)
                                         then Segments(s.users[name].home) else s.cwd)
    ensures Inv(s) ==> Inv(r.0)
  {
    match Authenticate(s.users, name, password)
    case None => (s, Failed(InvalidCredentials))
    case Some(u) => (ChangeDirectory(s.(currentUser := Some(u)), u.home).0, Done)
  }

  /**
   * `addUser`: a taken name changes nothing; otherwise the user is filed
   * with home `/name`, and that directory is created, owned by the user and
   * the given group, unless the path already resolves.
   */
  function AddUser(s: State, name: string, password: string, group: string): (r: (State, Outcome))
    ensures name in s.users <==> r.1 == Failed(UserExists)
    ensures r.1 == Done || r.1 == Failed(UserExists)
    ensures r.1 != Done ==> r.0 == s
    ensures r.1 == Done ==> r.0.users == s.users[name := User(name, password, group, "/" + name)]
    ensures r.0.cwd == s.cwd && r.0.currentUser == s.currentUser
    ensures Resolve(s.root, "/" + name).Some? ==> r.0.root == s.root
    ensures r.1 == Done && Resolve(s.root, "/" + name).None? ==> r.0.root == Create(s.root, "/" + name, true, name, group).0
  {
    var home := "/" + name;
    if name in s.users then (s, Failed(UserExists))
    else
      var users := s.users[name := User(name, password, group, home)];
      var root := if Resolve(s.root, home).None? then Create(s.root, home, true, name, group).0 else s.root;
      (s.(users := users, root := root), Done)
  }

  /** `addUser` keeps the session invariant. */
  lemma AddUserInv(s: State, name: string, password: string, group: string)
    requires Inv(s)
    ensures Inv(AddUser(s, name, password, group).0)
  {
    CreateValid(s.root, "/" + name, true, name, group);
    CreateKeepsRoot(s.root, "/" + name, true, name, group);
  }

  /**
   * A new user with a fresh, slash-free name gets a home directory of
   * their own: `rwx r-x r-x`, owned by them and their group, empty.
   */
  lemma AddUserHome(s: State, name: string, password: string, group: string)
    requires s.root.isDir && IsToken(name, Slash) && name !in s.users && Resolve(s.root, "/" + name).None?
    ensures Resolve(AddUser(s, name, password, group).0.root, "/" + name) == Some(Created(name, true, name, group))
  {
    var home := "/" + name;
    ParentAndNameTop(name);
    assert Resolve(s.root, "/").Some? by {
      assert "/" == [] + [Slash] + [];
      SplitAround([], Slash, []);
      assert Split([], Slash) == [];
    }
    CreateAbsolute(s.root, home, true, name, group);
  }

  /** The freshly added user can log in at once, and lands in the new home directory. */
  lemma AddUserThenLogin(s: State, name: string, password: string, group: string)
    requires Inv(s) && IsToken(name, Slash) && name !in s.users && Resolve(s.root, "/" + name).None?
    ensures var s1 := AddUser(s, name, password, group).0;
      Valid(s1.root)
      && Login(s1, name, password).1 == Done
      && Login(s1, name, password).0.currentUser == Some(User(name, password, group, "/" + name))
      && Login(s1, name, password).0.cwd == [name]
  {
    var s1 := AddUser(s, name, password, group).0;
    AddUserInv(s, name, password, group);
    AddUserHome(s, name, password, group);
    ParentAndNameTop(name);
    ParentSegments("/" + name);
    SplitPlain(name, Slash);
    assert Segments("/") == [] by {
      assert "/" == [] + [Slash] + [];
      SplitAround([], Slash, []);
      assert Split([], Slash) == [];
    }
    assert Segments("/" + name) == [name];
    var u := User(name, password, group, "/" + name);
    assert s1.users[name] == u;
    assert MayEnter(s1.root, u, "/" + name);
  }

  /** `setPermissions` on a path: a missing path changes nothing; otherwise the node's permissions are set. */
  function SetPermissionsAt(root: Node, path: string, perms: string): (r: (Node, Outcome))
    ensures r.1 == Done <==> Resolve(root, path).Some?
    ensures r.1 != Done ==> r == (root, Failed(NotFound))
    ensures r.1 == Done ==> Resolve(r.0, path) == Some(SetPermissions(Resolve(root, path).value, perms))
    ensures r.0.name == root.name && r.0.isDir == root.isDir
  {
    match Resolve(root, path)
    case None => (root, Failed(NotFound))
    case Some(n) => (ReplaceAt(root, Segments(path), SetPermissions(n, perms)), Done)
  }

  /** Setting permissions touches no node apart from the one at the path. */
  lemma SetPermissionsAtKeepsRest(root: Node, path: string, perms: string, q: seq<string>)
    requires Resolve(root, path).Some? && Apart(Segments(path), q)
    ensures Walk(SetPermissionsAt(root, path, perms).0, q) == Walk(root, q)
  {
    ReplaceAtApart(root, Segments(path), SetPermissions(Resolve(root, path).value, perms), q);
  }

  /** Setting permissions keeps the tree valid. */
  lemma SetPermissionsAtValid(root: Node, path: string, perms: string)
    requires Valid(root)
    ensures Valid(SetPermissionsAt(root, path, perms).0)
  {
    if Resolve(root, path).Some? {
      var n := Resolve(root, path).value;
      ValidWalk(root, Segments(path));
      ValidReplaceAt(root, Segments(path), SetPermissions(n, perms));
    }
  }

  /** `getPermissions` on a path: the nine-character string, or empty if the path does not resolve. */
  function GetPermissionsAt(root: Node, path: string): (r: string)
    ensures Resolve(root, path).None? ==> r == ""
    ensures Resolve(root, path).Some? ==> r == GetPermissions(Resolve(root, path).value)
    ensures Resolve(root, path).Some? && TripletsOk(Resolve(root, path).value) ==> |r| == 9
  {
    match Resolve(root, path)
    case None => ""
    case Some(n) => GetPermissions(n)
  }

  /**
   * Setting nine characters and reading them back gives them back; a string
   * of any other length leaves the tree as it was.
   */
  lemma SetThenGetPermissions(root: Node, path: string, perms: string)
    requires Resolve(root, path).Some?
    ensures |perms| == 9 ==> GetPermissionsAt(SetPermissionsAt(root, path, perms).0, path) == perms
    ensures |perms| != 9 ==> SetPermissionsAt(root, path, perms).0 == root
  {
    if |perms| != 9 {
      ReplaceAtSame(root, Segments(path));
    }
  }

  /**
   * `readFile`: a path that does not resolve to a file is an invalid path;
   * then the user must be allowed to read it, and it must not be open in
   * the editor; the content is then handed back (`None` stands for Java's
   * `null`, printed as such).
   */
  function ReadFile(s: State, path: string): (r: Result<Option<string>>)
    requires Valid(s.root) && s.currentUser.Some?
    ensures r.Ok? || r == Err(InvalidPath) || r == Err(PermissionDenied) || r == Err(BeingEdited)
    ensures r == Err(InvalidPath) <==> Resolve(s.root, path).None? || Resolve(s.root, path).value.isDir
    ensures r == Err(PermissionDenied) <==>
              && Resolve(s.root, path).Some? && !Resolve(s.root, path).value.isDir
              && var n := Resolve(s.root, path).value;
                 TripletsOk(n) && TripletOf(n, ClassOf(s.currentUser.value, n))[0] == '-'
    ensures r == Err(BeingEdited) <==>
              && Resolve(s.root, path).Some? && !Resolve(s.root, path).value.isDir
              && var n := Resolve(s.root, path).value;
                 (TripletsOk(n) ==> TripletOf(n, ClassOf(s.currentUser.value, n))[0] != '-') && n.beingEdited
    ensures r.Ok? ==> Resolve(s.root, path).Some? && !Resolve(s.root, path).value.beingEdited
                      && r.value == Resolve(s.root, path).value.content
  {
    match Resolve(s.root, path)
    case None => Err(InvalidPath)
    case Some(n) =>
      if n.isDir then Err(InvalidPath)
      else
        ValidWalk(s.root, Segments(path));
        if !CheckPermissions(s.currentUser.value, n, 'r') then Err(PermissionDenied)
        else if n.beingEdited then Err(BeingEdited)
        else Ok(n.content)
  }
}

=== FILE: shell.dfy ===
/**
 * The shell's own logic: splitting a command line, turning an octal mode
 * into permission characters, the editor's buffer rule, and the dispatch
 * of a command to the file-system operations.
 */
module Shell {
  import opened Optional
  import opened Status
  import opened Text
  import opened FsNode
  import opened Tree
  import opened Accounts
  import opened Access
  import opened Session
  import Snapshot

  /** The permission triplet of each octal digit 0 to 7. */
  const Rwx: seq<string> := ["---", "--x", "-w-", "-wx", "r--", "r-x", "rw-", "rwx"]

  predicate IsOctalDigit(c: char)
  {
    '0' <= c <= '7'
  }

  function DigitValue(c: char): (v: nat)
    requires IsOctalDigit(c)
    ensures v < 8
  {
    c as int - '0' as int
  }

  /** The triplets of the octal digits, or `None` at the first character that is not one. */
  function Triplets(digits: string): (r: Option<string>)
    ensures r.Some? <==> forall i :: 0 <= i < |digits| ==> IsOctalDigit(digits[i])
    ensures r.Some? ==> |r.value| == 3 * |digits|
    ensures r.Some? ==> forall i :: 0 <= i < |digits| ==> r.value[3 * i..3 * i + 3] == Rwx[DigitValue(digits[i])]
  {
    if digits == [] then Some("")
    else if !IsOctalDigit(digits[0]) then None
    else match Triplets(digits[1..])
      case None => None
      case Some(rest) =>
        var t := Rwx[DigitValue(digits[0])];
        assert forall i :: 1 <= i < |digits| ==> (t + rest)[3 * i..3 * i + 3] == rest[3 * (i - 1)..3 * (i - 1) + 3];
        Some(t + rest)
  }

  /**
   * `convertNumericToSymbolic`: three octal digits become nine permission
   * characters; anything else becomes the empty string.
   */
  function Symbolic(numeric: string): (r: string)
    ensures r == "" || |r| == 9
    ensures r != "" <==> |numeric| == 3 && forall i :: 0 <= i < 3 ==> IsOctalDigit(numeric[i])
    ensures r != "" ==> forall i :: 0 <= i < 3 ==> r[3 * i..3 * i + 3] == Rwx[DigitValue(numeric[i])]
  {
    if |numeric| != 3 then ""
    else match Triplets(numeric)
      case None => ""
      case Some(t) => t
  }

  /** Bit `2 - j` of an octal digit: `j` = 0 is read, 1 write, 2 execute. */
  function Bit(d: nat, j: nat): bool
    requires j < 3
  {
    if j == 0 then d / 4 % 2 == 1 else if j == 1 then d / 2 % 2 == 1 else d % 2 == 1
  }

  /** Each table entry grants exactly the operations whose bit is set, each at its own position. */
  lemma RwxBits(d: nat, j: nat)
    requires d < 8 && j < 3
    ensures Rwx[d][j] == (if Bit(d, j) then "rwx"[j] else '-')
  {
    assert d == 0 || d == 1 || d == 2 || d == 3 || d == 4 || d == 5 || d == 6 || d == 7;
  }

  /**
   * Position `3i + j` of the symbolic mode grants its operation exactly
   * when digit `i` has bit `2 - j` set, and shows the operation's letter.
   */
  lemma SymbolicBits(numeric: string, i: nat, j: nat)
    requires Symbolic(numeric) != "" && i < 3 && j < 3
    ensures Symbolic(numeric)[3 * i + j] == (if Bit(DigitValue(numeric[i]), j) then "rwx"[j] else '-')
  {
    var r := Symbolic(numeric);
    assert r[3 * i + j] == r[3 * i..3 * i + 3][j];
    RwxBits(DigitValue(numeric[i]), j);
  }

  /** The octal digit a permission triplet stands for. */
  function DigitOf(t: string): (d: nat)
    requires |t| == 3
    ensures d < 8
  {
    (if t[0] != '-' then 4 else 0) + (if t[1] != '-' then 2 else 0) + (if t[2] != '-' then 1 else 0)
  }

  /** A well-formed triplet: each position holds its letter or `-`. */
  predicate IsTriplet(t: string)
  {
    |t| == 3 && (t[0] == 'r' || t[0] == '-') && (t[1] == 'w' || t[1] == '-') && (t[2] == 'x' || t[2] == '-')
  }

  /** The octal mode a well-formed nine-character permission string stands for. */
  function Numeric(perms: string): (r: string)
    requires |perms| == 9 && IsTriplet(perms[..3]) && IsTriplet(perms[3..6]) && IsTriplet(perms[6..])
    ensures |r| == 3 && forall i :: 0 <= i < 3 ==> IsOctalDigit(r[i])
  {
    [('0' as int + DigitOf(perms[..3])) as char,
     ('0' as int + DigitOf(perms[3..6])) as char,
     ('0' as int + DigitOf(perms[6..])) as char]
  }

  /** The table is the inverse of reading a triplet as a digit. */
  lemma RwxDigitOf(t: string)
    requires IsTriplet(t)
    ensures Rwx[DigitOf(t)] == t
  {
  }

  /** Reading a table entry back as a digit gives the digit. */
  lemma DigitOfRwx(d: nat)
    requires d < 8
    ensures IsTriplet(Rwx[d]) && DigitOf(Rwx[d]) == d
  {
    assert d == 0 || d == 1 || d == 2 || d == 3 || d == 4 || d == 5 || d == 6 || d == 7;
  }

  /** Every well-formed permission string is the symbolic form of exactly its octal mode. */
  lemma SymbolicNumeric(perms: string)
    requires |perms| == 9 && IsTriplet(perms[..3]) && IsTriplet(perms[3..6]) && IsTriplet(perms[6..])
    ensures Symbolic(Numeric(perms)) == perms
  {
    var n := Numeric(perms);
    assert DigitValue(n[0]) == DigitOf(perms[..3]);
    assert DigitValue(n[1]) == DigitOf(perms[3..6]);
    assert DigitValue(n[2]) == DigitOf(perms[6..]);
    var r := Symbolic(n);
    RwxDigitOf(perms[..3]);
    RwxDigitOf(perms[3..6]);
    RwxDigitOf(perms[6..]);
    assert r[..3] == r[0..3] && r[6..] == r[6..9];
    assert perms == perms[..3] + perms[3..6] + perms[6..];
    assert r == r[..3] + r[3..6] + r[6..];
  }

  /** Every valid octal mode is the octal form of its symbolic form. */
  lemma NumericSymbolic(numeric: string)
    requires Symbolic(numeric) != ""
    ensures var r := Symbolic(numeric);
      IsTriplet(r[..3]) && IsTriplet(r[3..6]) && IsTriplet(r[6..]) && Numeric(r) == numeric
  {
    var r := Symbolic(numeric);
    assert r[..3] == r[3 * 0..3 * 0 + 3] == Rwx[DigitValue(numeric[0])];
    assert r[3..6] == r[3 * 1..3 * 1 + 3] == Rwx[DigitValue(numeric[1])];
    assert r[6..] == r[3 * 2..3 * 2 + 3] == Rwx[DigitValue(numeric[2])];
    DigitRoundTrip(numeric[0]);
    DigitRoundTrip(numeric[1]);
    DigitRoundTrip(numeric[2]);
    assert Numeric(r) == [numeric[0], numeric[1], numeric[2]];
  }

  /** An octal digit's table entry reads back as the same digit character. */
  lemma DigitRoundTrip(c: char)
    requires IsOctalDigit(c)
    ensures IsTriplet(Rwx[DigitValue(c)]) && ('0' as int + DigitOf(Rwx[DigitValue(c)])) as char == c
  {
    DigitOfRwx(DigitValue(c));
  }

  lemma SymbolicExamples()
    ensures Symbolic("750") == "rwxr-x---"
    ensures Symbolic("644") == "rw-r--r--"
    ensures Symbolic("75") == "" && Symbolic("7500") == "" && Symbolic("758") == ""
  {
    Symbolic750();
    Symbolic644();
    assert !IsOctalDigit("758"[2]);
  }

  lemma Symbolic750()
    ensures Symbolic("750") == "rwxr-x---"
  {
    assert Triplets("") == Some("");
    assert ['0'] + "" == "0" && DigitValue('0') == 0;
    TripletsCons('0', "");
    assert Rwx[0] + "" == "---";
    assert ['5'] + "0" == "50" && DigitValue('5') == 5;
    TripletsCons('5', "0");
    assert Rwx[5] + "---" == "r-x---";
    assert ['7'] + "50" == "750" && DigitValue('7') == 7;
    TripletsCons('7', "50");
    assert Rwx[7] + "r-x---" == "rwxr-x---";
  }

  lemma Symbolic644()
    ensures Symbolic("644") == "rw-r--r--"
  {
    assert Triplets("") == Some("");
    assert ['4'] + "" == "4" && DigitValue('4') == 4;
    TripletsCons('4', "");
    assert Rwx[4] + "" == "r--";
    assert ['4'] + "4" == "44" && DigitValue('4') == 4;
    TripletsCons('4', "4");
    assert Rwx[4] + "r--" == "r--r--";
    assert ['6'] + "44" == "644" && DigitValue('6') == 6;
    TripletsCons('6', "44");
    assert Rwx[6] + "r--r--" == "rw-r--r--";
  }

  /** The triplets of a leading octal digit come first. */
  lemma TripletsCons(c: char, rest: string)
    requires IsOctalDigit(c) && Triplets(rest).Some?
    ensures Triplets([c] + rest) == Some(Rwx[DigitValue(c)] + Triplets(rest).value)
  {
    assert ([c] + rest)[1..] == rest;
  }

  /** The text typed before `:wq`: every line followed by a newline. */
  function Typed(lines: seq<string>): (r: string)
    ensures lines == [] ==> r == ""
  {
    if lines == [] then "" else Typed(lines[..|lines| - 1]) + lines[|lines| - 1] + "\n"
  }

  /** The position of the first `:wq`, or the number of lines if there is none. */
  function FirstQuit(lines: seq<string>): (k: nat)
    ensures k <= |lines|
    ensures ":wq" !in lines[..k]
    ensures k < |lines| <==> ":wq" in lines
    ensures k < |lines| ==> lines[k] == ":wq"
  {
    if lines == [] then 0
    else if lines[0] == ":wq" then 0
    else
      var k := FirstQuit(lines[1..]);
      assert lines[..k + 1] == [lines[0]] + lines[1..][..k];
      k + 1
  }

  /**
   * The content the editor saves: the earlier content followed by every line
   * typed before the first `:wq`, each with a newline; `None` if no `:wq`
   * arrives, in which case the content is left alone.
   */
  function EditedContent(before: string, lines: seq<string>): (r: Option<string>)
    ensures r.Some? <==> ":wq" in lines
    ensures r.Some? ==> before <= r.value
  {
    if ":wq" in lines then Some(before + Typed(lines[..FirstQuit(lines)])) else None
  }

  /**
   * The loop of `editFile`: lines are appended to a buffer, each with a
   * newline, until the first `:wq`, which saves the buffer.
   */
  method EditBuffer(before: string, lines: seq<string>) returns (saved: bool, content: string)
    ensures saved <==> ":wq" in lines
    ensures saved ==> EditedContent(before, lines) == Some(content)
    ensures !saved ==> content == before
  {
    var buffer := before;
    content := before;
    saved := false;
    var i := 0;
    while i < |lines|
      invariant 0 <= i <= |lines|
      invariant buffer == before + Typed(lines[..i])
      invariant ":wq" !in lines[..i]
    {
      if lines[i] == ":wq" {
        FirstQuitAt(lines, i);
        content := buffer;
        saved := true;
        break;
      }
      assert lines[..i + 1][..i] == lines[..i];
      buffer := buffer + lines[i] + "\n";
      i := i + 1;
    }
    assert i == |lines| ==> lines[..i] == lines;
  }

  /** The first `:wq` is at `i` when no earlier line is one. */
  lemma FirstQuitAt(lines: seq<string>, i: nat)
    requires i < |lines| && lines[i] == ":wq" && ":wq" !in lines[..i]
    ensures FirstQuit(lines) == i
  {
  }

  /**
   * The buffer rule of `editFile` for a file node the user may write,
   * assuming the intermediate save succeeds: a file already open in the
   * editor is refused; otherwise the content becomes what the editor saves
   * and the flag, raised while editing, is lowered again.
   */
  function EditNode(n: Node, lines: seq<string>): (r: (Node, Outcome))
    requires n.content.Some?
    ensures r.1 == Done <==> !n.beingEdited
    ensures r.1 != Done ==> r == (n, Failed(BeingEdited))
    ensures r.0.(content := n.content) == n
    ensures r.1 == Done ==> r.0.content == (if ":wq" in lines then EditedContent(n.content.value, lines) else n.content)
  {
    if n.beingEdited then (n, Failed(BeingEdited))
    else
      match EditedContent(n.content.value, lines)
      case None => (n, Done)
      case Some(c) => (n.(content := Some(c)), Done)
  }

  /** Editing only ever appends to a file's content. */
  lemma EditAppends(n: Node, lines: seq<string>)
    requires n.content.Some?
    ensures EditNode(n, lines).0.content.Some? && n.content.value <= EditNode(n, lines).0.content.value
  {
  }

  /**
   * `editFile` on a path: a path that does not resolve is created as a
   * file of the current user first, and a path that still does not resolve
   * (a relative one) makes Java dereference `null`. A directory and a file
   * the user may not write are refused. Then the flag is raised and the
   * whole tree saved, which dereferences every node's content; a tree with
   * a node without content fails there, with the flag left raised. Otherwise
   * the buffer rule applies.
   */
  function Edit(s: State, path: string, lines: seq<string>): (r: (State, Outcome))
    requires Valid(s.root) && s.currentUser.Some?
    ensures r.0.users == s.users && r.0.cwd == s.cwd && r.0.currentUser == s.currentUser
    ensures r.1 == Done ==> Resolve(r.0.root, path).Some? && !Resolve(r.0.root, path).value.isDir
                            && !Resolve(r.0.root, path).value.beingEdited
    ensures Resolve(s.root, path).Some? && Resolve(s.root, path).value.isDir ==> r == (s, Failed(IsDirectory))
    ensures Valid(r.0.root) && r.0.root.name == s.root.name && r.0.root.isDir == s.root.isDir
    ensures r.1 in {Done, Failed(NullDereference), Failed(IsDirectory), Failed(PermissionDenied), Failed(BeingEdited)}
    ensures r.1 == Done ==> s.root.content.Some?
    ensures r.1 == Done ==> && Resolve(Opened(s, path), path).Some?
                            && Resolve(Opened(s, path), path).value.content.Some?
                            && Resolve(r.0.root, path) == Some(EditNode(Resolve(Opened(s, path), path).value, lines).0)
    ensures Resolve(s.root, path).Some? && r.1 != Done && r.1 != Failed(NullDereference) ==> r.0 == s
    ensures forall q :: Apart(Segments(path), q) ==> Walk(r.0.root, q) == Walk(s.root, q)
    ensures OpenedFile(s, path).None? ==> r.1 == Failed(NullDereference)
    ensures OpenedFile(s, path).Some? ==>
      var n := OpenedFile(s, path).value;
      var may := CheckPermissions(s.currentUser.value, n, 'w');
      && (r.1 == Failed(IsDirectory) <==> n.isDir)
      && (r.1 == Failed(PermissionDenied) <==> !n.isDir && !may)
      && (r.1 == Failed(BeingEdited) <==> !n.isDir && may && n.beingEdited)
      && (r.1 == Done <==> && !n.isDir && may && !n.beingEdited
                           && Snapshot.AllContentSet(ReplaceAt(Opened(s, path), Segments(path), n.(beingEdited := true))))
  {
    var u := s.currentUser.value;
    var root1 := Opened(s, path);
    CreateValid(s.root, path, false, u.username, u.group);
    CreateKeepsRoot(s.root, path, false, u.username, u.group);
    match Resolve(root1, path)
    case None => (s.(root := root1), Failed(NullDereference))
    case Some(n) =>
      ValidWalk(root1, Segments(path));
      if n.isDir then (s.(root := root1), Failed(IsDirectory))
      else if !CheckPermissions(u, n, 'w') then (s.(root := root1), Failed(PermissionDenied))
      else if n.beingEdited then (s.(root := root1), Failed(BeingEdited))
      else
        var flagged := ReplaceAt(root1, Segments(path), n.(beingEdited := true));
        ValidReplaceAt(root1, Segments(path), n.(beingEdited := true));
        ReplaceAtApartAll(root1, Segments(path), n.(beingEdited := true));
        FlagKeepsRootContent(root1, Segments(path), n);
        CreateKeepsRootContent(s.root, path, false, u.username, u.group);
        if !Snapshot.AllContentSet(flagged) then (s.(root := flagged), Failed(NullDereference))
        else
          ContentSetAt(flagged, Segments(path));
          var m := EditNode(n, lines).0;
          ValidReplaceAt(root1, Segments(path), m);
          ReplaceAtApartAll(root1, Segments(path), m);
          (s.(root := ReplaceAt(root1, Segments(path), m)), Done)
  }

  /**
   * The tree `editFile` goes on with: a path that did not resolve has been
   * handed to `create` as a file of the current user.
   */
  function Opened(s: State, path: string): (t: Node)
    requires s.currentUser.Some?
    ensures Resolve(s.root, path).Some? ==> t == s.root
    ensures forall q :: Apart(Segments(path), q) ==> Walk(t, q) == Walk(s.root, q)
  {
    var u := s.currentUser.value;
    CreateKeepsApart(s.root, path, false, u.username, u.group);
    if Resolve(s.root, path).None? then Create(s.root, path, false, u.username, u.group).0 else s.root
  }

  /** The node `editFile` goes on with, if the path resolves after the implicit create. */
  function OpenedFile(s: State, path: string): (r: Option<Node>)
    requires Valid(s.root) && s.currentUser.Some?
    ensures r.Some? <==> Resolve(Opened(s, path), path).Some?
    ensures r.Some? ==> r == Resolve(Opened(s, path), path) && Valid(r.value)
  {
    var u := s.currentUser.value;
    CreateValid(s.root, path, false, u.username, u.group);
    match Resolve(Opened(s, path), path)
    case None => None
    case Some(n) =>
      ValidWalk(Opened(s, path), Segments(path));
      Some(n)
  }

  /** Every node of a tree whose content is all set has content. */
  lemma {:induction false} ContentSetAt(t: Node, p: seq<string>)
    requires Snapshot.AllContentSet(t) && Walk(t, p).Some?
    ensures Walk(t, p).value.content.Some?
    decreases p
  {
    if p != [] { ContentSetAt(t.children[p[0]], p[1..]); }
  }

  /** Setting the edit flag of a node leaves the root's content alone. */
  lemma FlagKeepsRootContent(root: Node, p: seq<string>, n: Node)
    requires Walk(root, p) == Some(n)
    ensures ReplaceAt(root, p, n.(beingEdited := true)).content == root.content
  {
  }

  /** Creating a node never gives the root content. */
  lemma CreateKeepsRootContent(root: Node, path: string, isDir: bool, owner: string, group: string)
    ensures Create(root, path, isDir, owner, group).0.content == root.content
  {
  }

  /**
   * Outcomes only the dispatcher itself produces: an unknown command, an
   * invalid mode, a wrong number of arguments.
   */
  predicate Refused(o: Outcome)
  {
    o == Failed(UnknownCommand) || o == Failed(InvalidMode) || o == Failed(Usage)
  }

  /** The commands that take exactly one path. */
  const PathCommands: set<string> := {"getperm", "cd", "touch", "mkdir", "rm", "rmdir", "cat", "vim"}

  /** The commands that take a user name and a password. */
  const AccountCommands: set<string> := {"adduser", "su", "passwd"}

  /**
   * `executeCommand`: every command but `login` needs a logged-in user;
   * commands with the wrong number of arguments are refused; the rest
   * dispatch to the file-system operations. `input` stands for the lines
   * the editor reads.
   */
  function Execute(s: State, command: string, args: seq<string>, input: seq<string>): (r: (State, Outcome))
    requires Valid(s.root)
    ensures command != "login" && s.currentUser.None? ==> r == (s, Failed(NotLoggedIn))
    ensures r.1 == Failed(UnknownCommand) <==>
              s.currentUser.Some? && command !in {"login", "chmod", "getperm", "pwd", "cd", "ls", "touch", "rm",
                                                  "mkdir", "rmdir", "cat", "vim", "adduser", "su", "passwd"}
    ensures Refused(r.1) ==> r.0 == s
    ensures command == "chmod" && s.currentUser.Some? && |args| == 2 ==>
              (r.1 == Failed(InvalidMode) <==> Symbolic(args[0]) == "")
    ensures command == "chmod" && s.currentUser.Some? && |args| == 2 && Symbolic(args[0]) != "" ==>
              r.0 == s.(root := SetPermissionsAt(s.root, args[1], Symbolic(args[0])).0)
    ensures (command == "touch" || command == "mkdir") && s.currentUser.Some? && |args| == 1 ==>
              r.0 == s.(root := Create(s.root, args[0], command == "mkdir",
                                       s.currentUser.value.username, s.currentUser.value.group).0)
    ensures command == "adduser" && s.currentUser.Some? && |args| == 2 ==> r == AddUser(s, args[0], args[1], "users")
    ensures (command == "login" || command == "su") && (command == "su" ==> s.currentUser.Some?) ==>
              (|args| == 2 ==> r == Login(s, args[0], args[1])) && (|args| != 2 ==> r == (s, Failed(Usage)))
    ensures command in {"pwd", "ls", "getperm", "cat"} ==> r.0 == s
    ensures s.currentUser.Some? && |args| == 1 ==>
              && (command == "cd" ==> r == ChangeDirectory(s, args[0]))
              && (command == "rm" || command == "rmdir" ==> r == (s.(root := Remove(s.root, args[0]).0), Remove(s.root, args[0]).1))
              && (command == "vim" ==> r == Edit(s, args[0], input))
    ensures command == "passwd" && s.currentUser.Some? && |args| == 2 ==>
              r == (s.(users := ChangePassword(s.users, args[0], args[1]).0), ChangePassword(s.users, args[0], args[1]).1)
    ensures command in PathCommands && s.currentUser.Some? && |args| != 1 ==> r == (s, Failed(Usage))
  {
    if command == "login" then
      if |args| != 2 then (s, Failed(Usage)) else Login(s, args[0], args[1])
    else if s.currentUser.None? then (s, Failed(NotLoggedIn))
    else if command == "chmod" then
      if |args| != 2 then (s, Failed(Usage)) else Chmod(s, args[0], args[1])
    else if command == "pwd" || command == "ls" then (s, Done)
    else if command in PathCommands then
      if |args| != 1 then (s, Failed(Usage)) else PathCommand(s, command, args[0], input)
    else if command in AccountCommands then
      if |args| != 2 then (s, Failed(Usage)) else AccountCommand(s, command, args[0], args[1])
    else (s, Failed(UnknownCommand))
  }

  /** `chmod <mode> <path>`: an invalid octal mode is refused, a valid one set at the path. */
  function Chmod(s: State, mode: string, path: string): (r: (State, Outcome))
    ensures r.1 == Failed(InvalidMode) <==> Symbolic(mode) == ""
    ensures r.1 != Failed(UnknownCommand) && r.1 != Failed(Usage)
    ensures Symbolic(mode) == "" ==> r.0 == s
    ensures Symbolic(mode) != "" ==> r.0 == s.(root := SetPermissionsAt(s.root, path, Symbolic(mode)).0)
  {
    var perms := Symbolic(mode);
    if perms == "" then (s, Failed(InvalidMode))
    else var (root, o) := SetPermissionsAt(s.root, path, perms); (s.(root := root), o)
  }

  /**
   * The one-path commands of a logged-in user: `getperm` and `cat` only
   * read, `cd` moves, `touch` and `mkdir` create with the user's name and
   * group, `rm` and `rmdir` remove, `vim` edits.
   */
  function PathCommand(s: State, command: string, path: string, input: seq<string>): (r: (State, Outcome))
    requires Valid(s.root) && s.currentUser.Some? && command in PathCommands
    ensures !Refused(r.1)
    ensures command == "getperm" || command == "cat" ==> r.0 == s
    ensures command == "getperm" ==> (r.1 == Done <==> Resolve(s.root, path).Some?)
                                     && (r.1 != Done ==> r.1 == Failed(NotFound))
    ensures command == "cat" ==> (r.1 == Done <==> ReadFile(s, path).Ok?)
                                 && (ReadFile(s, path).Err? ==> r.1 == Failed(ReadFile(s, path).error))
    ensures command == "cd" ==> r == ChangeDirectory(s, path)
    ensures command == "touch" || command == "mkdir" ==>
              var c := Create(s.root, path, command == "mkdir", s.currentUser.value.username, s.currentUser.value.group);
              r == (s.(root := c.0), c.1)
    ensures command == "rm" || command == "rmdir" ==> r == (s.(root := Remove(s.root, path).0), Remove(s.root, path).1)
    ensures command == "vim" ==> r == Edit(s, path, input)
  {
    var u := s.currentUser.value;
    if command == "getperm" then (s, if Resolve(s.root, path).Some? then Done else Failed(NotFound))
    else if command == "cd" then ChangeDirectory(s, path)
    else if command == "touch" || command == "mkdir" then
      var (root, o) := Create(s.root, path, command == "mkdir", u.username, u.group); (s.(root := root), o)
    else if command == "rm" || command == "rmdir" then
      var (root, o) := Remove(s.root, path); (s.(root := root), o)
    else if command == "cat" then
      match ReadFile(s, path)
      case Ok(_) => (s, Done)
      case Err(e) => (s, Failed(e))
    else Edit(s, path, input)
  }

  /** `adduser` (into group `users`), `su` and `passwd` of a logged-in user. */
  function AccountCommand(s: State, command: string, name: string, password: string): (r: (State, Outcome))
    requires Valid(s.root) && command in AccountCommands
    ensures !Refused(r.1)
    ensures command == "adduser" ==> r == AddUser(s, name, password, "users")
    ensures command == "su" ==> r == Login(s, name, password)
    ensures command == "passwd" ==> r == (s.(users := ChangePassword(s.users, name, password).0), ChangePassword(s.users, name, password).1)
  {
    if command == "adduser" then AddUser(s, name, password, "users")
    else if command == "su" then Login(s, name, password)
    else var (users, o) := ChangePassword(s.users, name, password); (s.(users := users), o)
  }

  /** Every command keeps the session invariant. */
  lemma ExecuteInv(s: State, command: string, args: seq<string>, input: seq<string>)
    requires Inv(s)
    ensures Inv(Execute(s, command, args, input).0)
  {
    if s.currentUser.Some? {
      var u := s.currentUser.value;
      if command == "chmod" && |args| == 2 && Symbolic(args[0]) != "" {
        SetPermissionsAtValid(s.root, args[1], Symbolic(args[0]));
      } else if (command == "touch" || command == "mkdir") && |args| == 1 {
        CreateValid(s.root, args[0], command == "mkdir", u.username, u.group);
        CreateKeepsRoot(s.root, args[0], command == "mkdir", u.username, u.group);
      } else if (command == "rm" || command == "rmdir") && |args| == 1 {
        RemoveValid(s.root, args[0]);
        RemoveKeepsRoot(s.root, args[0]);
      } else if command == "adduser" && |args| == 2 {
        AddUserInv(s, args[0], args[1], "users");
      }
    }
  }

  /**
   * `run`'s handling of one input line: the exact line `exit` ends the
   * session and leaves the state alone; any other line is cut into
   * space-separated words, the first being the command, and a line without
   * words does nothing.
   */
  function Step(s: State, line: string, input: seq<string>): (r: (State, Outcome))
    requires Valid(s.root)
    ensures line == "exit" || Split(line, ' ') == [] ==> r == (s, Done)
    ensures line != "exit" && Split(line, ' ') != [] ==> r == Execute(s, Split(line, ' ')[0], Split(line, ' ')[1..], input)
  {
    var words := Split(line, ' ');
    if line == "exit" || words == [] then (s, Done) else Execute(s, words[0], words[1..], input)
  }

  /** Runs of spaces, and spaces at either end, never make empty words. */
  lemma StepWords(a: string, b: string)
    ensures Split(a + " " + b, ' ') == Split(a, ' ') + Split(b, ' ')
    ensures Split(" " + a, ' ') == Split(a, ' ')
  {
    assert a + " " + b == a + [' '] + b;
    SplitAround(a, ' ', b);
    assert " " + a == [] + [' '] + a;
    SplitAround([], ' ', a);
    assert Split([], ' ') == [];
  }
}

=== FILE: snapshot.dfy ===
/**
 * The tree snapshot of FileSystem.java: the pre-order writer `saveNode`,
 * the line format, and the merge-style reader `loadFromFile`, over records
 * already cut into their seven fields.
 */
module Snapshot {
  import opened Optional
  import opened Status
  import opened Text
  import opened Codec
  import opened FsNode
  import opened Tree
  import opened Sets

  /**
   * One snapshot line: the accumulated path, the type, owner, group, the
   * nine permission characters, the edit flag and the escaped content.
   */
  datatype Record = Record(path: string, isDir: bool, owner: string, group: string,
                           perms: string, beingEdited: bool, content: string)

  /** Every node of the tree carries content (Java: no `null` content anywhere). */
  predicate AllContentSet(n: Node)
  {
    && n.content.Some?
    && forall k :: k in n.children ==> AllContentSet(n.children[k])
  }

  /** Every child name is a non-empty, slash-free segment, so a path can reach it. */
  ghost predicate Addressable(n: Node)
  {
    forall k :: k in n.children ==> IsToken(k, Slash) && Addressable(n.children[k])
  }

  /** The line `saveNode` writes for `n` below the accumulated `prefix`. */
  function RecordOf(n: Node, prefix: string): Record
    requires n.content.Some?
  {
    Record(prefix + n.name, n.isDir, n.owner, n.group, GetPermissions(n), n.beingEdited, Encode(n.content.value))
  }

  /** `r` carries exactly the fields of `n`. */
  predicate Describes(r: Record, n: Node)
  {
    && r.isDir == n.isDir && r.owner == n.owner && r.group == n.group
    && r.perms == GetPermissions(n) && r.beingEdited == n.beingEdited
    && n.content.Some? && r.content == Encode(n.content.value)
  }

  /**
   * `saveNode`: the node's own line, then each child's lines under the prefix
   * extended by the node's name and a slash, children in the map's
   * (unspecified) iteration order. Java dereferences every node's content,
   * so every node must have some.
   */
  ghost function SaveNode(n: Node, prefix: string): (r: seq<Record>)
    requires AllContentSet(n)
    ensures |r| >= 1 && r[0] == RecordOf(n, prefix)
    decreases n, 1
  {
    [RecordOf(n, prefix)] + SaveChildren(n, Enumerate(n.children.Keys), prefix + n.name + "/")
  }

  /** The lines of the children named by `keys`, in that order. */
  ghost function SaveChildren(n: Node, keys: seq<string>, prefix: string): (r: seq<Record>)
    requires AllContentSet(n)
    requires forall i :: 0 <= i < |keys| ==> keys[i] in n.children
    decreases n, 0, |keys|
  {
    if keys == [] then []
    else SaveNode(n.children[keys[0]], prefix) + SaveChildren(n, keys[1..], prefix)
  }

  /** `saveToFile`: the whole tree from the root, with an empty prefix. */
  ghost function Save(root: Node): (r: seq<Record>)
    requires AllContentSet(root)
    ensures |r| >= 1 && r[0] == RecordOf(root, "")
  {
    SaveNode(root, "")
  }

  /** The key path a record's path string resolves along. */
  function KeyPath(r: Record): seq<string>
  {
    Segments(r.path)
  }

  lemma SegmentsOfSlash()
    ensures Segments("/") == []
  {
    assert "/" == [] + [Slash] + [];
    SplitAround([], Slash, []);
  }

  /** The path of a child's line: the parent's path, a slash, the child's name. */
  lemma ChildPath(base: string, ps: seq<string>, k: string)
    requires IsAbsolute(base) && Segments(base) == ps && IsToken(k, Slash)
    ensures IsAbsolute((base + "/") + k) && Segments((base + "/") + k) == ps + [k]
  {
    assert (base + "/") + k == base + [Slash] + k;
    assert ((base + "/") + k)[0] == base[0];
    SplitAround(base, Slash, k);
    SplitPlain(k, Slash);
  }

  // ---------------------------------------------------------------------
  // Soundness: every line resolves to the node it describes.
  // ---------------------------------------------------------------------

  lemma {:induction false} SaveNodeSound(root: Node, ps: seq<string>, n: Node, prefix: string)
    requires Walk(root, ps) == Some(n)
    requires Valid(n) && Addressable(n) && AllContentSet(n)
    requires IsAbsolute(prefix + n.name) && Segments(prefix + n.name) == ps
    ensures forall r :: r in SaveNode(n, prefix) ==> Resolve(root, r.path).Some? && Describes(r, Resolve(root, r.path).value)
    decreases n, 1
  {
    var keys := Enumerate(n.children.Keys);
    SaveChildrenSound(root, ps, n, keys, prefix + n.name);
    assert SaveNode(n, prefix) == [RecordOf(n, prefix)] + SaveChildren(n, keys, prefix + n.name + "/");
  }

  lemma {:induction false} SaveChildrenSound(root: Node, ps: seq<string>, n: Node, keys: seq<string>, base: string)
    requires Walk(root, ps) == Some(n)
    requires Valid(n) && Addressable(n) && AllContentSet(n)
    requires forall i :: 0 <= i < |keys| ==> keys[i] in n.children
    requires IsAbsolute(base) && Segments(base) == ps
    ensures forall r :: r in SaveChildren(n, keys, base + "/") ==> Resolve(root, r.path).Some? && Describes(r, Resolve(root, r.path).value)
    decreases n, 0, |keys|
  {
    if keys != [] {
      var k := keys[0];
      var c := n.children[k];
      ChildPath(base, ps, k);
      WalkAppend(root, ps, [k]);
      SaveNodeSound(root, ps + [k], c, base + "/");
      SaveChildrenSound(root, ps, n, keys[1..], base);
    }
  }

  /**
   * Every line of a saved tree resolves, through `getNodeByPath`, to a node
   * whose fields it carries. The text of the paths is `SaveTopLevel`'s.
   */
  lemma SaveSound(root: Node)
    requires Valid(root) && Addressable(root) && AllContentSet(root) && root.name == "/"
    ensures forall r :: r in Save(root) ==> Resolve(root, r.path).Some? && Describes(r, Resolve(root, r.path).value)
  {
    SegmentsOfSlash();
    assert "" + root.name == "/";
    SaveNodeSound(root, [], root, "");
  }

  /** Every line a node writes carries the prefix it was written under. */
  lemma {:induction false} SaveNodePrefixed(n: Node, prefix: string)
    requires AllContentSet(n)
    ensures forall r :: r in SaveNode(n, prefix) ==> prefix <= r.path
    decreases n, 1
  {
    var inner := prefix + n.name + "/";
    SaveChildrenPrefixed(n, Enumerate(n.children.Keys), inner);
    forall r | r in SaveNode(n, prefix) ensures prefix <= r.path {
      if r != RecordOf(n, prefix) {
        assert inner <= r.path;
        assert r.path[..|prefix|] == inner[..|prefix|];
      }
    }
  }

  lemma {:induction false} SaveChildrenPrefixed(n: Node, keys: seq<string>, prefix: string)
    requires AllContentSet(n)
    requires forall i :: 0 <= i < |keys| ==> keys[i] in n.children
    ensures forall r :: r in SaveChildren(n, keys, prefix) ==> prefix <= r.path
    decreases n, 0, |keys|
  {
    if keys != [] {
      SaveNodePrefixed(n.children[keys[0]], prefix);
      SaveChildrenPrefixed(n, keys[1..], prefix);
    }
  }

  /**
   * The text form of snapshot paths: the root is saved with an empty prefix
   * and is named `/`, so its line reads `/` and every other line starts
   * with `//`; a child of the root is saved as `//` followed by its name.
   */
  lemma SaveTopLevel(root: Node, k: string)
    requires AllContentSet(root) && root.name == "/"
    ensures Save(root)[0].path == "/"
    ensures forall i :: 1 <= i < |Save(root)| ==> "//" <= Save(root)[i].path
    ensures k in root.children ==> root.children[k].content.Some?
    ensures k in root.children ==> RecordOf(root.children[k], "//") in Save(root)
                                   && RecordOf(root.children[k], "//").path == "//" + root.children[k].name
  {
    assert "" + root.name + "/" == "//";
    var keys := Enumerate(root.children.Keys);
    SaveChildrenPrefixed(root, keys, "//");
    assert Save(root) == [RecordOf(root, "")] + SaveChildren(root, keys, "//");
    forall i | 1 <= i < |Save(root)| ensures "//" <= Save(root)[i].path {
      assert Save(root)[i] in SaveChildren(root, keys, "//");
    }
    if k in root.children {
      SaveNodeHasChild(root, "", k);
    }
  }

  // ---------------------------------------------------------------------
  // Completeness: every node has a line.
  // ---------------------------------------------------------------------

  /** Every element of `a` is an element of `b`. */
  predicate Among(a: seq<Record>, b: seq<Record>)
  {
    forall x :: x in a ==> x in b
  }

  lemma AmongAppend(a: seq<Record>, b: seq<Record>)
    ensures Among(a, a + b) && Among(b, a + b)
  {
  }

  lemma AmongTrans(a: seq<Record>, b: seq<Record>, c: seq<Record>)
    requires Among(a, b) && Among(b, c)
    ensures Among(a, c)
  {
  }

  /** The lines of the `i`-th listed child are among the lines of the list. */
  lemma {:induction false} SaveChildrenHas(n: Node, keys: seq<string>, prefix: string, i: nat)
    requires AllContentSet(n)
    requires forall j :: 0 <= j < |keys| ==> keys[j] in n.children
    requires i < |keys|
    ensures Among(SaveNode(n.children[keys[i]], prefix), SaveChildren(n, keys, prefix))
    decreases i
  {
    var head, tail := SaveNode(n.children[keys[0]], prefix), SaveChildren(n, keys[1..], prefix);
    assert SaveChildren(n, keys, prefix) == head + tail;
    AmongAppend(head, tail);
    if i > 0 {
      SaveChildrenHas(n, keys[1..], prefix, i - 1);
      assert keys[1..][i - 1] == keys[i];
      AmongTrans(SaveNode(n.children[keys[i]], prefix), tail, head + tail);
    }
  }

  lemma StepAppend(ps: seq<string>, q: seq<string>)
    requires q != []
    ensures ps + [q[0]] + q[1..] == ps + q
  {
    assert [q[0]] + q[1..] == q;
  }

  /** A child's lines are among its parent's lines. */
  lemma SaveNodeHasChild(n: Node, prefix: string, k: string)
    requires AllContentSet(n) && k in n.children
    ensures Among(SaveNode(n.children[k], prefix + n.name + "/"), SaveNode(n, prefix))
  {
    var keys := Enumerate(n.children.Keys);
    var i :| 0 <= i < |keys| && keys[i] == k;
    var cs := SaveChildren(n, keys, prefix + n.name + "/");
    SaveChildrenHas(n, keys, prefix + n.name + "/", i);
    AmongAppend([RecordOf(n, prefix)], cs);
    AmongTrans(SaveNode(n.children[k], prefix + n.name + "/"), cs, SaveNode(n, prefix));
  }

  lemma {:induction false} SaveNodeComplete(n: Node, prefix: string, ps: seq<string>, q: seq<string>)
    requires Valid(n) && Addressable(n) && AllContentSet(n)
    requires IsAbsolute(prefix + n.name) && Segments(prefix + n.name) == ps
    requires Walk(n, q).Some?
    ensures exists r :: r in SaveNode(n, prefix) && KeyPath(r) == ps + q
    decreases q
  {
    if q == [] {
      assert ps + q == ps;
      assert RecordOf(n, prefix) in SaveNode(n, prefix);
    } else {
      var k := q[0];
      var c := n.children[k];
      ChildPath(prefix + n.name, ps, k);
      SaveNodeComplete(c, prefix + n.name + "/", ps + [k], q[1..]);
      var r :| r in SaveNode(c, prefix + n.name + "/") && KeyPath(r) == ps + [k] + q[1..];
      SaveNodeHasChild(n, prefix, k);
      StepAppend(ps, q);
      assert r in SaveNode(n, prefix);
    }
  }

  /** Every node of the tree is written: some line's path resolves along its key path. */
  lemma SaveComplete(root: Node, q: seq<string>)
    requires Valid(root) && Addressable(root) && AllContentSet(root) && root.name == "/"
    requires Walk(root, q).Some?
    ensures exists r :: r in Save(root) && KeyPath(r) == q
  {
    SegmentsOfSlash();
    assert "" + root.name == "/";
    SaveNodeComplete(root, "", [], q);
  }

  // ---------------------------------------------------------------------
  // Order: the writer is pre-order, each parent's line before its children's.
  // ---------------------------------------------------------------------

  /** Line `j`'s parent path is the key path of an earlier line `i`. */
  predicate ParentEarlier(rs: seq<Record>, j: int)
    requires 0 <= j < |rs|
  {
    var kp := KeyPath(rs[j]);
    kp != [] && exists i :: 0 <= i < j && KeyPath(rs[i]) == kp[..|kp| - 1]
  }

  /** The parent path of a non-empty key path. */
  function ParentKeys(kp: seq<string>): seq<string>
    requires kp != []
  {
    kp[..|kp| - 1]
  }

  lemma ParentAt(s: seq<Record>, i: int, j: int)
    requires 0 <= i < j < |s| && KeyPath(s[j]) != [] && KeyPath(s[i]) == ParentKeys(KeyPath(s[j]))
    ensures ParentEarlier(s, j)
  {
  }

  lemma ParentEarlierLeft(a: seq<Record>, b: seq<Record>, j: int)
    requires 0 <= j < |a| && ParentEarlier(a, j)
    ensures ParentEarlier(a + b, j)
  {
    var kp := KeyPath(a[j]);
    var i :| 0 <= i < j && KeyPath(a[i]) == kp[..|kp| - 1];
    assert (a + b)[i] == a[i] && (a + b)[j] == a[j];
  }

  lemma ParentEarlierRight(a: seq<Record>, b: seq<Record>, j: int)
    requires 0 <= j < |b| && ParentEarlier(b, j)
    ensures ParentEarlier(a + b, |a| + j)
  {
    var kp := KeyPath(b[j]);
    var i :| 0 <= i < j && KeyPath(b[i]) == kp[..|kp| - 1];
    assert (a + b)[|a| + i] == b[i] && (a + b)[|a| + j] == b[j];
  }

  /** Every line of `s` lies strictly below the key path `ps`. */
  predicate Below(s: seq<Record>, ps: seq<string>)
  {
    forall j :: 0 <= j < |s| ==> ps < KeyPath(s[j])
  }

  lemma BelowAppend(a: seq<Record>, b: seq<Record>, ps: seq<string>)
    requires Below(a, ps) && Below(b, ps)
    ensures Below(a + b, ps)
  {
    forall j | 0 <= j < |a + b| ensures ps < KeyPath((a + b)[j]) {
      if j < |a| { assert (a + b)[j] == a[j]; } else { assert (a + b)[j] == b[j - |a|]; }
    }
  }

  /** A first line at `ps`, then lines below it: everything lies below `ps`'s parent. */
  lemma BelowParent(s: seq<Record>, ps: seq<string>, k: string)
    requires s != [] && KeyPath(s[0]) == ps + [k]
    requires forall j :: 0 < j < |s| ==> ps + [k] < KeyPath(s[j])
    ensures Below(s, ps)
  {
    assert ps < ps + [k];
  }

  /** The lines after a first one are the tail's lines. */
  lemma BelowTail(x: Record, cs: seq<Record>, ps: seq<string>)
    requires Below(cs, ps)
    ensures forall j :: 0 < j < |[x] + cs| ==> ps < KeyPath(([x] + cs)[j])
  {
    forall j | 0 < j < |[x] + cs| ensures ps < KeyPath(([x] + cs)[j]) {
      assert ([x] + cs)[j] == cs[j - 1];
    }
  }

  /** All lines of a node lie at or below its key path, strictly below after the first. */
  lemma {:induction false} SaveNodeBelow(n: Node, prefix: string, ps: seq<string>)
    requires Valid(n) && Addressable(n) && AllContentSet(n)
    requires IsAbsolute(prefix + n.name) && Segments(prefix + n.name) == ps
    ensures KeyPath(SaveNode(n, prefix)[0]) == ps
    ensures forall j :: 0 < j < |SaveNode(n, prefix)| ==> ps < KeyPath(SaveNode(n, prefix)[j])
    decreases n, 1
  {
    var keys := Enumerate(n.children.Keys);
    var cs := SaveChildren(n, keys, prefix + n.name + "/");
    SaveChildrenBelow(n, keys, prefix + n.name, ps);
    assert SaveNode(n, prefix) == [RecordOf(n, prefix)] + cs;
    BelowTail(RecordOf(n, prefix), cs, ps);
  }

  lemma {:induction false} SaveChildrenBelow(n: Node, keys: seq<string>, base: string, ps: seq<string>)
    requires Valid(n) && Addressable(n) && AllContentSet(n)
    requires forall i :: 0 <= i < |keys| ==> keys[i] in n.children
    requires IsAbsolute(base) && Segments(base) == ps
    ensures Below(SaveChildren(n, keys, base + "/"), ps)
    decreases n, 0, |keys|
  {
    if keys != [] {
      var k := keys[0];
      var c := n.children[k];
      var a := SaveNode(c, base + "/");
      var b := SaveChildren(n, keys[1..], base + "/");
      ChildPath(base, ps, k);
      SaveNodeBelow(c, base + "/", ps + [k]);
      BelowParent(a, ps, k);
      SaveChildrenBelow(n, keys[1..], base, ps);
      assert SaveChildren(n, keys, base + "/") == a + b;
      BelowAppend(a, b, ps);
    }
  }

  /** Every line of `s` has a parent: `ps` itself, or an earlier line. */
  predicate OrderedBelow(s: seq<Record>, ps: seq<string>)
  {
    forall j :: 0 <= j < |s| ==>
      KeyPath(s[j]) != [] && (ParentKeys(KeyPath(s[j])) == ps || ParentEarlier(s, j))
  }

  /** Every line of `s` but the first has its parent earlier. */
  predicate Ordered(s: seq<Record>)
  {
    forall j :: 0 < j < |s| ==> ParentEarlier(s, j)
  }

  lemma OrderedConsAt(x: Record, cs: seq<Record>, ps: seq<string>, j: int)
    requires KeyPath(x) == ps && 0 < j <= |cs|
    requires KeyPath(cs[j - 1]) != [] && (ParentKeys(KeyPath(cs[j - 1])) == ps || ParentEarlier(cs, j - 1))
    ensures ParentEarlier([x] + cs, j)
  {
    assert ([x] + cs)[j] == cs[j - 1];
    if ParentKeys(KeyPath(cs[j - 1])) == ps {
      ParentAt([x] + cs, 0, j);
    } else {
      ParentEarlierRight([x], cs, j - 1);
    }
  }

  lemma OrderedCons(x: Record, cs: seq<Record>, ps: seq<string>)
    requires KeyPath(x) == ps && OrderedBelow(cs, ps)
    ensures Ordered([x] + cs)
  {
    forall j | 0 < j < |[x] + cs| ensures ParentEarlier([x] + cs, j) {
      OrderedConsAt(x, cs, ps, j);
    }
  }

  lemma OrderedConcat(a: seq<Record>, b: seq<Record>, ps: seq<string>, k: string)
    requires a != [] && KeyPath(a[0]) == ps + [k] && Ordered(a)
    requires OrderedBelow(b, ps)
    ensures OrderedBelow(a + b, ps)
  {
    var s := a + b;
    forall j | 0 <= j < |s|
      ensures KeyPath(s[j]) != [] && (ParentKeys(KeyPath(s[j])) == ps || ParentEarlier(s, j))
    {
      if j == 0 {
        assert s[0] == a[0];
        assert ParentKeys(ps + [k]) == ps;
      } else if j < |a| {
        assert s[j] == a[j];
        ParentEarlierLeft(a, b, j);
      } else {
        assert s[j] == b[j - |a|];
        if ParentKeys(KeyPath(b[j - |a|])) != ps {
          ParentEarlierRight(a, b, j - |a|);
        }
      }
    }
  }

  lemma {:induction false} SaveNodeOrder(n: Node, prefix: string, ps: seq<string>)
    requires Valid(n) && Addressable(n) && AllContentSet(n)
    requires IsAbsolute(prefix + n.name) && Segments(prefix + n.name) == ps
    ensures Ordered(SaveNode(n, prefix))
    decreases n, 1
  {
    var keys := Enumerate(n.children.Keys);
    SaveNodeBelow(n, prefix, ps);
    SaveChildrenOrder(n, keys, prefix + n.name, ps);
    OrderedCons(RecordOf(n, prefix), SaveChildren(n, keys, prefix + n.name + "/"), ps);
  }

  lemma {:induction false} SaveChildrenOrder(n: Node, keys: seq<string>, base: string, ps: seq<string>)
    requires Valid(n) && Addressable(n) && AllContentSet(n)
    requires forall i :: 0 <= i < |keys| ==> keys[i] in n.children
    requires IsAbsolute(base) && Segments(base) == ps
    ensures OrderedBelow(SaveChildren(n, keys, base + "/"), ps)
    decreases n, 0, |keys|
  {
    if keys != [] {
      var k := keys[0];
      var c := n.children[k];
      ChildPath(base, ps, k);
      SaveNodeBelow(c, base + "/", ps + [k]);
      SaveNodeOrder(c, base + "/", ps + [k]);
      SaveChildrenOrder(n, keys[1..], base, ps);
      OrderedConcat(SaveNode(c, base + "/"), SaveChildren(n, keys[1..], base + "/"), ps, k);
    }
  }

  /**
   * The writer is pre-order: the first line is the root's, and every other
   * line's parent path is the key path of an earlier line.
   */
  lemma SaveParentsFirst(root: Node)
    requires Valid(root) && Addressable(root) && AllContentSet(root) && root.name == "/"
    ensures Save(root)[0].path == "/" && KeyPath(Save(root)[0]) == []
    ensures Ordered(Save(root))
  {
    SegmentsOfSlash();
    assert "" + root.name == "/";
    SaveNodeBelow(root, "", []);
    SaveNodeOrder(root, "", []);
  }

  // ---------------------------------------------------------------------
  // The reader: one record at a time, merged into the tree.
  // ---------------------------------------------------------------------

  /**
   * What the reader writes into a node it found or made: the permissions
   * (ignored unless nine characters), the edit flag and, for a line whose
   * type is not `d`, the decoded content.
   */
  function Refresh(n: Node, r: Record): (m: Node)
    ensures m.name == n.name && m.isDir == n.isDir && m.children == n.children
    ensures m.owner == n.owner && m.group == n.group
    ensures m.beingEdited == r.beingEdited
    ensures m.content == if r.isDir then n.content else Some(Decode(r.content))
    ensures |r.perms| == 9 ==> GetPermissions(m) == r.perms && TripletsOk(m)
    ensures |r.perms| != 9 ==> m.userPerms == n.userPerms && m.groupPerms == n.groupPerms && m.otherPerms == n.otherPerms
  {
    SetPermissions(n, r.perms).(beingEdited := r.beingEdited, content := if r.isDir then n.content else Some(Decode(r.content)))
  }

  /** What the reader writes into a node that already resolved: owner and group too. */
  function Overwrite(n: Node, r: Record): Node
  {
    Refresh(n.(owner := r.owner, group := r.group), r)
  }

  /**
   * One line of `loadFromFile`: a path that resolves has its node
   * overwritten in place; otherwise `create` is called with the line's type,
   * owner and group, and the node it made, if the path now resolves, is
   * refreshed.
   */
  function ApplyRecord(t: Node, r: Record): (m: Node)
    ensures Resolve(t, r.path).Some? ==> Resolve(m, r.path) == Some(Overwrite(Resolve(t, r.path).value, r))
    ensures Resolve(t, r.path).None? && !ParentIsDir(t, r.path) ==> m == t
  {
    match Resolve(t, r.path)
    case Some(n) => ReplaceAt(t, Segments(r.path), Overwrite(n, r))
    case None =>
      var t1 := Create(t, r.path, r.isDir, r.owner, r.group).0;
      match Resolve(t1, r.path)
      case Some(n) => ReplaceAt(t1, Segments(r.path), Refresh(n, r))
      case None => t1
  }

  /** `loadFromFile`: the records applied in order. */
  function Load(t: Node, records: seq<Record>): Node
    decreases |records|
  {
    if records == [] then t else Load(ApplyRecord(t, records[0]), records[1..])
  }

  /** Lines with absolute paths only ever add nodes: every node keeps its place and type. */
  lemma {:induction false} LoadExtends(t: Node, records: seq<Record>)
    requires forall i :: 0 <= i < |records| ==> IsAbsolute(records[i].path)
    ensures Extends(t, Load(t, records))
    decreases |records|
  {
    if records == [] {
      ExtendsRefl(t);
    } else {
      var t1 := ApplyRecord(t, records[0]);
      ApplyAbsoluteExtends(t, records[0]);
      LoadExtends(t1, records[1..]);
      ExtendsTrans(t, t1, Load(t1, records[1..]));
    }
  }

  /** Overwriting keeps a node's type and children, so it loses nothing below. */
  lemma OverwriteExtends(n: Node, r: Record)
    ensures Extends(n, Overwrite(n, r)) && Extends(n, Refresh(n, r))
  {
    forall k | k in n.children ensures Extends(n.children[k], n.children[k]) {
      ExtendsRefl(n.children[k]);
    }
  }

  /** A line whose path resolves overwrites that node's fields and nothing of its shape. */
  lemma ApplyExisting(t: Node, r: Record)
    requires Resolve(t, r.path).Some?
    ensures var n := Resolve(t, r.path).value;
      && Resolve(ApplyRecord(t, r), r.path) == Some(Overwrite(n, r))
      && Overwrite(n, r).isDir == n.isDir && Overwrite(n, r).children == n.children
      && Overwrite(n, r).owner == r.owner && Overwrite(n, r).group == r.group
  {
  }

  /**
   * A line whose absolute path is missing, but whose parent is a directory,
   * makes the node with the line's type, owner and group, then writes the
   * line's remaining fields into it.
   */
  lemma ApplyMissing(t: Node, r: Record)
    requires IsAbsolute(r.path) && Resolve(t, r.path).None?
    requires Create(t, r.path, r.isDir, r.owner, r.group).1 == Done
    ensures Resolve(ApplyRecord(t, r), r.path)
      == Some(Refresh(Created(ParentAndName(r.path).1, r.isDir, r.owner, r.group), r))
  {
    CreateAbsolute(t, r.path, r.isDir, r.owner, r.group);
  }

  /** A line with an absolute path never removes a node and never changes a node's type. */
  lemma ApplyAbsoluteExtends(t: Node, r: Record)
    requires IsAbsolute(r.path)
    ensures Extends(t, ApplyRecord(t, r))
  {
    var ps := Segments(r.path);
    match Resolve(t, r.path)
    case Some(n) =>
      OverwriteExtends(n, r);
      ExtendsReplaceAt(t, ps, Overwrite(n, r));
    case None =>
      var t1 := Create(t, r.path, r.isDir, r.owner, r.group).0;
      CreateAbsoluteExtends(t, r.path, r.isDir, r.owner, r.group);
      match Resolve(t1, r.path)
      case Some(n) =>
        OverwriteExtends(n, r);
        ExtendsReplaceAt(t1, ps, Refresh(n, r));
        ExtendsTrans(t, t1, ApplyRecord(t, r));
      case None =>
  }

  /**
   * A line with a slash-free relative path goes through `create` under the
   * root, which puts a fresh node there even if the root had a child of that
   * name, losing that child's subtree; the line's fields are not applied,
   * because the path never resolves.
   */
  lemma ApplyRelative(t: Node, r: Record)
    requires Slash !in r.path && t.isDir
    ensures ApplyRecord(t, r) == t.(children := t.children[r.path := Created(r.path, r.isDir, r.owner, r.group)])
  {
    assert !IsAbsolute(r.path);
    CreateRelative(t, r.path, r.isDir, r.owner, r.group);
  }

  /** Applying the same line twice is applying it once. */
  lemma ApplyRecordTwice(t: Node, r: Record)
    ensures ApplyRecord(ApplyRecord(t, r), r) == ApplyRecord(t, r)
  {
    var p := r.path;
    var ps := Segments(p);
    var u := ApplyRecord(t, r);
    if Resolve(t, p).Some? {
      var n := Resolve(t, p).value;
      var m := Overwrite(n, r);
      assert Overwrite(m, r) == m by {
        SetPermissionsIdempotent(n.(owner := r.owner, group := r.group), r.perms);
      }
      ReplaceAtTwice(t, ps, m, m);
    } else if IsAbsolute(p) {
      var t1 := Create(t, p, r.isDir, r.owner, r.group).0;
      if Create(t, p, r.isDir, r.owner, r.group).1 == Done {
        CreateAbsolute(t, p, r.isDir, r.owner, r.group);
        var c := Resolve(t1, p).value;
        var m := Refresh(c, r);
        assert Overwrite(m, r) == m by {
          assert m.(owner := r.owner, group := r.group) == m;
          SetPermissionsIdempotent(c, r.perms);
        }
        ReplaceAtTwice(t1, ps, m, m);
      }
    } else {
      CreateRelativeDone(t, p, r.isDir, r.owner, r.group);
      if Slash !in p && t.isDir {
        ApplyRelative(t, r);
        ApplyRelative(u, r);
        var c := Created(p, r.isDir, r.owner, r.group);
        assert u.children[p := c] == u.children;
      }
    }
  }

  /** `Load` leaves alone a tree that every record already leaves alone. */
  lemma {:induction false} LoadFixed(t: Node, records: seq<Record>)
    requires forall r :: r in records ==> ApplyRecord(t, r) == t
    ensures Load(t, records) == t
    decreases |records|
  {
    if records != [] {
      LoadFixed(t, records[1..]);
    }
  }

  /** Content that survives the codec at every node. */
  ghost predicate CleanContent(n: Node)
  {
    && (n.content.Some? ==> !HasBackslashN(n.content.value))
    && forall k :: k in n.children ==> CleanContent(n.children[k])
  }

  lemma {:induction false} CleanWalk(n: Node, q: seq<string>)
    requires CleanContent(n) && Walk(n, q).Some?
    ensures CleanContent(Walk(n, q).value)
    decreases q
  {
    if q != [] { CleanWalk(n.children[q[0]], q[1..]); }
  }

  /** A line that describes the node it resolves to changes nothing. */
  lemma ApplyDescribed(t: Node, r: Record)
    requires Resolve(t, r.path).Some?
    requires Describes(r, Resolve(t, r.path).value)
    requires TripletsOk(Resolve(t, r.path).value)
    requires !HasBackslashN(Resolve(t, r.path).value.content.value)
    ensures ApplyRecord(t, r) == t
  {
    var n := Resolve(t, r.path).value;
    assert n.(owner := r.owner, group := r.group) == n;
    SetOwnPermissions(n);
    RoundTrip(n.content.value);
    assert Overwrite(n, r) == n;
    ReplaceAtSame(t, Segments(r.path));
  }

  /**
   * Reading back what was written, into the same tree, changes nothing, as
   * long as no content holds a backslash followed by `n` (which the codec
   * does not preserve).
   */
  lemma SaveLoad(t: Node)
    requires Valid(t) && Addressable(t) && AllContentSet(t) && CleanContent(t) && t.name == "/"
    ensures Load(t, Save(t)) == t
  {
    SaveSound(t);
    forall r | r in Save(t) ensures ApplyRecord(t, r) == t {
      var q := Segments(r.path);
      ValidWalk(t, q);
      CleanWalk(t, q);
      ApplyDescribed(t, r);
    }
    LoadFixed(t, Save(t));
  }

  lemma SegmentsOfTwo(a: string, b: string)
    requires IsToken(a, Slash) && IsToken(b, Slash)
    ensures Segments("/" + a) == [a] && Segments("/" + a + "/" + b) == [a, b]
    ensures ParentAndName("/" + a) == ("/", a) && ParentAndName("/" + a + "/" + b) == ("/" + a, b)
  {
    var pa := "/" + a;
    assert pa == [] + [Slash] + a;
    SplitAround([], Slash, a);
    SplitPlain(a, Slash);
    assert pa + "/" + b == pa + [Slash] + b;
    SplitAround(pa, Slash, b);
    SplitPlain(b, Slash);
    ParentAndNameOf(pa, b);
    ParentAndNameTop(a);
  }

  /** Loading two records applies the first, then the second. */
  lemma LoadPair(t: Node, r1: Record, r2: Record)
    ensures Load(t, [r1, r2]) == ApplyRecord(ApplyRecord(t, r1), r2)
  {
    var t1 := ApplyRecord(t, r1);
    assert [r1, r2][1..] == [r2];
    assert Load(t, [r1, r2]) == Load(t1, [r2]);
    assert [r2][1..] == [];
    assert Load(t1, [r2]) == Load(ApplyRecord(t1, r2), []);
  }

  /** The first pass skips the line for `/a/b` and makes `/a`, a directory with no children. */
  lemma LoadTwiceFirstPass(t: Node, a: string, b: string, rb: Record, ra: Record)
    requires t.isDir && IsToken(a, Slash) && IsToken(b, Slash) && a !in t.children
    requires rb.path == "/" + a + "/" + b && ra.path == "/" + a && ra.isDir
    ensures Walk(Load(t, [rb, ra]), [a]).Some?
    ensures Walk(Load(t, [rb, ra]), [a]).value.isDir && Walk(Load(t, [rb, ra]), [a]).value.children == map[]
  {
    SegmentsOfTwo(a, b);
    assert Walk(t, [a]) == None;
    assert Walk(t, [a, b]) == None;
    ApplyOrphan(t, rb);
    TopLevelMissing(t, ra, a);
    LoadPair(t, rb, ra);
  }

  /** A line whose path and parent both do not resolve changes nothing. */
  lemma ApplyOrphan(t: Node, r: Record)
    requires Resolve(t, r.path).None? && Resolve(t, ParentAndName(r.path).0).None?
    ensures ApplyRecord(t, r) == t
  {
  }

  /** A line for a missing directory directly under a directory root makes it, empty. */
  lemma TopLevelMissing(t: Node, r: Record, a: string)
    requires t.isDir && r.isDir && r.path == "/" + a && a !in t.children
    requires Segments(r.path) == [a] && ParentAndName(r.path) == ("/", a)
    ensures Walk(ApplyRecord(t, r), [a]).Some?
    ensures Walk(ApplyRecord(t, r), [a]).value.isDir && Walk(ApplyRecord(t, r), [a]).value.children == map[]
  {
    assert IsAbsolute(r.path);
    assert Resolve(t, r.path).None?;
    assert Resolve(t, "/") == Some(t);
    ApplyMissing(t, r);
  }

  /** Whatever the tree, once `/a` is a directory the line for `/a/b` makes that node. */
  lemma LoadTwiceSecondPass(t: Node, a: string, b: string, rb: Record, ra: Record)
    requires IsToken(a, Slash) && IsToken(b, Slash)
    requires rb.path == "/" + a + "/" + b && ra.path == "/" + a
    requires Walk(t, [a]).Some? && Walk(t, [a]).value.isDir && Walk(t, [a]).value.children == map[]
    ensures Walk(Load(t, [rb, ra]), [a, b]).Some?
  {
    SegmentsOfTwo(a, b);
    WalkAppend(t, [a], [b]);
    assert [a] + [b] == [a, b];
    assert Resolve(t, rb.path).None?;
    assert Resolve(t, "/" + a).Some?;
    ApplyMissing(t, rb);
    var mid := ApplyRecord(t, rb);
    assert Walk(mid, [a, b]).Some?;
    ApplyAbsoluteExtends(mid, ra);
    ExtendsWalk(mid, ApplyRecord(mid, ra), [a, b]);
    LoadPair(t, rb, ra);
  }

  /**
   * Loading a whole snapshot twice can differ from loading it once: a line
   * for `/a/b` that comes before the line for `/a` is skipped the first time
   * (no parent yet) and applied the second time.
   */
  lemma LoadTwiceDiffers(t: Node, a: string, b: string, rb: Record, ra: Record)
    requires t.isDir && IsToken(a, Slash) && IsToken(b, Slash) && a !in t.children
    requires rb.path == "/" + a + "/" + b && ra.path == "/" + a && ra.isDir
    ensures Load(Load(t, [rb, ra]), [rb, ra]) != Load(t, [rb, ra])
  {
    var once := Load(t, [rb, ra]);
    LoadTwiceFirstPass(t, a, b, rb, ra);
    LoadTwiceSecondPass(once, a, b, rb, ra);
    WalkAppend(once, [a], [b]);
    assert [a] + [b] == [a, b];
    assert Walk(once, [a, b]).None?;
  }

  // ---------------------------------------------------------------------
  // The line format.
  // ---------------------------------------------------------------------

  /** The seven fields of a line, in order. */
  function Fields(r: Record): seq<string>
  {
    [r.path, if r.isDir then "d" else "f", r.owner, r.group, r.perms,
     if r.beingEdited then "true" else "false", r.content]
  }

  /** The text line `saveNode` prints for a record: the fields joined by single spaces. */
  function RecordLine(r: Record): string
  {
    Join(Fields(r), ' ')
  }

  function LowerAscii(c: char): char
  {
    if 'A' <= c <= 'Z' then (c as int + 32) as char else c
  }

  /** `Boolean.parseBoolean`: `true` in any letter case, and nothing else, is true. */
  function ParseBoolean(s: string): (b: bool)
    ensures b <==> |s| == 4 && forall i :: 0 <= i < 4 ==> LowerAscii(s[i]) == "true"[i]
  {
    |s| == 4 && LowerAscii(s[0]) == 't' && LowerAscii(s[1]) == 'r' && LowerAscii(s[2]) == 'u' && LowerAscii(s[3]) == 'e'
  }

  /**
   * Reading one line: Java splits it on single spaces and takes fields 0 to
   * 6; fewer fields throw (an index out of bounds), modelled as no record.
   * The type is a directory exactly when the field is `d`.
   */
  function ParseRecord(line: string): (r: Option<Record>)
    ensures r.Some? <==> |JavaSplit(line, ' ')| >= 7
  {
    var parts := JavaSplit(line, ' ');
    if |parts| < 7 then None
    else Some(Record(parts[0], parts[1] == "d", parts[2], parts[3], parts[4], ParseBoolean(parts[5]), parts[6]))
  }

  /** Space-free fields, the content non-empty: the line reads back as the record. */
  lemma ParseRecordLine(r: Record)
    requires forall i :: 0 <= i < 7 ==> ' ' !in Fields(r)[i]
    requires r.content != ""
    ensures ParseRecord(RecordLine(r)) == Some(r)
  {
    JavaSplitJoin(Fields(r), ' ');
    assert ParseBoolean("true") && !ParseBoolean("false");
  }

  /** Empty content leaves a trailing space, which Java's split drops: the line cannot be read back. */
  lemma EmptyContentUnreadable(r: Record)
    requires forall i :: 0 <= i < 7 ==> ' ' !in Fields(r)[i]
    requires r.content == ""
    ensures ParseRecord(RecordLine(r)) == None
  {
    JavaSplitJoinEmptyLast(Fields(r), ' ');
  }

  /**
   * Content holding a space does not survive a save and a reload: the line
   * then has more than seven space-separated fields, and the reader keeps
   * only the seventh, the content up to its first space.
   */
  lemma ContentSpaceTruncated(r: Record, c1: string, c2: string)
    requires forall i :: 0 <= i < 6 ==> ' ' !in Fields(r)[i]
    requires r.content == c1 + " " + c2 && ' ' !in c1 && ' ' !in c2 && c2 != ""
    ensures ParseRecord(RecordLine(r)) == Some(r.(content := c1))
  {
    var fs := Fields(r);
    var cut := fs[..6] + [c1, c2];
    assert fs == fs[..6] + [c1 + [' '] + c2];
    JoinCutLast(fs[..6], c1, c2, ' ');
    JavaSplitJoin(cut, ' ');
    assert ParseBoolean("true") && !ParseBoolean("false");
  }

  /** Encoded content never holds a newline, so a record never spans two lines. */
  lemma RecordLineSingle(n: Node, prefix: string)
    requires n.content.Some? && '\n' !in prefix + n.name && '\n' !in n.owner + n.group
    requires '\n' !in GetPermissions(n)
    ensures '\n' !in RecordLine(RecordOf(n, prefix))
  {
    var fs := Fields(RecordOf(n, prefix));
    assert forall i :: 0 <= i < 7 ==> '\n' !in fs[i];
    JoinAvoids(fs, ' ', '\n');
  }
}

=== FILE: text.dfy ===
/**
 * String helpers shared by path resolution, the shell's tokenizer and the
 * space-separated snapshot lines. Strings are `seq<char>`.
 */
module Text {

  /** `t` can be produced by splitting on `d`: it is non-empty and free of `d`. */
  predicate IsToken(t: string, d: char)
  {
    t != [] && d !in t
  }

  predicate AllTokens(ts: seq<string>, d: char)
  {
    forall i :: 0 <= i < |ts| ==> IsToken(ts[i], d)
  }

  /** The characters of `s` other than `d`, in order. */
  function Strip(s: string, d: char): (r: string)
    ensures d !in r
    ensures |r| <= |s|
  {
    if s == [] then [] else (if s[0] == d then [] else [s[0]]) + Strip(s[1..], d)
  }

  /** All strings of `ts` one after another. */
  function Concat(ts: seq<string>): string
  {
    if ts == [] then [] else ts[0] + Concat(ts[1..])
  }

  /** The token accumulated so far, if any. */
  function Flush(cur: string): seq<string>
  {
    if cur == [] then [] else [cur]
  }

  /**
   * The tokenizer after it has read `cur` (free of `d`) of the current token:
   * every delimiter ends the token being built, and empty tokens are dropped.
   */
  function SplitFrom(s: string, d: char, cur: string): (r: seq<string>)
    requires d !in cur
    ensures AllTokens(r, d)
    ensures Concat(r) == cur + Strip(s, d)
    decreases |s|
  {
    if s == [] then Flush(cur)
    else if s[0] == d then
      var rest := SplitFrom(s[1..], d, []);
      FlushThen(cur, rest, d);
      Flush(cur) + rest
    else
      AppendAssoc(cur, [s[0]], Strip(s[1..], d));
      SplitFrom(s[1..], d, cur + [s[0]])
  }

  /** The pending token, if any, in front of the tokens after it. */
  lemma FlushThen(cur: string, rest: seq<string>, d: char)
    requires d !in cur && AllTokens(rest, d)
    ensures AllTokens(Flush(cur) + rest, d)
    ensures Concat(Flush(cur) + rest) == cur + Concat(rest)
  {
    if cur != [] {
      ConsTail(cur, rest);
    } else {
      assert Flush(cur) + rest == rest;
    }
  }

  lemma AppendAssoc<T>(a: seq<T>, b: seq<T>, c: seq<T>)
    ensures (a + b) + c == a + (b + c)
  {
  }

  /**
   * The maximal non-empty runs of `s` that contain no `d`: Java's
   * `StringTokenizer`, and equally `String.split` followed by skipping the
   * empty parts.
   */
  function Split(s: string, d: char): (r: seq<string>)
    ensures AllTokens(r, d)
    ensures Concat(r) == Strip(s, d)
  {
    SplitFrom(s, d, [])
  }

  /** A delimiter separates the tokens before it from the tokens after it. */
  lemma {:induction false} SplitFromAround(a: string, d: char, b: string, cur: string)
    requires d !in cur
    ensures SplitFrom(a + [d] + b, d, cur) == SplitFrom(a, d, cur) + Split(b, d)
    decreases |a|
  {
    if a == [] {
      assert a + [d] + b == [d] + b;
      assert ([d] + b)[1..] == b;
    } else {
      assert (a + [d] + b)[0] == a[0];
      assert (a + [d] + b)[1..] == a[1..] + [d] + b;
      if a[0] == d {
        SplitFromAround(a[1..], d, b, []);
      } else {
        SplitFromAround(a[1..], d, b, cur + [a[0]]);
      }
    }
  }

  lemma SplitAround(a: string, d: char, b: string)
    ensures Split(a + [d] + b, d) == Split(a, d) + Split(b, d)
  {
    SplitFromAround(a, d, b, []);
  }

  /** A string free of `d` is read as a single token once it is non-empty. */
  lemma {:induction false} SplitFromPlain(t: string, d: char, cur: string)
    requires d !in t && d !in cur
    ensures SplitFrom(t, d, cur) == Flush(cur + t)
    decreases |t|
  {
    if t == [] {
      assert cur + t == cur;
    } else {
      assert cur + [t[0]] + t[1..] == cur + t;
      SplitFromPlain(t[1..], d, cur + [t[0]]);
    }
  }

  lemma SplitPlain(t: string, d: char)
    requires d !in t
    ensures Split(t, d) == Flush(t)
  {
    SplitFromPlain(t, d, []);
    assert [] + t == t;
  }

  /** `ts` written out with one `d` between neighbours. */
  function Join(ts: seq<string>, d: char): (r: string)
    ensures |ts| == 1 ==> r == ts[0]
  {
    if ts == [] then [] else if |ts| == 1 then ts[0] else ts[0] + [d] + Join(ts[1..], d)
  }

  /** A last piece holding the delimiter joins like the two pieces it cuts into. */
  lemma {:induction false} JoinCutLast(ts: seq<string>, a: string, b: string, d: char)
    requires ts != []
    ensures Join(ts + [a + [d] + b], d) == Join(ts + [a, b], d)
    decreases |ts|
  {
    var x := a + [d] + b;
    if |ts| == 1 {
      assert ts + [x] == [ts[0], x] && [ts[0], x][1..] == [x];
      assert ts + [a, b] == [ts[0], a, b] && [ts[0], a, b][1..] == [a, b] && [a, b][1..] == [b];
    } else {
      assert (ts + [x])[1..] == ts[1..] + [x];
      assert (ts + [a, b])[1..] == ts[1..] + [a, b];
      JoinCutLast(ts[1..], a, b, d);
    }
  }

  /** A character in no piece and distinct from the delimiter is not in the join. */
  lemma {:induction false} JoinAvoids(ts: seq<string>, d: char, c: char)
    requires c != d && forall i :: 0 <= i < |ts| ==> c !in ts[i]
    ensures c !in Join(ts, d)
    decreases |ts|
  {
    if |ts| > 1 {
      JoinAvoids(ts[1..], d, c);
    }
  }

  /** Splitting a join of tokens gives the tokens back. */
  lemma {:induction false} SplitJoin(ts: seq<string>, d: char)
    requires AllTokens(ts, d)
    ensures Split(Join(ts, d), d) == ts
    decreases |ts|
  {
    if ts == [] {
    } else if |ts| == 1 {
      SplitPlain(ts[0], d);
    } else {
      SplitAround(ts[0], d, Join(ts[1..], d));
      SplitPlain(ts[0], d);
      assert AllTokens(ts[1..], d) by {
        forall i | 0 <= i < |ts[1..]| ensures IsToken(ts[1..][i], d) {
          assert ts[1..][i] == ts[i + 1];
        }
      }
      SplitJoin(ts[1..], d);
      assert [ts[0]] + ts[1..] == ts;
    }
  }

  /**
   * The pieces between delimiters, empty pieces included: what Java's
   * `String.split` finds before it drops trailing empty strings.
   */
  function Pieces(s: string, d: char): (r: seq<string>)
    ensures |r| >= 1
    ensures forall i :: 0 <= i < |r| ==> d !in r[i]
    ensures Join(r, d) == s
    decreases |s|
  {
    if s == [] then [""]
    else
      var rest := Pieces(s[1..], d);
      assert s == [s[0]] + s[1..];
      if s[0] == d then [""] + rest
      else
        assert Join(rest, d) == rest[0] + (if |rest| == 1 then [] else [d] + Join(rest[1..], d));
        [[s[0]] + rest[0]] + rest[1..]
  }

  /** A delimiter-free head is the first piece. */
  lemma {:induction false} PiecesAround(t: string, d: char, rest: string)
    requires d !in t
    ensures Pieces(t + [d] + rest, d) == [t] + Pieces(rest, d)
    decreases |t|
  {
    if t == [] {
      ConsTail(d, rest);
    } else {
      var tail := t[1..] + [d] + rest;
      ConsAppend(t, [d] + rest);
      PiecesCons(t[0], tail, d);
      PiecesAround(t[1..], d, rest);
      ConsTail(t[1..], Pieces(rest, d));
      assert [t[0]] + t[1..] == t;
    }
  }

  /** A non-delimiter character joins the first piece of what follows. */
  lemma PiecesCons(c: char, x: string, d: char)
    requires c != d
    ensures Pieces([c] + x, d) == [[c] + Pieces(x, d)[0]] + Pieces(x, d)[1..]
  {
    assert ([c] + x)[1..] == x;
  }

  /** Head and tail of a sequence built with a first element. */
  lemma ConsTail<T>(x: T, p: seq<T>)
    ensures ([x] + p)[0] == x && ([x] + p)[1..] == p
  {
  }

  /** A non-empty sequence followed by more: its head, then its tail and the rest. */
  lemma ConsAppend<T>(t: seq<T>, u: seq<T>)
    requires t != []
    ensures t + u == [t[0]] + (t[1..] + u)
  {
    assert t == [t[0]] + t[1..];
  }

  /** A delimiter-free string is a single piece. */
  lemma {:induction false} PiecesPlain(t: string, d: char)
    requires d !in t
    ensures Pieces(t, d) == [t]
    decreases |t|
  {
    if t != [] {
      PiecesPlain(t[1..], d);
      assert [t[0]] + t[1..] == t;
    }
  }

  /** `Pieces` undoes `Join` of delimiter-free pieces, empty ones included. */
  lemma {:induction false} PiecesJoin(ts: seq<string>, d: char)
    requires |ts| >= 1
    requires forall i :: 0 <= i < |ts| ==> d !in ts[i]
    ensures Pieces(Join(ts, d), d) == ts
    decreases |ts|
  {
    if |ts| == 1 {
      PiecesPlain(ts[0], d);
    } else {
      PiecesJoin(ts[1..], d);
      PiecesAround(ts[0], d, Join(ts[1..], d));
      assert [ts[0]] + ts[1..] == ts;
    }
  }

  /** `ts` without its trailing empty strings. */
  function DropTrailingEmpty(ts: seq<string>): (r: seq<string>)
    ensures r <= ts
    ensures r == [] || r[|r| - 1] != ""
    ensures forall i :: |r| <= i < |ts| ==> ts[i] == ""
  {
    if ts == [] || ts[|ts| - 1] != "" then ts
    else DropTrailingEmpty(ts[..|ts| - 1])
  }

  /**
   * Java's `String.split` with a one-character pattern: a string without the
   * delimiter comes back whole (even when empty); otherwise the pieces, with
   * trailing empty ones dropped.
   */
  function JavaSplit(s: string, d: char): (r: seq<string>)
    ensures d !in s ==> r == [s]
    ensures forall i :: 0 <= i < |r| ==> d !in r[i]
    ensures d in s ==> && r <= Pieces(s, d) && (r == [] || r[|r| - 1] != "")
                       && forall i :: |r| <= i < |Pieces(s, d)| ==> Pieces(s, d)[i] == ""
  {
    if d !in s then [s] else DropTrailingEmpty(Pieces(s, d))
  }

  lemma JoinHasDelimiter(ts: seq<string>, d: char)
    requires |ts| >= 2
    ensures d in Join(ts, d)
  {
    assert Join(ts, d)[|ts[0]|] == d;
  }

  /** Java-splitting a join of at least two delimiter-free fields, the last non-empty, gives them back. */
  lemma JavaSplitJoin(ts: seq<string>, d: char)
    requires |ts| >= 2 && ts[|ts| - 1] != ""
    requires forall i :: 0 <= i < |ts| ==> d !in ts[i]
    ensures JavaSplit(Join(ts, d), d) == ts
  {
    JoinHasDelimiter(ts, d);
    PiecesJoin(ts, d);
  }

  /** If the last field is empty (and the one before is not), Java's split loses it. */
  lemma JavaSplitJoinEmptyLast(ts: seq<string>, d: char)
    requires |ts| >= 2 && ts[|ts| - 1] == "" && ts[|ts| - 2] != ""
    requires forall i :: 0 <= i < |ts| ==> d !in ts[i]
    ensures JavaSplit(Join(ts, d), d) == ts[..|ts| - 1]
  {
    JoinHasDelimiter(ts, d);
    PiecesJoin(ts, d);
  }

  /** Java's `lastIndexOf`: the last position of `c` in `s`, or -1. */
  function LastIndexOf(s: string, c: char): (r: int)
    ensures -1 <= r < |s|
    ensures r == -1 ==> c !in s
    ensures 0 <= r ==> s[r] == c
    ensures forall i :: r < i < |s| ==> s[i] != c
  {
    if s == [] then -1
    else if s[|s| - 1] == c then |s| - 1
    else LastIndexOf(s[..|s| - 1], c)
  }
}

=== FILE: tree.dfy ===
/**
 * The node tree of FileSystem.java: path resolution (`getNodeByPath`),
 * `create` and `remove`. The tree is an immutable value; an update rebuilds
 * the spine from the root down to the changed node.
 */
module Tree {
  import opened Optional
  import opened Status
  import opened Text
  import opened FsNode

  const Slash: char := '/'

  /** Permission triplets a created node starts with. */
  const CreatedUserPerms: string := "rwx"
  const CreatedGroupPerms: string := "r-x"
  const CreatedOtherPerms: string := "r-x"

  predicate IsAbsolute(path: string)
  {
    path != [] && path[0] == Slash
  }

  /** The names a path steps through; empty segments are skipped. */
  function Segments(path: string): (r: seq<string>)
    ensures AllTokens(r, Slash)
  {
    Split(path, Slash)
  }

  /** The node reached from `n` by following the child names `p`, if any. */
  function Walk(n: Node, p: seq<string>): Option<Node>
    decreases p
  {
    if p == [] then Some(n)
    else if p[0] in n.children then Walk(n.children[p[0]], p[1..])
    else None
  }

  lemma {:induction false} WalkAppend(n: Node, p: seq<string>, q: seq<string>)
    ensures Walk(n, p + q) == (if Walk(n, p).Some? then Walk(Walk(n, p).value, q) else None)
    decreases p
  {
    if p == [] {
      assert p + q == q;
    } else {
      assert (p + q)[0] == p[0] && (p + q)[1..] == p[1..] + q;
      if p[0] in n.children {
        WalkAppend(n.children[p[0]], p[1..], q);
      }
    }
  }

  /** In a valid tree a non-empty walk ends at a node carrying the last name walked. */
  lemma {:induction false} WalkNamed(n: Node, p: seq<string>)
    requires Valid(n) && p != [] && Walk(n, p).Some?
    ensures Walk(n, p).value.name == p[|p| - 1]
    decreases p
  {
    if |p| > 1 {
      WalkNamed(n.children[p[0]], p[1..]);
    }
  }

  /** A walk stops at the first name its current node does not have. */
  lemma WalkMissing(n: Node, p: seq<string>, i: nat)
    requires i < |p| && Walk(n, p[..i]).Some? && p[i] !in Walk(n, p[..i]).value.children
    ensures Walk(n, p) == None
  {
    assert p == p[..i] + p[i..];
    WalkAppend(n, p[..i], p[i..]);
  }

  /**
   * `getNodeByPath`: `"/"` is the root; any other path must start with a
   * slash, and then its non-empty segments are looked up one child at a time.
   */
  function Resolve(root: Node, path: string): (r: Option<Node>)
    ensures r.Some? ==> IsAbsolute(path)
    ensures IsAbsolute(path) ==> r == Walk(root, Segments(path))
  {
    if path == "/" then
      assert Segments(path) == [];
      Some(root)
    else if !IsAbsolute(path) then None
    else Walk(root, Segments(path))
  }

  /** A path and the same path with one more slash after an absolute head resolve alike. */
  lemma ResolveDoubledSlash(root: Node, a: string, b: string)
    requires IsAbsolute(a)
    ensures Resolve(root, a + "//" + b) == Resolve(root, a + "/" + b)
  {
    var x, y := a + "//" + b, a + "/" + b;
    assert x[0] == a[0] && y[0] == a[0];
    assert x == a + [Slash] + ([Slash] + b);
    assert y == a + [Slash] + b;
    assert [Slash] + b == [] + [Slash] + b;
    SplitAround(a, Slash, [Slash] + b);
    SplitAround([], Slash, b);
    SplitAround(a, Slash, b);
    assert Split([], Slash) == [];
    assert Segments(x) == Segments(a) + Segments(b);
    assert Segments(y) == Segments(a) + Segments(b);
    assert Resolve(root, x) == Walk(root, Segments(x));
  }

  /** A trailing slash does not change what a path resolves to. */
  lemma ResolveTrailingSlash(root: Node, a: string)
    requires IsAbsolute(a)
    ensures Resolve(root, a + "/") == Resolve(root, a)
  {
    assert (a + "/")[0] == a[0];
    assert a + "/" == a + [Slash] + [];
    SplitAround(a, Slash, []);
    assert Split([], Slash) == [];
    assert Segments(a + "/") == Segments(a) + [];
    assert Segments(a) + [] == Segments(a);
  }

  /** `!(p <= q) && !(q <= p)`: neither path lies on the other. */
  predicate Apart(p: seq<string>, q: seq<string>)
  {
    !(p <= q) && !(q <= p)
  }

  lemma ApartTail(p: seq<string>, q: seq<string>)
    requires Apart(p, q)
    ensures p != [] && q != []
    ensures p[0] == q[0] ==> Apart(p[1..], q[1..])
  {
    assert p == [p[0]] + p[1..] && q == [q[0]] + q[1..];
  }

  /**
   * A path apart from `ps + [name]` but not from `ps` continues `ps` with a
   * name other than `name`.
   */
  lemma ApartChild(ps: seq<string>, name: string, q: seq<string>)
    requires Apart(ps + [name], q) && !Apart(ps, q)
    ensures ps <= q && |q| > |ps| && q[|ps|] != name
    ensures q == ps + q[|ps|..]
  {
    assert (ps + [name])[..|ps|] == ps;
  }

  /** `n` with the node at `p` replaced by `m`: the spine above it is rebuilt. */
  function ReplaceAt(n: Node, p: seq<string>, m: Node): (r: Node)
    requires Walk(n, p).Some?
    ensures Walk(r, p) == Some(m)
    ensures p != [] ==> r.(children := n.children) == n && r.children.Keys == n.children.Keys
    decreases p
  {
    if p == [] then m
    else n.(children := n.children[p[0] := ReplaceAt(n.children[p[0]], p[1..], m)])
  }

  /** Below the replaced node the tree is the new node's subtree. */
  lemma ReplaceAtBelow(n: Node, p: seq<string>, m: Node, q: seq<string>)
    requires Walk(n, p).Some?
    ensures Walk(ReplaceAt(n, p, m), p + q) == Walk(m, q)
  {
    WalkAppend(ReplaceAt(n, p, m), p, q);
  }

  /** Away from the replaced node the tree is unchanged. */
  lemma {:induction false} ReplaceAtApart(n: Node, p: seq<string>, m: Node, q: seq<string>)
    requires Walk(n, p).Some? && Apart(p, q)
    ensures Walk(ReplaceAt(n, p, m), q) == Walk(n, q)
    decreases p
  {
    ApartTail(p, q);
    if q[0] == p[0] {
      ReplaceAtApart(n.children[p[0]], p[1..], m, q[1..]);
    }
  }

  /** `ReplaceAtApart` for every path at once. */
  lemma ReplaceAtApartAll(n: Node, p: seq<string>, m: Node)
    requires Walk(n, p).Some?
    ensures forall q :: Apart(p, q) ==> Walk(ReplaceAt(n, p, m), q) == Walk(n, q)
  {
    forall q | Apart(p, q) ensures Walk(ReplaceAt(n, p, m), q) == Walk(n, q) {
      ReplaceAtApart(n, p, m, q);
    }
  }

  /** `a` and `b` agree on every field but their children. */
  predicate SameFields(a: Node, b: Node)
  {
    a.(children := b.children) == b
  }

  /** On the spine above the replaced node, every node keeps all its fields but its children. */
  lemma {:induction false} ReplaceAtAbove(n: Node, p: seq<string>, m: Node, q: seq<string>)
    requires Walk(n, p).Some? && q < p
    ensures Walk(n, q).Some? && Walk(ReplaceAt(n, p, m), q).Some?
    ensures SameFields(Walk(n, q).value, Walk(ReplaceAt(n, p, m), q).value)
    decreases q
  {
    if q != [] {
      assert q[0] == p[0];
      ReplaceAtAbove(n.children[p[0]], p[1..], m, q[1..]);
    }
  }

  /** Below a node replaced by one with the same children, nothing changes. */
  lemma ReplaceAtBelowKept(n: Node, p: seq<string>, m: Node, q: seq<string>)
    requires Walk(n, p).Some? && m.children == Walk(n, p).value.children && p < q
    ensures Walk(ReplaceAt(n, p, m), q) == Walk(n, q)
  {
    var rest := q[|p|..];
    assert q == p + rest && rest != [];
    ReplaceAtBelow(n, p, m, rest);
    WalkAppend(n, p, rest);
  }

  /**
   * Replacing the node at `ps` by one whose children differ only under
   * `name` changes nothing apart from `ps + [name]`.
   */
  lemma ReplaceChildApart(root: Node, ps: seq<string>, name: string, m: Node, q: seq<string>)
    requires Walk(root, ps).Some?
    requires m.children - {name} == Walk(root, ps).value.children - {name}
    requires Apart(ps + [name], q)
    ensures Walk(ReplaceAt(root, ps, m), q) == Walk(root, q)
  {
    if Apart(ps, q) {
      ReplaceAtApart(root, ps, m, q);
    } else {
      ApartChild(ps, name, q);
      var rest := q[|ps|..];
      ReplaceAtBelow(root, ps, m, rest);
      WalkAppend(root, ps, rest);
      var k := rest[0];
      assert k in m.children <==> k in (m.children - {name});
      assert k in Walk(root, ps).value.children <==> k in (Walk(root, ps).value.children - {name});
      if k in m.children {
        assert m.children[k] == (m.children - {name})[k];
        assert Walk(root, ps).value.children[k] == (Walk(root, ps).value.children - {name})[k];
      }
    }
  }

  /** `ReplaceChildApart` for every path at once. */
  lemma ReplaceChildApartAll(root: Node, ps: seq<string>, name: string, m: Node)
    requires Walk(root, ps).Some?
    requires m.children - {name} == Walk(root, ps).value.children - {name}
    ensures forall q :: Apart(ps + [name], q) ==> Walk(ReplaceAt(root, ps, m), q) == Walk(root, q)
  {
    forall q | Apart(ps + [name], q) ensures Walk(ReplaceAt(root, ps, m), q) == Walk(root, q) {
      ReplaceChildApart(root, ps, name, m, q);
    }
  }

  /** Putting back the node that is already there changes nothing. */
  lemma {:induction false} ReplaceAtSame(n: Node, p: seq<string>)
    requires Walk(n, p).Some?
    ensures ReplaceAt(n, p, Walk(n, p).value) == n
    decreases p
  {
    if p != [] {
      ReplaceAtSame(n.children[p[0]], p[1..]);
      assert n.children[p[0] := n.children[p[0]]] == n.children;
    }
  }

  /** A second replacement at the same place overrides the first. */
  lemma {:induction false} ReplaceAtTwice(n: Node, p: seq<string>, m1: Node, m2: Node)
    requires Walk(n, p).Some?
    ensures ReplaceAt(ReplaceAt(n, p, m1), p, m2) == ReplaceAt(n, p, m2)
    decreases p
  {
    if p != [] {
      ReplaceAtTwice(n.children[p[0]], p[1..], m1, m2);
    }
  }

  /** Replacing a node by a valid node of the same name keeps the tree valid. */
  lemma {:induction false} ValidReplaceAt(n: Node, p: seq<string>, m: Node)
    requires Walk(n, p).Some? && Valid(n) && Valid(m)
    requires p != [] ==> m.name == Walk(n, p).value.name
    ensures Valid(ReplaceAt(n, p, m))
    decreases p
  {
    if p != [] {
      var c := n.children[p[0]];
      ValidReplaceAt(c, p[1..], m);
      var r := ReplaceAt(n, p, m);
      assert r.children[p[0]].name == c.name;
      forall k | k in r.children
        ensures r.children[k].name == k && Valid(r.children[k])
      {
        if k != p[0] { assert r.children[k] == n.children[k]; }
      }
    }
  }

  /**
   * `b` still has every node of `a` at the same path, with the same type;
   * only new children may have appeared (and fields other than the type and
   * the children may differ).
   */
  ghost predicate Extends(a: Node, b: Node)
  {
    && a.isDir == b.isDir
    && a.children.Keys <= b.children.Keys
    && forall k :: k in a.children ==> Extends(a.children[k], b.children[k])
  }

  lemma {:induction false} ExtendsRefl(a: Node)
    ensures Extends(a, a)
  {
    forall k | k in a.children ensures Extends(a.children[k], a.children[k]) {
      ExtendsRefl(a.children[k]);
    }
  }

  lemma {:induction false} ExtendsTrans(a: Node, b: Node, c: Node)
    requires Extends(a, b) && Extends(b, c)
    ensures Extends(a, c)
  {
    forall k | k in a.children ensures Extends(a.children[k], c.children[k]) {
      ExtendsTrans(a.children[k], b.children[k], c.children[k]);
    }
  }

  /** Every path that reaches a node of `a` reaches a node of the same type in `b`. */
  lemma {:induction false} ExtendsWalk(a: Node, b: Node, q: seq<string>)
    requires Extends(a, b) && Walk(a, q).Some?
    ensures Walk(b, q).Some? && Walk(b, q).value.isDir == Walk(a, q).value.isDir
    ensures Extends(Walk(a, q).value, Walk(b, q).value)
    decreases q
  {
    if q != [] {
      ExtendsWalk(a.children[q[0]], b.children[q[0]], q[1..]);
    }
  }

  lemma {:induction false} ExtendsReplaceAt(n: Node, p: seq<string>, m: Node)
    requires Walk(n, p).Some? && Extends(Walk(n, p).value, m)
    ensures Extends(n, ReplaceAt(n, p, m))
    decreases p
  {
    if p != [] {
      ExtendsReplaceAt(n.children[p[0]], p[1..], m);
      var r := ReplaceAt(n, p, m);
      forall k | k in n.children ensures Extends(n.children[k], r.children[k]) {
        if k != p[0] { ExtendsRefl(n.children[k]); }
      }
    }
  }

  /**
   * The parent path and final name `create` and `remove` cut a path into:
   * the text after the last slash is the name, the text before it the parent
   * (`"/"` when that is empty), and a path with no slash goes under the root.
   */
  function ParentAndName(path: string): (r: (string, string))
    ensures Slash !in r.1
    ensures LastIndexOf(path, Slash) == -1 ==> r == ("/", path)
    ensures LastIndexOf(path, Slash) == 0 ==> r == ("/", path[1..])
    ensures LastIndexOf(path, Slash) > 0 ==> path == r.0 + [Slash] + r.1
  {
    var pos := LastIndexOf(path, Slash);
    if pos == -1 then ("/", path)
    else
      assert path == path[..pos] + [Slash] + path[pos + 1..];
      (if pos == 0 then "/" else path[..pos], path[pos + 1..])
  }

  /** A non-empty head, a slash and a slash-free name split back into head and name. */
  lemma ParentAndNameOf(x: string, name: string)
    requires x != [] && Slash !in name
    ensures ParentAndName(x + [Slash] + name) == (x, name)
  {
    var path := x + [Slash] + name;
    assert path[|x|] == Slash;
    assert forall i :: |x| < i < |path| ==> path[i] == name[i - |x| - 1];
    assert LastIndexOf(path, Slash) == |x|;
    assert path[..|x|] == x && path[|x| + 1..] == name;
  }

  /** `"/" + name`, for a slash-free name, has the root as parent. */
  lemma ParentAndNameTop(name: string)
    requires Slash !in name
    ensures ParentAndName("/" + name) == ("/", name)
  {
    var path := "/" + name;
    assert forall i :: 0 < i < |path| ==> path[i] == name[i - 1];
    assert LastIndexOf(path, Slash) == 0;
    assert path[1..] == name;
  }

  /** For an absolute path the parent is absolute and the name is the last segment, if non-empty. */
  lemma ParentSegments(path: string)
    requires IsAbsolute(path)
    ensures IsAbsolute(ParentAndName(path).0)
    ensures Segments(path) == Segments(ParentAndName(path).0) + Flush(ParentAndName(path).1)
  {
    var (parent, name) := ParentAndName(path);
    var pos := LastIndexOf(path, Slash);
    SplitPlain(name, Slash);
    assert path == path[..pos] + [Slash] + path[pos + 1..];
    SplitAround(path[..pos], Slash, path[pos + 1..]);
    if pos == 0 {
      assert path[..pos] == [];
      assert Split([], Slash) == [];
      assert Segments("/") == [];
    } else {
      assert parent[0] == path[0];
    }
  }

  /** The parent `create` would use resolves to a directory. */
  predicate ParentIsDir(root: Node, path: string)
  {
    var parent := Resolve(root, ParentAndName(path).0);
    parent.Some? && parent.value.isDir
  }

  /**
   * `create`: refused if the path already resolves, or if its parent does
   * not resolve to a directory; otherwise a fresh node (`rwx`, `r-x`, `r-x`)
   * is put in the parent's children under the final name.
   */
  function Create(root: Node, path: string, isDir: bool, owner: string, group: string): (r: (Node, Outcome))
    ensures r.1 != Done ==> r.0 == root
    ensures r.1 == Done || r.1 == Failed(AlreadyExists) || r.1 == Failed(InvalidPath)
    ensures r.1 == Failed(AlreadyExists) <==> Resolve(root, path).Some?
    ensures r.1 == Done <==> Resolve(root, path).None? && ParentIsDir(root, path)
  {
    if Resolve(root, path).Some? then (root, Failed(AlreadyExists))
    else
      var (parentPath, name) := ParentAndName(path);
      match Resolve(root, parentPath)
      case None => (root, Failed(InvalidPath))
      case Some(parent) =>
        if !parent.isDir then (root, Failed(InvalidPath))
        else
          var child := NewNode(name, isDir, owner, group, CreatedUserPerms, CreatedGroupPerms, CreatedOtherPerms);
          (ReplaceAt(root, Segments(parentPath), parent.(children := parent.children[name := child])), Done)
  }

  /** The node `create` makes. */
  function Created(name: string, isDir: bool, owner: string, group: string): Node
  {
    NewNode(name, isDir, owner, group, CreatedUserPerms, CreatedGroupPerms, CreatedOtherPerms)
  }

  /**
   * The shape of a successful `create` of an absolute path: the last segment
   * is non-empty and new to an existing parent, and the new tree replaces
   * that parent by one with the extra child.
   */
  lemma CreateShape(root: Node, path: string, isDir: bool, owner: string, group: string)
    requires IsAbsolute(path) && Create(root, path, isDir, owner, group).1 == Done
    ensures var (parentPath, name) := ParentAndName(path);
      var ps := Segments(parentPath);
      && name != []
      && Segments(path) == ps + [name]
      && Walk(root, ps).Some? && name !in Walk(root, ps).value.children
      && Create(root, path, isDir, owner, group).0
         == ReplaceAt(root, ps, Walk(root, ps).value.(children := Walk(root, ps).value.children[name := Created(name, isDir, owner, group)]))
  {
    var (parentPath, name) := ParentAndName(path);
    var ps := Segments(parentPath);
    CreateDone(root, path, isDir, owner, group);
    ParentSegments(path);
    NewSegment(root, ps, name);
  }

  /** What a successful `create` means, read off its definition. */
  lemma CreateDone(root: Node, path: string, isDir: bool, owner: string, group: string)
    requires Create(root, path, isDir, owner, group).1 == Done
    ensures Resolve(root, path).None?
    ensures var (parentPath, name) := ParentAndName(path);
      && Resolve(root, parentPath).Some?
      && Create(root, path, isDir, owner, group).0
         == ReplaceAt(root, Segments(parentPath), Resolve(root, parentPath).value.(children := Resolve(root, parentPath).value.children[name := Created(name, isDir, owner, group)]))
  {
  }

  /**
   * A path that does not walk, made of one that does and the segments of a
   * name, ends in a non-empty name missing from the node reached.
   */
  lemma NewSegment(root: Node, ps: seq<string>, name: string)
    requires Walk(root, ps).Some? && Walk(root, ps + Flush(name)).None?
    ensures name != [] && ps + Flush(name) == ps + [name]
    ensures name !in Walk(root, ps).value.children
  {
    assert ps + Flush(name) != ps;
    WalkAppend(root, ps, [name]);
  }

  /**
   * A successful `create` of an absolute path adds exactly one child, new to
   * its parent, named after the last segment, and the path then resolves to it.
   */
  lemma CreateAbsolute(root: Node, path: string, isDir: bool, owner: string, group: string)
    requires IsAbsolute(path) && Create(root, path, isDir, owner, group).1 == Done
    ensures var (parentPath, name) := ParentAndName(path);
      var ps := Segments(parentPath);
      var t := Create(root, path, isDir, owner, group).0;
      && name != []
      && Segments(path) == ps + [name]
      && Walk(root, ps).Some? && name !in Walk(root, ps).value.children
      && Walk(t, ps).Some?
      && Walk(t, ps).value.children == Walk(root, ps).value.children[name := Created(name, isDir, owner, group)]
      && Resolve(t, path) == Some(Created(name, isDir, owner, group))
  {
    var (parentPath, name) := ParentAndName(path);
    var ps := Segments(parentPath);
    CreateShape(root, path, isDir, owner, group);
    var parent := Walk(root, ps).value;
    var m := parent.(children := parent.children[name := Created(name, isDir, owner, group)]);
    ReplaceAtBelow(root, ps, m, [name]);
  }

  /** A successful `create` of an absolute path changes nothing apart from the new path. */
  lemma CreateKeepsRest(root: Node, path: string, isDir: bool, owner: string, group: string)
    requires IsAbsolute(path) && Create(root, path, isDir, owner, group).1 == Done
    ensures forall q :: Apart(Segments(path), q) ==> Walk(Create(root, path, isDir, owner, group).0, q) == Walk(root, q)
  {
    var (parentPath, name) := ParentAndName(path);
    var ps := Segments(parentPath);
    CreateShape(root, path, isDir, owner, group);
    var parent := Walk(root, ps).value;
    var m := parent.(children := parent.children[name := Created(name, isDir, owner, group)]);
    UpdateThenDrop(parent.children, name, Created(name, isDir, owner, group));
    ReplaceChildApartAll(root, ps, name, m);
  }

  /**
   * A successful `create` of an absolute path rebuilds the spine above the
   * new node: every node on it keeps all its fields but its children.
   */
  lemma CreateKeepsSpine(root: Node, path: string, isDir: bool, owner: string, group: string)
    requires IsAbsolute(path) && Create(root, path, isDir, owner, group).1 == Done
    ensures forall q :: q < Segments(path) ==>
      && Walk(root, q).Some? && Walk(Create(root, path, isDir, owner, group).0, q).Some?
      && SameFields(Walk(root, q).value, Walk(Create(root, path, isDir, owner, group).0, q).value)
  {
    var (parentPath, name) := ParentAndName(path);
    var ps := Segments(parentPath);
    CreateShape(root, path, isDir, owner, group);
    var parent := Walk(root, ps).value;
    var m := parent.(children := parent.children[name := Created(name, isDir, owner, group)]);
    var t := Create(root, path, isDir, owner, group).0;
    forall q | q < Segments(path)
      ensures Walk(root, q).Some? && Walk(t, q).Some? && SameFields(Walk(root, q).value, Walk(t, q).value)
    {
      assert q <= ps;
      if q == ps {
        assert Walk(t, ps) == Some(m);
      } else {
        ReplaceAtAbove(root, ps, m, q);
      }
    }
  }

  /** `create` on a relative path succeeds exactly for a slash-free name under a directory root. */
  lemma CreateRelativeDone(t: Node, path: string, isDir: bool, owner: string, group: string)
    requires !IsAbsolute(path)
    ensures Create(t, path, isDir, owner, group).1 == Done <==> Slash !in path && t.isDir
  {
    var pos := LastIndexOf(path, Slash);
    if pos >= 0 {
      assert pos > 0;
      var parent := path[..pos];
      assert parent[0] == path[0];
      assert Resolve(t, parent).None?;
    } else {
      assert Segments("/") == [];
    }
  }

  /**
   * Whatever the path, absolute or not, and whatever the outcome, `create`
   * changes nothing apart from the path's segments.
   */
  lemma CreateKeepsApart(root: Node, path: string, isDir: bool, owner: string, group: string)
    ensures forall q :: Apart(Segments(path), q) ==> Walk(Create(root, path, isDir, owner, group).0, q) == Walk(root, q)
  {
    var r := Create(root, path, isDir, owner, group);
    if r.1 == Done {
      if IsAbsolute(path) {
        CreateKeepsRest(root, path, isDir, owner, group);
      } else {
        CreateRelativeDone(root, path, isDir, owner, group);
        CreateRelative(root, path, isDir, owner, group);
        SplitPlain(path, Slash);
        forall q | Apart(Segments(path), q) ensures Walk(r.0, q) == Walk(root, q) {
          assert q[0] != path;
        }
      }
    }
  }

  /** Dropping a key after updating it loses the update. */
  lemma UpdateThenDrop(children: map<string, Node>, name: string, child: Node)
    ensures children[name := child] - {name} == children - {name}
  {
  }

  /** Creating a node never renames or retypes the root. */
  lemma CreateKeepsRoot(root: Node, path: string, isDir: bool, owner: string, group: string)
    ensures Create(root, path, isDir, owner, group).0.name == root.name
    ensures Create(root, path, isDir, owner, group).0.isDir == root.isDir
  {
  }

  /** Removing a node never renames or retypes the root. */
  lemma RemoveKeepsRoot(root: Node, path: string)
    ensures Remove(root, path).0.name == root.name
    ensures Remove(root, path).0.isDir == root.isDir
  {
  }

  /**
   * A path with no slash is created under the root even if the root already
   * has a child of that name, which is then replaced by an empty node; the
   * path itself never resolves, being relative.
   */
  lemma CreateRelative(root: Node, path: string, isDir: bool, owner: string, group: string)
    requires Slash !in path && root.isDir
    ensures Create(root, path, isDir, owner, group)
      == (root.(children := root.children[path := Created(path, isDir, owner, group)]), Done)
    ensures Resolve(Create(root, path, isDir, owner, group).0, path) == None
  {
    assert path != [] ==> path[0] != Slash;
    assert Segments("/") == [];
  }

  /** `create` keeps the tree valid. */
  lemma CreateValid(root: Node, path: string, isDir: bool, owner: string, group: string)
    requires Valid(root)
    ensures Valid(Create(root, path, isDir, owner, group).0)
  {
    var r := Create(root, path, isDir, owner, group);
    if r.1 == Done {
      var (parentPath, name) := ParentAndName(path);
      var ps := Segments(parentPath);
      var parent := Walk(root, ps).value;
      ValidWalk(root, ps);
      var m := parent.(children := parent.children[name := Created(name, isDir, owner, group)]);
      assert Valid(m);
      ValidReplaceAt(root, ps, m);
    }
  }

  /** Every node of a valid tree is valid. */
  lemma {:induction false} ValidWalk(n: Node, p: seq<string>)
    requires Valid(n) && Walk(n, p).Some?
    ensures Valid(Walk(n, p).value)
    decreases p
  {
    if p != [] { ValidWalk(n.children[p[0]], p[1..]); }
  }

  /** A successful `create` of an absolute path loses no node and retypes none. */
  lemma CreateAbsoluteExtends(root: Node, path: string, isDir: bool, owner: string, group: string)
    requires IsAbsolute(path)
    ensures Extends(root, Create(root, path, isDir, owner, group).0)
  {
    var r := Create(root, path, isDir, owner, group);
    if r.1 == Done {
      CreateAbsolute(root, path, isDir, owner, group);
      var (parentPath, name) := ParentAndName(path);
      var ps := Segments(parentPath);
      var parent := Walk(root, ps).value;
      var m := parent.(children := parent.children[name := Created(name, isDir, owner, group)]);
      forall k | k in parent.children ensures Extends(parent.children[k], m.children[k]) {
        ExtendsRefl(parent.children[k]);
      }
      ExtendsReplaceAt(root, ps, m);
    } else {
      ExtendsRefl(root);
    }
  }

  /**
   * `remove`: refused for a path that is not absolute, or whose parent is not
   * a directory holding a child of the final name; otherwise that child, file
   * or directory, is dropped from the parent's children with its subtree.
   */
  function Remove(root: Node, path: string): (r: (Node, Outcome))
    ensures r.1 != Done ==> r.0 == root
    ensures r.1 == Done || r.1 == Failed(NotAbsolute) || r.1 == Failed(NotFound)
    ensures r.1 == Failed(NotAbsolute) <==> !IsAbsolute(path)
    ensures r.1 == Done <==> IsAbsolute(path) && ParentIsDir(root, path)
                             && ParentAndName(path).1 in Resolve(root, ParentAndName(path).0).value.children
  {
    if !IsAbsolute(path) then (root, Failed(NotAbsolute))
    else
      var (parentPath, name) := ParentAndName(path);
      match Resolve(root, parentPath)
      case None => (root, Failed(NotFound))
      case Some(parent) =>
        if !parent.isDir || name !in parent.children then (root, Failed(NotFound))
        else (ReplaceAt(root, Segments(parentPath), parent.(children := parent.children - {name})), Done)
  }

  /**
   * After a successful `remove` of a path not ending in a slash, the path and
   * everything below it no longer resolve.
   */
  lemma RemoveDetaches(root: Node, path: string)
    requires Remove(root, path).1 == Done && path[|path| - 1] != Slash
    ensures Resolve(Remove(root, path).0, path) == None
    ensures forall q :: Walk(Remove(root, path).0, Segments(path) + q) == None
  {
    var (parentPath, name) := ParentAndName(path);
    var ps := Segments(parentPath);
    RemoveShape(root, path);
    DropChildBelow(root, ps, name);
    assert Segments(path) + [] == Segments(path);
  }

  /** Dropping child `name` of the node at `ps` detaches everything below `ps + [name]`. */
  lemma DropChildBelow(root: Node, ps: seq<string>, name: string)
    requires Walk(root, ps).Some?
    ensures var parent := Walk(root, ps).value;
      forall q :: Walk(ReplaceAt(root, ps, parent.(children := parent.children - {name})), ps + [name] + q) == None
  {
    var parent := Walk(root, ps).value;
    var m := parent.(children := parent.children - {name});
    forall q ensures Walk(ReplaceAt(root, ps, m), ps + [name] + q) == None {
      assert ps + [name] + q == ps + ([name] + q);
      ReplaceAtBelow(root, ps, m, [name] + q);
    }
  }

  /**
   * A successful `remove` of a path not ending in a slash takes exactly that
   * child from its parent, and changes nothing apart from the removed path.
   */
  lemma RemoveKeepsRest(root: Node, path: string)
    requires Remove(root, path).1 == Done && path[|path| - 1] != Slash
    ensures var ps := Segments(ParentAndName(path).0);
      && Walk(Remove(root, path).0, ps).Some?
      && Walk(Remove(root, path).0, ps).value.children == Walk(root, ps).value.children - {ParentAndName(path).1}
    ensures forall q :: Apart(Segments(path), q) ==> Walk(Remove(root, path).0, q) == Walk(root, q)
  {
    var (parentPath, name) := ParentAndName(path);
    var ps := Segments(parentPath);
    RemoveShape(root, path);
    var parent := Walk(root, ps).value;
    var m := parent.(children := parent.children - {name});
    ReplaceChildApartAll(root, ps, name, m);
  }

  /** What a successful `remove` of a path not ending in a slash rebuilds. */
  lemma RemoveShape(root: Node, path: string)
    requires Remove(root, path).1 == Done && path[|path| - 1] != Slash
    ensures var (parentPath, name) := ParentAndName(path);
      var ps := Segments(parentPath);
      && name != []
      && Segments(path) == ps + [name]
      && Walk(root, ps).Some?
      && Remove(root, path).0 == ReplaceAt(root, ps, Walk(root, ps).value.(children := Walk(root, ps).value.children - {name}))
  {
    var (parentPath, name) := ParentAndName(path);
    ParentSegments(path);
    var pos := LastIndexOf(path, Slash);
    assert pos < |path| - 1;
    assert name != [];
  }

  /**
   * `remove("/")` is accepted when the root has a child with the empty name
   * (which `create("")` makes): it drops that child, and `"/"` still resolves.
   */
  lemma RemoveSlash(root: Node)
    requires root.isDir && "" in root.children
    ensures Remove(root, "/") == (root.(children := root.children - {""}), Done)
    ensures Resolve(Remove(root, "/").0, "/").Some?
  {
    assert LastIndexOf("/", Slash) == 0;
    assert "/"[1..] == "";
  }

  /** `remove` keeps the tree valid. */
  lemma RemoveValid(root: Node, path: string)
    requires Valid(root)
    ensures Valid(Remove(root, path).0)
  {
    var r := Remove(root, path);
    if r.1 == Done {
      var (parentPath, name) := ParentAndName(path);
      var ps := Segments(parentPath);
      var parent := Walk(root, ps).value;
      ValidWalk(root, ps);
      ValidReplaceAt(root, ps, parent.(children := parent.children - {name}));
    }
  }
}
